=== FILE: README.md ===
# Traffic grid simulator core, modelled in Dafny

This project models the core of a grid-city traffic simulator:

- **Road generation** (`roads.py`). Base road stripes are laid on both axes at randomly spaced positions. One highway and up to three collector stripes are laid by priority overwrite: highway over collector over local. A base stripe marks an intersection on every road cell it crosses and records its cells as original road. A highway or collector stripe marks an intersection only on the road cells it crosses that are not original base-road cells (`roads.py:31-33`). Then the generator randomly erases local-road segments between adjacent base roads.
- **Cell moves** (`cell.py`). A cell works out its allowed moves from its neighbourhood:
  - an intersection gets the exits of its corner;
  - a straight-road cell gets the lane direction of the side of the road it lies on.
- **The car** (`car.py`):
  - its speed is taken from the type of its start cell;
  - road-cell and right-hand lane tests;
  - A* path search over orthogonal moves, with parent-link path reconstruction;
  - the per-tick `update`, which walks the path in sub-steps. A sub-step stops at the first failing check: off-grid, random hesitation, red light, or occupied cell.

Randomness is supplied as inputs:
- the `randint` steps;
- the axis, highway and collector choices;
- the removal coins;
- the per-sub-step hesitation draw.

The heap's pop order is left arbitrary: the open list is a multiset and every proof holds for any pop order. The heuristic is an input function. Cell lights and occupancy are oracles that an update consults. The `car_enters` / `leaving` calls an update makes are returned as a sequence of events.

Modules:

| file | module | models |
|---|---|---|
| `common.dfy` | `Common` | option/result types, positions, rectangular grids |
| `sorting.dfy` | `Sorting` | `sorted()` on integer lists |
| `roads.dfy` | `Roads` | the city grid, `_set_with_intersections`, `_find_largest_gap`, `spaced_positions`, stripe bounds, segment erasure |
| `road_network.dfy` | `RoadNetwork` | `generateRoads` as a whole |
| `cell_moves.dfy` | `CellMoves` | `addMove`, `add_possible_moves` and its `is_valid` / `is_intersection` / `is_road` |
| `lanes.dfy` | `Lanes` | the car's grid, `is_within_grid`, `is_road_cell`, `is_on_correct_lane` |
| `search.dfy` | `Search` | `a_star_search`, `trace_path`, `compute_path` |
| `vehicle.dfy` | `Vehicle` | the car's construction (speed), `update` |

Behaviour of the code that the model keeps:

- **Collectors:** they are placed on the remaining base positions of the highway's own axis, not the orthogonal one (`roads.py:92-109`).
- **Highway count:** exactly one highway is laid.
- **Empty block size range:** a minimum above the maximum makes the first `random.randint` raise (`roads.py:68`); `GenerateRoads` returns `Failure(EmptyRange)`.
- **No base position on either axis:** the axis becomes `'v'` and `random.choice([])` raises; `GenerateRoads` returns `Failure(NoBasePositions)`.
- **A write that selects no cell:** the priority lookup (`np.vectorize` on an empty array, `roads.py:29`, `roads.py:38`) raises `ValueError`. This happens with a zero base, highway or collector width, or a base stripe across an axis of length 0. `GenerateRoads` returns `Failure(EmptyWrite)`.
- **Removal coin:** `and` short-circuits (`roads.py:116`, `roads.py:126`), so a random number is drawn only for a segment that is all local road.
- **Slice bounds:** a stop of 0 in a slice handed to `_set_with_intersections` means "to the end of the axis" (`stop or n`).
- **No path found:** the car is not marked as arrived and its path stays empty. Every later update therefore runs the search again (`car.py:192-193`), finds no path again and only calls `leaving` on its cell. There is no failure counter.
- **Speed:** it is fixed at construction from the start cell's type, as `int(type / 2)` sub-steps, and never re-read.
- **Sub-step checks:**
  - the lane check at movement time is commented out in the source;
  - the red-light check applies whenever the target is an intersection, whatever the current cell is.

## Model

| member | source | states |
|---|---|---|
| Sorting.Sort | roads.py:54 | the result is sorted and is a permutation of the input |
| Roads.Priority | roads.py:28-29 | ranks local 1, collector 2, highway 3 and everything else 0; positive exactly on road values |
| Roads.PriorityInjective | roads.py:28-29 | distinct road values have distinct priorities, so the priority order decides every overwrite |
| Roads.Upgrade | roads.py:38-42 | a written cell keeps its value or takes the new one, ends at the higher of the two priorities, and changes only on a strict upgrade |
| Roads.UpgradeCommutes | roads.py:38-42 | two priority writes to one cell give the same value in either order |
| Roads.EmptyCity | roads.py:15-17 | a fresh city is all block, with no intersections and no original roads |
| Roads.SetWithIntersections | roads.py:19-49 | outside the rectangle nothing changes; no cell is ever downgraded; inside, each cell takes the higher-priority of its value and the road value; intersections are only ever set; with record_original every road cell crossed becomes an intersection and the rectangle becomes original road; without it, only crossed roads not laid as original roads become intersections |
| Roads.TrySetWithIntersections | roads.py:19-49 | the write raises (None) exactly when, after `stop or n`, the start is not below the stop on one of the axes; otherwise it is the write itself |
| Roads.StripeWritesCommute | roads.py:19-49 | the value grid after two stripe writes does not depend on their order |
| Roads.StripeWriteIdempotent | roads.py:19-49 | writing the same stripe twice leaves the value grid as one write does |
| Roads.FindLargestGap | roads.py:53-63 | the result is the midpoint of the first strictly largest gap between consecutive sorted positions framed by 0 and the length; it is 0 when no gap is positive |
| Roads.GapScanStep | roads.py:58-62 | one loop step keeps the scan invariant: a gap strictly larger than the best so far takes over, and an equal gap keeps the earlier one |
| Roads.CursorWalk | roads.py:66-73 | positions reached by a cursor advancing by random steps in [min, max] are increasing, start within [min, max], and are spaced by one step each |
| Roads.SpacedPositions | roads.py:66-73 | the positions are exactly the cursor walk up to the first cursor at or beyond length - base width: increasing, spaced by the steps, and all inside the axis |
| Roads.StripeBounds | roads.py:88-90 | the bounds lie in [0, limit] and span at most the stripe width; the stripe is centred on the base road's centre unless clipped at 0, and has its full width unless clipped at the limit; a centre inside the axis selects at least one cell |
| Roads.StripeCoversBase | roads.py:88-90 | a stripe at least as wide as the base road covers the base road it is centred on |
| Roads.EraseSegment | roads.py:115-118 | a segment is erased, to block and not original, exactly when it is all local road and the coin falls; nothing outside the segment and no intersection changes |
| Roads.EraseAll | roads.py:111-128 | the removal pass only ever turns local road into block, never touches intersections, and leaves every cell outside all segments unchanged |
| Roads.EraseAllWhole | roads.py:111-128 | the removal pass erases whole segments only: every cell it changes lies in a segment that was entirely local road before the pass and is entirely block after it |
| RoadNetwork.WriteRectsValues | roads.py:78-82 | writing stripes in order never downgrades a cell; every cell keeps its value or takes the written one; writing a road value keeps a city of roads and blocks |
| RoadNetwork.WriteRectsCover | roads.py:78-82 | after the writes every covered cell ranks at least as the written value, and every cell no stripe covers is unchanged |
| RoadNetwork.WriteRectsMarks | roads.py:78-82 | intersections stay marked; with record_original every road cell a stripe covers becomes an intersection |
| RoadNetwork.RowBases | roads.py:78-79 | the k-th base stripe covers exactly the base-width rows from the k-th row position, across the whole width |
| RoadNetwork.ColBases | roads.py:81-82 | the k-th base stripe covers exactly the base-width columns from the k-th column position, down the whole height |
| RoadNetwork.AxisStripeCovers | roads.py:88-97 | a highway or collector stripe at least as wide as the base road contains the base road's cells, and on a base position inside the axis it selects at least one cell |
| RoadNetwork.Segments | roads.py:111-128 | the segments in visiting order: for each row position, the gap from each column position plus the base width to the next column position; then for each column position, the same gaps between row positions; each at its stated index, and no others |
| RoadNetwork.GapsInOrder | roads.py:111-128 | the row pass followed by the column pass holds the j-th gap of the i-th stripe at index i * gaps + j, the column pass after all row gaps |
| RoadNetwork.RowPassAt | roads.py:111-118 | the j-th gap of the i-th row stripe is the segment at index i * gaps + j of the row pass |
| RoadNetwork.ColPassAt | roads.py:121-128 | the j-th gap of the i-th column stripe is the segment at index i * gaps + j of the column pass |
| RoadNetwork.SegmentsOfTwoByTwo | roads.py:111-128 | with two row and two column positions the pass visits the two row gaps and then the two column gaps |
| RoadNetwork.SegmentsAvoidCrossings | roads.py:111-128 | with ascending positions no removal segment touches a cell where a row base stripe crosses a column base stripe, since each segment starts after one base road and ends at the next |
| RoadNetwork.Without | roads.py:92 | the remaining positions are the axis positions other than the highway's |
| RoadNetwork.Sample | roads.py:93 | random.sample takes min(k, len) picks, without replacement, from the pool |
| RoadNetwork.CollectorPicks | roads.py:92-93 | the collector positions are positions of the highway's axis other than the highway's; with distinct positions they are distinct and number min(positions - 1, count) |
| RoadNetwork.CollectorsPlaced | roads.py:92-93 | with distinct positions, collectors exist exactly when the highway's axis has a second position |
| RoadNetwork.LayBases | roads.py:78-82 | after the base stripes a cell is local road exactly when it lies on a base stripe and block otherwise, and every cell where a row stripe crosses a column stripe is an intersection |
| RoadNetwork.BaseCrossings | roads.py:78-82 | where a row base stripe crosses a column base stripe, the column pass finds a road and marks an intersection |
| RoadNetwork.LayWideRoads | roads.py:86-109 | after the highway and collectors no cell is downgraded and no intersection lost, every highway cell ranks as highway and every collector cell at least as collector, and every cell off the wide roads keeps its value |
| RoadNetwork.WidenedFacts | roads.py:78-109 | before removal every base-stripe cell holds a road, every cell off all roads is block, the wide roads rank as laid, and every base crossing is marked |
| RoadNetwork.ChooseWide | roads.py:84-109 | the highway axis is the drawn one when both axes have positions and otherwise the one that has them; the highway is the stripe of one of its positions; the collectors are stripes of other positions of the same axis, distinct and min(positions - 1, count) of them; every rectangle lies inside the city |
| RoadNetwork.RemovalKeepsWideRoads | roads.py:111-128 | segment removal leaves the highway and every collector intact and every crossing of base roads an intersection |
| RoadNetwork.ErasureKeepsBlocks | roads.py:111-128 | the removal pass keeps every cell off all roads as block |
| RoadNetwork.ChosenStripesSelect | roads.py:88-109 | with positive widths and sizes, the highway and every collector stripe select at least one cell |
| RoadNetwork.Build | roads.py:78-128 | the generated city has only block and road values, an intact highway, intact collectors, all base crossings marked, and block on every cell off all roads; it is the widened city with whole all-local segments erased and every cell off the segments unchanged, so every base-stripe cell off the segments, every crossing in particular, is still road |
| RoadNetwork.BaseSurvives | roads.py:111-128 | a removal that keeps every cell off the segments keeps every base-stripe cell there a road, and every crossing a road |
| RoadNetwork.GenerateRoads | roads.py:65-128 | generation fails with EmptyRange exactly when the block size range is empty, with NoBasePositions exactly when the range is not empty and neither axis gets a base position, and with EmptyWrite exactly when a base position exists and some write selects no cell; otherwise the base positions are the two ascending cursor walks, the highway axis is the one decided from them, and the city has every property of Build, removal included |
| RoadNetwork.PlaceWideRoads | roads.py:84-128 | once the base stripes select cells, the wide-road writes raise exactly when the highway width is zero or a collector is placed with zero width; otherwise the city has every property of Build, removal included |
| RoadNetwork.BaseWriteRaises | roads.py:78-82 | a zero base width, or a base stripe across an axis of length 0, makes generation raise |
| RoadNetwork.WideWriteRaises | roads.py:84-109 | after the base stripes, generation raises exactly when the highway or a placed collector has zero width |
| RoadNetwork.AxisReach | roads.py:66-76 | an axis's positions are its cursor walk, distinct and inside the axis, and it has a first or second position exactly when the cursor reaches it below length - base width |
| CellMoves.AddMove | cell.py:8-9 | the move is appended; earlier moves and the cell's identity are kept |
| CellMoves.MaskProbes | cell.py:15-22 | the helpers `IsValid`, `IsIntersection` and `IsRoad`: a position on the grid addresses a cell of every mask; a probe off the grid is neither an intersection nor a road, and one on the grid reads the intersection mask, or the horizontal and vertical masks |
| CellMoves.IntersectionMoves | cell.py:25-49 | an intersection gains exactly the road-leading exits of the corner named by its first missing diagonal: at most two, distinct, the north or south exit before the east or west one, none when all diagonals are roads |
| CellMoves.StraightMovesAsWritten | cell.py:52-70 | a road cell gains one move exactly when it lies on one side of a road, with the source's direction for that side, and none when it lies on no side |
| CellMoves.StraightMoves | cell.py:52-70 | a road cell gains one move exactly when it lies on one side of a road, with the right-hand-traffic direction for that side, and none when it lies on no side |
| CellMoves.MovesFor | cell.py:11-70 | a cell that is neither an intersection nor a road gains nothing; every gained move is a unit step to a road cell; intersections follow the corner rule and road cells the side rule |
| CellMoves.AddPossibleMovesAsWritten | cell.py:11-70 | the cell's moves are extended by the as-written rule and nothing else about the cell changes |
| CellMoves.AddPossibleMoves | cell.py:11-70 | the cell's moves are extended by the corrected rule and nothing else about the cell changes |
| CellMoves.StraightMovesKeepLane | cell.py:52-70 | every straight-road move of the corrected rule is one the car's lane check allows |
| CellMoves.AsWrittenRightLaneGoesSouth | cell.py:67-70 | on the right-hand column of a two-lane vertical road the source's rule sends the car south, which the lane check forbids; the corrected rule sends it north, which the lane check allows |
| Lanes.IsWithinGrid | car.py:39-45 | true exactly for in-bounds, present cells of type 2, 3, 4 or 6 |
| Lanes.IsRoadCell | car.py:53-55 | a missing cell is no road cell, and a present one is a road cell exactly when its type is 2, 3, 4 or 6 (the definition; `IsWithinGrid` agrees with it on the grid) |
| Lanes.ColumnRun | car.py:66-77 | the bounds of the maximal run of road cells in the column through the cell |
| Lanes.RowRun | car.py:88-99 | the bounds of the maximal run of road cells in the row through the cell |
| Lanes.IsOnCorrectLane | car.py:57-108 | agrees with the lane rule: any move touching an intersection is allowed; east on the lane with no road below, west with none above, south with none to the left, north with none to the right; anything else is refused |
| Search.NbAdjacent | car.py:143 | the four neighbour offsets reach exactly the orthogonally adjacent positions |
| Search.Trace | car.py:110-119 | a position without a parent traces nothing and a root traces itself; a traced chain starts at a root, ends at the position, follows one parent link per step, meets no root before its start, and has at most fuel + 1 positions |
| Search.TraceFromClosed | car.py:110-119 | from every closed position, the parent walk reaches the source, as a walk of accepted moves, within its closing rank |
| Search.TraceNeverRoots | car.py:110-119 | when no position in a set is its own parent, the parent walk from the set never ends |
| Search.Relax | car.py:151-178 | a neighbour is reported reached exactly when it is an accepted move to the destination; otherwise the search invariant is kept and the neighbour ends up closed or open |
| Search.Expand | car.py:151-178 | expanding a position either reaches the destination from it or leaves every accepted move from it pointing at a closed or open position |
| Search.Pop | car.py:145-149 | the popped position was open; an already closed one is dropped and the open list shrinks; otherwise it is closed and expanded, keeping the search invariant |
| Search.FoundPathSound | car.py:160-163 | when the destination is first met from a closed position, path reconstruction returns a walk of accepted moves from the source to the destination |
| Search.SelfLoopDiverges | car.py:160-163 | when the destination is the source and is met again, the source loses its self-parent and path reconstruction never ends |
| Search.SearchExhausted | car.py:145-180 | when the open list runs out, no walk of accepted moves leads from the source to the destination |
| Search.GiveUp | car.py:180 | an exhausted search returns [] for a car that has reached its destination and [position] otherwise |
| Search.AStarSearch | car.py:125-180 | a returned path of length >= 2 is a walk from the source to the destination; a shorter result is [position], or [] for an arrived car, and then no walk exists; the search hangs exactly when the destination is the source and some walk returns to it |
| Search.ComputePath | car.py:121-123 | the stored path omits the start; it is empty exactly when no walk exists; otherwise it ends at the destination and continues a walk from the position |
| Search.ReturnToSourceWalk | car.py:160-163 | two adjacent intersection cells admit a walk from a cell back to itself, so the hang is reachable |
| Search.AStarSearchFixed | car.py:125-180 | the search with the destination test kept off the source: a source that is its destination gives [source]; otherwise the result is shorter than two positions exactly when no walk leads to the destination, and is a walk from source to destination when it is not; it never hangs |
| Vehicle.Steps | car.py:199 | `range(int(speed))` attempts the truncated speed in sub-steps, and none for a speed below 1 |
| Vehicle.Trunc | car.py:199 | `int()` on a real truncates toward zero: the result is the integer part, below or at a non-negative input and above or at a negative one, by less than one |
| Vehicle.HalfSpeedSteps | car.py:19-20 | half a cell type as speed gives type / 2 sub-steps: 1 on local roads and intersections, 2 on collectors, 3 on highways |
| Vehicle.NewCar | car.py:7-21 | a new car sits on its start cell with no path, not arrived, no time spent, speed from the start cell's type, and enters its start cell |
| Vehicle.Judge | car.py:204-226 | each verdict holds exactly when the checks before it pass and its own fails: off-grid, hesitation, a red light on an intersection target, an occupied target; a sub-step goes exactly when all four pass |
| Vehicle.MarksOfMoves | car.py:228-229 | a run of leave-then-enter moves from the one held cell leaves exactly the last cell entered held |
| Vehicle.Advance | car.py:199-242 | as written: the tick fails with an index error exactly when every remaining path cell passes its check within the step budget; otherwise the car stops short of the last path cell after the passing sub-steps, its position is the path cell after the last one entered, and it is marked arrived when that look-ahead cell is the destination |
| Vehicle.SubSteps | car.py:199-232 | the sub-steps that pass their checks, each leaving one cell and entering the next; the loop overruns exactly when the last path cell is entered, and otherwise stopped on the budget or a failing check |
| Vehicle.Update | car.py:182-242 | an arrived car only leaves its cell; a car without a path plans one, and the update hangs exactly when the car is planning from its destination and a walk returns there; a car past the end of its path leaves its cell and spends no time; otherwise the sub-step loop as in Advance |
| Vehicle.EnteringDestinationFails | car.py:231-232 | a car one cell from its destination fails with an index error on the tick it enters it |
| Vehicle.PositionRunsAhead | car.py:231-242 | after one move the car holds the cell it entered while its position is the next path cell |
| Vehicle.BlockedFirstTick | car.py:231-242 | a tick whose first sub-step is blocked makes no call and still sets the position to the first path cell |
| Vehicle.BlockedStartStaysHeld | car.py:231-242 | a car blocked on its first sub-step takes the first path cell as its position without entering it; the next tick leaves that cell instead of the start cell, so the start cell stays held |
| Vehicle.AdvanceFixed | car.py:199-242 | corrected: the sub-steps pass their checks, stop at the step budget, the end of the path or the first failing check; the position is the last cell entered, and the car arrives exactly when that cell is the destination |
| Vehicle.FixedTickHoldsPosition | car.py:228-241 | after a corrected tick the car holds exactly the cell at its position, or no cell once arrived |
| Vehicle.UpdateFixed | car.py:182-242 | the corrected update never fails or hangs; planning leaves the path empty exactly when the car stands on its destination or no walk leads there, and a planned path ends at the destination along a walk; a car with no cell left on its path releases its cell, and otherwise the tick leaves it holding exactly the cell at its position, or no cell once arrived |
| Vehicle.FixedEntersDestination | car.py:231-241 | the corrected update enters the destination, arrives and releases it |

## Left out

- `plot_city_grid`, `spawnCar`, the `print` calls, and everything outside `roads.py`, `cell.py` and `car.py` (model, grid and main drivers, visualiser, sweeps): not part of this model.
- `is_destination` and `calculate_heuristic_value`:
  - the destination test is an equality inlined in the search;
  - the floating-point heuristic is an input function, since the proved properties hold for any heuristic.
- Heap order: the open list is a multiset popped in arbitrary order. Priority keys are computed and stored but do not constrain the pop.
- `trace_path` on numpy parent arrays:
  - a position without a parent reads -1 in the source and indexes the last row or column;
  - the model's parent map has no such entry and `Trace` returns `None`.
  - `Trace` carries a fuel bound. The search proves `|closed| + 1` suffices, so the bound cuts nothing off except the hang, which is characterised separately.
- Cell lights, occupancy and the `leaving` / `car_enters` bookkeeping:
  - `Env` answers the `isOccupied`, `getOnOrOff` and hesitation queries per sub-step;
  - the calls an update makes are returned as events rather than applied to cells.
- Vehicle.UpdateFixed: the correction changes only the look-ahead position and the self-parent search; a car that starts on its destination still gets an empty path, so like the source it releases its cell every tick and is never marked arrived.
- Vehicle.Update: the loop-top test `path_index >= len(path)` (`car.py:200-202`) is not modelled. It can never fire, because the position read at `car.py:232` fails first.
- Vehicle.Update: Python's negative-index wrap on `grid[y][x]` is not modelled. The car's position is required to be an in-bounds, present cell.
- Roads.SetWithIntersections: requires a selection of at least one cell. The `ValueError` an empty selection raises is modelled by `Roads.TrySetWithIntersections` returning None and by `RoadNetwork.GenerateRoads` failing with `EmptyWrite`.
- Roads.SpacedPositions and RoadNetwork.GenerateRoads: require a minimum spacing of at least 1 whenever the range is not empty. With a minimum of 0 the source's cursor loop (`roads.py:69-72`) may repeat positions, and with `block_size_range` (0, 0) it never advances and loops forever. An empty range (minimum above maximum) is not excluded: `GenerateRoads` fails with `EmptyRange` before any draw, where the source's first `random.randint` raises (`roads.py:68`). `SpacedPositions` itself still requires a non-empty range, since its only caller has already failed otherwise.
- RoadNetwork.Config: the base, collector and highway widths are natural numbers. The source accepts negative widths, whose slices then take Python's negative-index meaning; those configurations are not modelled.
- Integer widths: positions and counters are unbounded integers, as Python's are.

## Findings

| source | as written | input that shows it | evidently intended | confidence | as-written member | corrected member |
|---|---|---|---|---|---|---|
| cell.py:67-70 | the cell with no road to its right is sent south and the cell with no road to its left is sent north | a two-column vertical road; the right-hand column's middle cell gets South | south on the left lane and north on the right lane, as the comments and the car's lane check (`car.py:101-106`) have it | high, not executed | CellMoves.AddPossibleMovesAsWritten | CellMoves.AddPossibleMoves |
| car.py:160-163 | when the source is also the destination, meeting it again overwrites its self-parent, and `trace_path` loops forever | two adjacent intersection cells, a car at (0, 0) with destination (0, 0) | a car already at its destination needs no search | high, not executed | Search.AStarSearch | Search.AStarSearchFixed |
| car.py:231-242 | the index advances and the position is read at the new index, one cell ahead of the cell entered; entering the last path cell reads past the end | a 1 x 4 local road, speed 1, path [(0,1)] to (0,1): IndexError; path [(0,1),(0,2),(0,3)]: holds (0,1), position (0,2); the same path with the first sub-step blocked: position (0,1) without entering it, and after the next tick the start cell (0,0) is still held | the position is the cell just entered, and the tick stops at the end of the path | high, not executed | Vehicle.Update | Vehicle.UpdateFixed |

The witnesses for each row:
- **Lanes:** `CellMoves.AsWrittenRightLaneGoesSouth`, with `CellMoves.StraightMovesKeepLane` for the corrected rule.
- **Search:** `Search.ReturnToSourceWalk` and `Search.SelfLoopDiverges`.
- **Vehicle:** `Vehicle.EnteringDestinationFails`, `Vehicle.PositionRunsAhead` and `Vehicle.BlockedStartStaysHeld`, with `Vehicle.FixedTickHoldsPosition` and `Vehicle.FixedEntersDestination` for the corrected update.

=== FILE: cell_moves.dfy ===
/** The moves a cell allows, derived from its 3 x 3 neighbourhood in the
    intersection and road masks. Cells use (x, y) = (column, row) and moves
    are (dx, dy) with y growing southwards. */
module CellMoves {
  import opened Common
  import Lanes

  datatype Move = Move(dx: int, dy: int)

  const North: Move := Move(0, -1)
  const South: Move := Move(0, 1)
  const East: Move := Move(1, 0)
  const West: Move := Move(-1, 0)

  /** One step to an orthogonal neighbour. */
  predicate IsUnit(m: Move)
  {
    (m.dx == 0 && (m.dy == 1 || m.dy == -1)) || (m.dy == 0 && (m.dx == 1 || m.dx == -1))
  }

  datatype Cell = Cell(x: int, y: int, cellType: int, canMove: seq<Move>)

  /** Appends one move; earlier moves and the cell's identity are kept. */
  function AddMove(c: Cell, m: Move): (c': Cell)
    ensures c'.x == c.x && c'.y == c.y && c'.cellType == c.cellType
    ensures |c'.canMove| == |c.canMove| + 1
    ensures c'.canMove[..|c.canMove|] == c.canMove && c'.canMove[|c.canMove|] == m
  {
    c.(canMove := c.canMove + [m])
  }

  /** Appends the moves in order. */
  function AddMoves(c: Cell, ms: seq<Move>): (c': Cell)
    ensures c'.x == c.x && c'.y == c.y && c'.cellType == c.cellType
    ensures c'.canMove == c.canMove + ms
    decreases |ms|
  {
    if |ms| == 0 then c
    else
      assert c.canMove + ms == c.canMove + [ms[0]] + ms[1..];
      AddMoves(AddMove(c, ms[0]), ms[1..])
  }

  /** The boolean masks of the city, all of the city grid's shape. */
  datatype Masks = Masks(height: nat, width: nat, intersections: seq<seq<bool>>,
                         horizontal: seq<seq<bool>>, vertical: seq<seq<bool>>)
  {
    predicate Valid()
    {
      IsGrid(intersections, height, width) && IsGrid(horizontal, height, width)
      && IsGrid(vertical, height, width)
    }
  }

  /** `(x, y)` lies on the grid. */
  predicate IsValid(mk: Masks, x: int, y: int)
  {
    0 <= x < mk.width && 0 <= y < mk.height
  }

  predicate IsIntersection(mk: Masks, x: int, y: int)
    requires mk.Valid()
  {
    IsValid(mk, x, y) && mk.intersections[y][x]
  }

  predicate IsRoad(mk: Masks, x: int, y: int)
    requires mk.Valid()
  {
    IsValid(mk, x, y) && (mk.horizontal[y][x] || mk.vertical[y][x])
  }

  /** The three probes of `add_possible_moves`: a position on the grid
      addresses a cell of every mask; off the grid a probe is neither an
      intersection nor a road, and on it the probes read the masks. */
  lemma MaskProbes(mk: Masks, x: int, y: int)
    requires mk.Valid()
    ensures IsValid(mk, x, y) ==>
      && 0 <= y < |mk.intersections| && 0 <= x < |mk.intersections[y]|
      && 0 <= y < |mk.horizontal| && 0 <= x < |mk.horizontal[y]|
      && 0 <= y < |mk.vertical| && 0 <= x < |mk.vertical[y]|
    ensures !(0 <= x < mk.width && 0 <= y < mk.height) ==> !IsIntersection(mk, x, y) && !IsRoad(mk, x, y)
    ensures 0 <= x < mk.width && 0 <= y < mk.height ==>
      && (IsIntersection(mk, x, y) <==> mk.intersections[y][x])
      && (IsRoad(mk, x, y) <==> mk.horizontal[y][x] || mk.vertical[y][x])
  {
  }

  /** Which of the eight neighbours are roads. */
  datatype Around = Around(n: bool, s: bool, e: bool, w: bool, ne: bool, nw: bool, se: bool, sw: bool)

  function Neighbours(mk: Masks, x: int, y: int): Around
    requires mk.Valid()
  {
    Around(IsRoad(mk, x, y - 1), IsRoad(mk, x, y + 1), IsRoad(mk, x + 1, y), IsRoad(mk, x - 1, y),
           IsRoad(mk, x + 1, y - 1), IsRoad(mk, x - 1, y - 1), IsRoad(mk, x + 1, y + 1), IsRoad(mk, x - 1, y + 1))
  }

  /** Whether the orthogonal neighbour a move leads to is a road. */
  function Leads(a: Around, m: Move): bool
  {
    if m == North then a.n else if m == South then a.s
    else if m == East then a.e else if m == West then a.w
    else false
  }

  // ---------------------------------------------------------------------------
  // Intersections

  /** An intersection cell's corner, named by the diagonal found missing. */
  datatype Corner = MissingSE | MissingSW | MissingNW | MissingNE

  /** The first missing diagonal in the order SE, SW, NW, NE. */
  function CornerOf(a: Around): Option<Corner>
  {
    if !a.se then Some(MissingSE)
    else if !a.sw then Some(MissingSW)
    else if !a.nw then Some(MissingNW)
    else if !a.ne then Some(MissingNE)
    else None
  }

  /** The two exits a corner offers, away from its missing diagonal. */
  function CornerExits(k: Corner): set<Move>
  {
    match k
    case MissingSE => {North, East}
    case MissingSW => {North, West}
    case MissingNW => {South, West}
    case MissingNE => {South, East}
  }

  /** The exits of an intersection: exactly the road-leading exits of its
      corner, at most two and without repetition; none when all four
      diagonals are roads. When both exits are offered the north or south
      one comes first, then the east or west one. */
  function IntersectionMoves(a: Around): (ms: seq<Move>)
    ensures |ms| <= 2
    ensures |ms| == 2 ==> ms[0] != ms[1]
    ensures forall m :: m in ms <==> CornerOf(a).Some? && m in CornerExits(CornerOf(a).value) && Leads(a, m)
    ensures a.se && a.sw && a.nw && a.ne ==> ms == []
    ensures |ms| == 2 ==> ms[0].dx == 0 && ms[1].dy == 0
  {
    if !a.se then (if a.n then [North] else []) + (if a.e then [East] else [])
    else if !a.sw then (if a.n then [North] else []) + (if a.w then [West] else [])
    else if !a.nw then (if a.s then [South] else []) + (if a.w then [West] else [])
    else if !a.ne then (if a.s then [South] else []) + (if a.e then [East] else [])
    else []
  }

  // ---------------------------------------------------------------------------
  // Straight roads

  /** The four sides of a road a cell can lie on. */
  datatype Side = TopSide | BottomSide | LeftSide | RightSide

  /** The cell lies on the given side of a road: the three neighbours beyond
      that side are not roads and the other five are. */
  predicate OnSide(a: Around, side: Side)
  {
    match side
    case TopSide => !(a.nw || a.n || a.ne) && (a.w && a.e && a.sw && a.s && a.se)
    case BottomSide => !(a.sw || a.s || a.se) && (a.w && a.e && a.nw && a.n && a.ne)
    case RightSide => !(a.ne || a.e || a.se) && (a.n && a.s && a.nw && a.w && a.sw)
    case LeftSide => !(a.nw || a.w || a.sw) && (a.n && a.s && a.ne && a.e && a.se)
  }

  /** Right-hand traffic: the direction of the lane on each side of a road. */
  function DriveOn(side: Side): Move
  {
    match side
    case TopSide => West
    case BottomSide => East
    case LeftSide => South
    case RightSide => North
  }

  /** The move the source assigns to each side: left and right are swapped
      against the comments beside them and against the car's lane rule. */
  function DriveOnAsWritten(side: Side): Move
  {
    match side
    case TopSide => West
    case BottomSide => East
    case RightSide => South
    case LeftSide => North
  }

  /** The straight-road rule as written: top goes west, bottom east, and the
      cell with no road to its right goes south, the one with none to its
      left north. */
  function StraightMovesAsWritten(a: Around): (ms: seq<Move>)
    ensures |ms| <= 1
    ensures forall side :: OnSide(a, side) <==> ms == [DriveOnAsWritten(side)]
    ensures ms == [] <==> !OnSide(a, TopSide) && !OnSide(a, BottomSide) && !OnSide(a, LeftSide) && !OnSide(a, RightSide)
  {
    if !(a.nw || a.n || a.ne) && (a.w && a.e && a.sw && a.s && a.se) then [West]
    else if !(a.sw || a.s || a.se) && (a.w && a.e && a.nw && a.n && a.ne) then [East]
    else if !(a.ne || a.e || a.se) && (a.n && a.s && a.nw && a.w && a.sw) then [South]
    else if !(a.nw || a.w || a.sw) && (a.n && a.s && a.ne && a.e && a.se) then [North]
    else []
  }

  /** The straight-road rule with the vertical lanes as the comments and the
      car's lane rule intend: left side south, right side north. */
  function StraightMoves(a: Around): (ms: seq<Move>)
    ensures |ms| <= 1
    ensures forall side :: OnSide(a, side) <==> ms == [DriveOn(side)]
    ensures ms == [] <==> !OnSide(a, TopSide) && !OnSide(a, BottomSide) && !OnSide(a, LeftSide) && !OnSide(a, RightSide)
  {
    if !(a.nw || a.n || a.ne) && (a.w && a.e && a.sw && a.s && a.se) then [West]
    else if !(a.sw || a.s || a.se) && (a.w && a.e && a.nw && a.n && a.ne) then [East]
    else if !(a.nw || a.w || a.sw) && (a.n && a.s && a.ne && a.e && a.se) then [South]
    else if !(a.ne || a.e || a.se) && (a.n && a.s && a.nw && a.w && a.sw) then [North]
    else []
  }

  // ---------------------------------------------------------------------------
  // add_possible_moves

  /** The moves a cell gains from its neighbourhood: an intersection gets
      its corner's exits, a road cell the lane of the side it lies on,
      anything else nothing. `asWritten` selects the source's swapped
      vertical lanes. */
  function MovesFor(mk: Masks, x: int, y: int, asWritten: bool): (ms: seq<Move>)
    requires mk.Valid()
    ensures |ms| <= 2
    ensures !IsIntersection(mk, x, y) && !IsRoad(mk, x, y) ==> ms == []
    ensures forall m :: m in ms ==> IsUnit(m) && IsRoad(mk, x + m.dx, y + m.dy)
    ensures IsIntersection(mk, x, y) ==>
      var a := Neighbours(mk, x, y);
      forall m :: m in ms <==> CornerOf(a).Some? && m in CornerExits(CornerOf(a).value) && Leads(a, m)
    ensures !IsIntersection(mk, x, y) && IsRoad(mk, x, y) ==>
      ms == if asWritten then StraightMovesAsWritten(Neighbours(mk, x, y)) else StraightMoves(Neighbours(mk, x, y))
  {
    var a := Neighbours(mk, x, y);
    if IsIntersection(mk, x, y) then IntersectionMoves(a)
    else if IsRoad(mk, x, y) then
      if asWritten then StraightMovesAsWritten(a) else StraightMoves(a)
    else []
  }

  /** `add_possible_moves` as written, with the swapped vertical lanes: the
      cell's moves are extended by the as-written rule's moves and nothing
      else about the cell changes. */
  function AddPossibleMovesAsWritten(c: Cell, mk: Masks): (c': Cell)
    requires mk.Valid()
    ensures c'.x == c.x && c'.y == c.y && c'.cellType == c.cellType
    ensures c'.canMove == c.canMove + MovesFor(mk, c.x, c.y, true)
    ensures !IsIntersection(mk, c.x, c.y) && !IsRoad(mk, c.x, c.y) ==> c' == c
  {
    AddMoves(c, MovesFor(mk, c.x, c.y, true))
  }

  /** `add_possible_moves` with the vertical lanes the right way round: the
      cell's moves are extended by the corrected rule's moves and nothing
      else about the cell changes. */
  function AddPossibleMoves(c: Cell, mk: Masks): (c': Cell)
    requires mk.Valid()
    ensures c'.x == c.x && c'.y == c.y && c'.cellType == c.cellType
    ensures c'.canMove == c.canMove + MovesFor(mk, c.x, c.y, false)
    ensures !IsIntersection(mk, c.x, c.y) && !IsRoad(mk, c.x, c.y) ==> c' == c
  {
    AddMoves(c, MovesFor(mk, c.x, c.y, false))
  }

  // ---------------------------------------------------------------------------
  // Agreement with the car's lane rule

  /** The masks and the car's grid agree on which cells are roads. */
  predicate SameRoads(mk: Masks, g: Lanes.CarGrid)
    requires mk.Valid() && Lanes.WellFormed(g)
  {
    && mk.height == Lanes.Rows(g) && mk.width == Lanes.Cols(g)
    && forall y, x | 0 <= y < mk.height && 0 <= x < mk.width ::
         IsRoad(mk, x, y) <==> Lanes.IsRoadCell(g, y, x)
  }

  /** Every straight-road move of the corrected rule is one the car's lane
      rule allows, when the masks and the car's grid agree on road cells. */
  lemma {:induction false} StraightMovesKeepLane(c: Cell, mk: Masks, g: Lanes.CarGrid, m: Move)
    requires mk.Valid() && Lanes.WellFormed(g) && SameRoads(mk, g)
    requires !IsIntersection(mk, c.x, c.y) && IsRoad(mk, c.x, c.y)
    requires m in AddPossibleMoves(c, mk).canMove[|c.canMove|..]
    ensures Lanes.InBounds(g, c.y + m.dy, c.x + m.dx) && g[c.y + m.dy][c.x + m.dx].Present?
    ensures g[c.y][c.x].Present?
    ensures Lanes.LaneRule(g, c.y, c.x, c.y + m.dy, c.x + m.dx)
  {
    var a := Neighbours(mk, c.x, c.y);
    var ms := MovesFor(mk, c.x, c.y, false);
    assert ms == StraightMoves(a);
    assert AddPossibleMoves(c, mk).canMove[|c.canMove|..] == ms;
    assert m == ms[0];
    var side: Side :| OnSide(a, side) by {
      if ms == [West] { assert OnSide(a, TopSide); }
      else if ms == [East] { assert OnSide(a, BottomSide); }
      else if ms == [South] { assert OnSide(a, LeftSide); }
      else { assert ms == [North]; assert OnSide(a, RightSide); }
    }
    assert m == DriveOn(side);
    var i, j := c.y, c.x;
    match side
    case TopSide =>
      assert !Lanes.IsWithinGrid(g, i - 1, j) by { assert !a.n; }
    case BottomSide =>
      assert !Lanes.IsWithinGrid(g, i + 1, j) by { assert !a.s; }
    case LeftSide =>
      assert !Lanes.IsWithinGrid(g, i, j - 1) by { assert !a.w; }
    case RightSide =>
      assert !Lanes.IsWithinGrid(g, i, j + 1) by { assert !a.e; }
  }

  /** A two-column vertical road, all local road, used to show the source's
      swapped rule: three rows, two columns, no intersections. */
  function TwoLaneMasks(): (mk: Masks)
    ensures mk.Valid()
  {
    Masks(3, 2, Fill(3, 2, false), Fill(3, 2, false), Fill(3, 2, true))
  }

  function TwoLaneGrid(): (g: Lanes.CarGrid)
    ensures Lanes.WellFormed(g)
  {
    Fill(3, 2, Lanes.Present(2))
  }

  /** On the right-hand column of a two-lane vertical road the rule as
      written sends the car south, which the car's lane rule forbids there
      (south must use the leftmost column); the corrected rule sends it north,
      which the lane rule allows. */
  lemma AsWrittenRightLaneGoesSouth()
    ensures var c := Cell(1, 1, 2, []);
      && SameRoads(TwoLaneMasks(), TwoLaneGrid())
      && AddPossibleMovesAsWritten(c, TwoLaneMasks()).canMove == [South]
      && !Lanes.LaneRule(TwoLaneGrid(), 1, 1, 2, 1)
      && AddPossibleMoves(c, TwoLaneMasks()).canMove == [North]
      && Lanes.LaneRule(TwoLaneGrid(), 1, 1, 0, 1)
  {
    var mk := TwoLaneMasks();
    var g := TwoLaneGrid();
    var c := Cell(1, 1, 2, []);
    var a := Neighbours(mk, 1, 1);
    assert a == Around(true, true, false, true, false, true, false, true);
    assert OnSide(a, RightSide);
    assert AddPossibleMovesAsWritten(c, mk).canMove[0..] == [South];
    assert AddPossibleMoves(c, mk).canMove[0..] == [North];
    assert Lanes.IsWithinGrid(g, 1, 0);
    assert !Lanes.IsWithinGrid(g, 1, 2);
  }
}

=== FILE: common.dfy ===
/** Shared vocabulary: optional values, results with an error, and dense
    rectangular grids indexed row first, as the simulator's numpy arrays are. */
module Common {

  datatype Option<T> = None | Some(value: T)

  datatype Result<T, E> = Success(value: T) | Failure(error: E)

  /** A grid position as (row, column). */
  type Pos = (int, int)

  /** `g` has exactly `h` rows, each exactly `w` wide. */
  predicate IsGrid<T>(g: seq<seq<T>>, h: int, w: int)
  {
    |g| == h && forall y :: 0 <= y < |g| ==> |g[y]| == w
  }

  /** A grid of the given shape holding `v` everywhere. */
  function Fill<T>(h: nat, w: nat, v: T): (g: seq<seq<T>>)
    ensures IsGrid(g, h, w)
    ensures forall y, x :: 0 <= y < h && 0 <= x < w ==> g[y][x] == v
  {
    seq(h, _ => seq(w, _ => v))
  }

  /** Membership in the half-open rectangle [ys, ye) x [xs, xe). */
  predicate InRect(y: int, x: int, ys: int, ye: int, xs: int, xe: int)
  {
    ys <= y < ye && xs <= x < xe
  }

  function Max(a: int, b: int): int
  {
    if a < b then b else a
  }

  function Min(a: int, b: int): int
  {
    if a < b then a else b
  }
}

=== FILE: lanes.dfy ===
/** The car's view of the city: a grid of optional cells, the road-cell
    tests, and the right-hand lane rule that the contiguous-run scan of the
    car decides. Positions are (row, column). */
module Lanes {
  import opened Common

  /** One slot of the car's grid: no cell, or a cell of the given type. */
  datatype Slot = Missing | Present(cellType: int)

  /** The car's grid; its dimensions are taken from the first row. */
  type CarGrid = seq<seq<Slot>>

  const IntersectionType: int := 3

  predicate WellFormed(g: CarGrid)
  {
    |g| >= 1 && IsGrid(g, |g|, |g[0]|)
  }

  function Rows(g: CarGrid): int
  {
    |g|
  }

  function Cols(g: CarGrid): int
    requires |g| >= 1
  {
    |g[0]|
  }

  predicate InBounds(g: CarGrid, r: int, c: int)
    requires WellFormed(g)
  {
    0 <= r < Rows(g) && 0 <= c < Cols(g)
  }

  /** The cell types a car may drive on: local, intersection, collector, highway. */
  predicate IsRoadType(t: int)
  {
    t == 2 || t == IntersectionType || t == 4 || t == 6
  }

  /** A present cell of a drivable type: a missing cell is no road cell, and
      a present one is exactly when its type is one of 2, 3, 4 and 6. */
  predicate IsRoadCell(g: CarGrid, r: int, c: int)
    requires WellFormed(g) && InBounds(g, r, c)
    ensures g[r][c].Missing? ==> !IsRoadCell(g, r, c)
    ensures g[r][c].Present? ==> (IsRoadCell(g, r, c) <==> g[r][c].cellType in {2, 3, 4, 6})
  {
    g[r][c].Present? && IsRoadType(g[r][c].cellType)
  }

  /** In bounds and a road cell; false off the grid, on a missing cell, and
      on any type outside {2, 3, 4, 6}. */
  function IsWithinGrid(g: CarGrid, r: int, c: int): (b: bool)
    requires WellFormed(g)
    ensures b <==> InBounds(g, r, c) && IsRoadCell(g, r, c)
    ensures b ==> g[r][c].Present? && g[r][c].cellType in {2, 3, 4, 6}
    ensures InBounds(g, r, c) && g[r][c].Present? && !(g[r][c].cellType in {2, 3, 4, 6}) ==> !b
  {
    if !(0 <= r < Rows(g) && 0 <= c < Cols(g)) then false
    else if g[r][c].Missing? then false
    else g[r][c].cellType in {2, 3, 4, 6}
  }

  /** The maximal run of road cells in column `j` through row `i`; the cell
      (i, j) itself belongs to the run whatever it holds. */
  method ColumnRun(g: CarGrid, i: int, j: int) returns (lo: int, hi: int)
    requires WellFormed(g) && InBounds(g, i, j)
    ensures 0 <= lo <= i <= hi < Rows(g)
    ensures forall k :: lo <= k <= hi && k != i ==> IsRoadCell(g, k, j)
    ensures lo == 0 || !IsRoadCell(g, lo - 1, j)
    ensures hi == Rows(g) - 1 || !IsRoadCell(g, hi + 1, j)
  {
    lo, hi := i, i;
    var k := i - 1;
    while k >= 0 && IsRoadCell(g, k, j)
      invariant -1 <= k < i && lo == k + 1
      invariant forall t :: lo <= t < i ==> IsRoadCell(g, t, j)
    {
      lo := k;
      k := k - 1;
    }
    k := i + 1;
    while k < Rows(g) && IsRoadCell(g, k, j)
      invariant i < k <= Rows(g) && hi == k - 1
      invariant forall t :: i < t <= hi ==> IsRoadCell(g, t, j)
    {
      hi := k;
      k := k + 1;
    }
  }

  /** The maximal run of road cells in row `i` through column `j`. */
  method RowRun(g: CarGrid, i: int, j: int) returns (lo: int, hi: int)
    requires WellFormed(g) && InBounds(g, i, j)
    ensures 0 <= lo <= j <= hi < Cols(g)
    ensures forall k :: lo <= k <= hi && k != j ==> IsRoadCell(g, i, k)
    ensures lo == 0 || !IsRoadCell(g, i, lo - 1)
    ensures hi == Cols(g) - 1 || !IsRoadCell(g, i, hi + 1)
  {
    lo, hi := j, j;
    var k := j - 1;
    while k >= 0 && IsRoadCell(g, i, k)
      invariant -1 <= k < j && lo == k + 1
      invariant forall t :: lo <= t < j ==> IsRoadCell(g, i, t)
    {
      lo := k;
      k := k - 1;
    }
    k := j + 1;
    while k < Cols(g) && IsRoadCell(g, i, k)
      invariant j < k <= Cols(g) && hi == k - 1
      invariant forall t :: j < t <= hi ==> IsRoadCell(g, i, t)
    {
      hi := k;
      k := k + 1;
    }
  }

  /** Right-hand traffic stated on the neighbours of the current cell: any
      move touching an intersection is allowed; east runs on the lane with no
      road below, west on the lane with no road above, south on the lane with
      no road to the left, north on the lane with no road to the right; every
      other pair of positions is refused. */
  function LaneRule(g: CarGrid, i: int, j: int, ni: int, nj: int): bool
    requires WellFormed(g) && InBounds(g, i, j) && InBounds(g, ni, nj)
    requires g[i][j].Present? && g[ni][nj].Present?
  {
    if g[i][j].cellType == IntersectionType || g[ni][nj].cellType == IntersectionType then true
    else if i == ni && j != nj then
      if nj > j then !IsWithinGrid(g, i + 1, j) else !IsWithinGrid(g, i - 1, j)
    else if j == nj && i != ni then
      if ni > i then !IsWithinGrid(g, i, j - 1) else !IsWithinGrid(g, i, j + 1)
    else false
  }

  /** The lane check by contiguous-run scan: a horizontal move must be on the
      bottom (east) or top (west) row of the vertical run through the cell, a
      vertical move on the leftmost (south) or rightmost (north) column of the
      horizontal run. */
  method IsOnCorrectLane(g: CarGrid, i: int, j: int, ni: int, nj: int) returns (r: bool)
    requires WellFormed(g) && InBounds(g, i, j) && InBounds(g, ni, nj)
    requires g[i][j].Present? && g[ni][nj].Present?
    ensures g[i][j].cellType == IntersectionType || g[ni][nj].cellType == IntersectionType ==> r
    ensures r == LaneRule(g, i, j, ni, nj)
  {
    var currType := g[i][j].cellType;
    var nextType := g[ni][nj].cellType;
    if currType == IntersectionType || nextType == IntersectionType {
      return true;
    }
    if i == ni && j != nj {
      var iMin, iMax := ColumnRun(g, i, j);
      if nj > j {
        return i == iMax;
      } else {
        return i == iMin;
      }
    }
    if j == nj && i != ni {
      var jMin, jMax := RowRun(g, i, j);
      if ni > i {
        return j == jMin;
      } else {
        return j == jMax;
      }
    }
    return false;
  }
}

=== FILE: road_network.dfy ===
/** generateRoads: base stripes on both axes, one highway and up to three
    collector stripes on one axis, then random removal of local-road
    segments between adjacent base roads. Every random choice is an input. */
module RoadNetwork {
  import opened Common
  import opened Roads
  import Sorting

  /** The generator's size parameters: the spacing range of base roads and
      the widths of base roads, collector ("wide") roads and highways. */
  datatype Config = Config(blockMin: int, blockMax: int, baseWidth: nat, wideWidth: nat, highwayWidth: nat)

  /** The random choices generateRoads makes, supplied from outside. */
  datatype Draws = Draws(
    rowStep: nat -> int,        // randint(min, max) steps for the horizontal positions
    colStep: nat -> int,        // randint(min, max) steps for the vertical positions
    highwayOnRows: bool,        // choice(['h', 'v']), consulted when both axes have positions
    highwayPick: nat,           // choice(positions), taken modulo their number
    collectorCount: int,        // randint(1, 3)
    collectorPick: nat -> nat,  // sample(...), as successive picks from the shrinking pool
    removeCoin: nat -> bool)    // random() < road_remove, drawn only for all-local segments

  /** What was laid: the base positions, the axis, base position and
      rectangle of the highway, and the base positions and rectangles of the
      collectors (rectangles as slice bounds). */
  datatype Layout = Layout(rows: seq<int>, cols: seq<int>, highwayOnRows: bool,
                           highwayAt: int, highway: Rect,
                           collectorsAt: seq<int>, collectors: seq<Rect>)

  /** Why generation stops: `random.choice([])` with no base position on
      either axis, or the ValueError of a write whose selection is empty. */
  datatype GenError = EmptyRange | NoBasePositions | EmptyWrite

  predicate Distinct(s: seq<int>)
  {
    forall i, j :: 0 <= i < j < |s| ==> s[i] != s[j]
  }

  /** Coordinate `v` lies on the base stripe of one of the positions `ps`. */
  predicate InStripe(ps: seq<int>, bw: int, v: int)
  {
    exists i :: 0 <= i < |ps| && ps[i] <= v < ps[i] + bw
  }

  /** Every cell holds a block or a road value. */
  predicate RoadValuesOnly(c: City)
    requires c.Valid()
  {
    forall y, x :: 0 <= y < c.height && 0 <= x < c.width ==>
      c.grid[y][x] == Block || IsRoadValue(c.grid[y][x])
  }

  /** No cell of `c'` ranks below the same cell of `c`. */
  predicate NoDowngrade(c: City, c': City)
    requires c.Valid() && c'.Valid() && c'.height == c.height && c'.width == c.width
  {
    forall y, x :: 0 <= y < c.height && 0 <= x < c.width ==>
      Priority(c'.grid[y][x]) >= Priority(c.grid[y][x])
  }

  /** Cell (y, x) lies in the rectangle written with the slice bounds of `r`. */
  predicate Covers(r: Rect, h: int, w: int, y: int, x: int)
  {
    InRect(y, x, r.ys, SliceStop(r.ye, h), r.xs, SliceStop(r.xe, w))
  }

  /** Writes the rectangles in order, each with value `v`. What the writes
      do to the cells is stated by WriteRectsValues, WriteRectsCover and
      WriteRectsMarks. */
  function WriteRects(c: City, rects: seq<Rect>, v: int, record: bool): (c': City)
    requires c.Valid()
    requires forall k :: 0 <= k < |rects| ==> rects[k].FitsIn(c.height, c.width) && rects[k].NonEmptyIn(c.height, c.width)
    ensures c'.Valid() && c'.height == c.height && c'.width == c.width
    decreases |rects|
  {
    if |rects| == 0 then c
    else
      var r := rects[0];
      assert r.FitsIn(c.height, c.width) && r.NonEmptyIn(c.height, c.width);
      var mid := SetWithIntersections(c, r.ys, r.ye, r.xs, r.xe, v, record);
      assert forall k :: 0 < k < |rects| ==> rects[k] == rects[1..][k - 1];
      WriteRects(mid, rects[1..], v, record)
  }

  /** The writes never downgrade a cell; a cell keeps its value or takes
      `v`; writing a road value keeps a city of road values and blocks so. */
  lemma {:induction false} WriteRectsValues(c: City, rects: seq<Rect>, v: int, record: bool)
    requires c.Valid()
    requires forall k :: 0 <= k < |rects| ==> rects[k].FitsIn(c.height, c.width) && rects[k].NonEmptyIn(c.height, c.width)
    ensures var c' := WriteRects(c, rects, v, record);
      && NoDowngrade(c, c')
      && (forall y, x :: 0 <= y < c.height && 0 <= x < c.width ==>
            c'.grid[y][x] == c.grid[y][x] || c'.grid[y][x] == v)
      && (IsRoadValue(v) && RoadValuesOnly(c) ==> RoadValuesOnly(c'))
    decreases |rects|
  {
    if |rects| > 0 {
      var r := rects[0];
      assert r.FitsIn(c.height, c.width) && r.NonEmptyIn(c.height, c.width);
      var mid := SetWithIntersections(c, r.ys, r.ye, r.xs, r.xe, v, record);
      assert forall k :: 0 < k < |rects| ==> rects[k] == rects[1..][k - 1];
      WriteRectsValues(mid, rects[1..], v, record);
    }
  }

  /** Every cell a rectangle covers ends at least as high as `v`; a cell no
      rectangle covers keeps its value. */
  lemma {:induction false} WriteRectsCover(c: City, rects: seq<Rect>, v: int, record: bool)
    requires c.Valid()
    requires forall k :: 0 <= k < |rects| ==> rects[k].FitsIn(c.height, c.width) && rects[k].NonEmptyIn(c.height, c.width)
    ensures var c' := WriteRects(c, rects, v, record);
      && (forall k, y, x | 0 <= k < |rects| && 0 <= y < c.height && 0 <= x < c.width
            && Covers(rects[k], c.height, c.width, y, x) :: Priority(c'.grid[y][x]) >= Priority(v))
      && (forall y, x | 0 <= y < c.height && 0 <= x < c.width
            && (forall k | 0 <= k < |rects| :: !Covers(rects[k], c.height, c.width, y, x)) ::
              c'.grid[y][x] == c.grid[y][x])
    decreases |rects|
  {
    if |rects| > 0 {
      var r := rects[0];
      assert r.FitsIn(c.height, c.width) && r.NonEmptyIn(c.height, c.width);
      var mid := SetWithIntersections(c, r.ys, r.ye, r.xs, r.xe, v, record);
      assert forall k :: 0 < k < |rects| ==> rects[k] == rects[1..][k - 1];
      WriteRectsCover(mid, rects[1..], v, record);
      WriteRectsValues(mid, rects[1..], v, record);
    }
  }

  /** Intersections stay marked; with `record`, every road cell a rectangle
      covers becomes an intersection. */
  lemma {:induction false} WriteRectsMarks(c: City, rects: seq<Rect>, v: int, record: bool)
    requires c.Valid()
    requires forall k :: 0 <= k < |rects| ==> rects[k].FitsIn(c.height, c.width) && rects[k].NonEmptyIn(c.height, c.width)
    ensures var c' := WriteRects(c, rects, v, record);
      && (forall y, x :: 0 <= y < c.height && 0 <= x < c.width && c.intersections[y][x] ==>
            c'.intersections[y][x])
      && (record ==> forall k, y, x | 0 <= k < |rects| && 0 <= y < c.height && 0 <= x < c.width
            && Covers(rects[k], c.height, c.width, y, x) && IsRoadValue(c.grid[y][x]) :: c'.intersections[y][x])
    decreases |rects|
  {
    if |rects| > 0 {
      var r := rects[0];
      assert r.FitsIn(c.height, c.width) && r.NonEmptyIn(c.height, c.width);
      var mid := SetWithIntersections(c, r.ys, r.ye, r.xs, r.xe, v, record);
      assert forall k :: 0 < k < |rects| ==> rects[k] == rects[1..][k - 1];
      WriteRectsMarks(mid, rects[1..], v, record);
      WriteRectsValues(mid, rects[1..], v, record);
    }
  }

  /** Full-width base stripes at the given row positions. */
  function RowBases(rows: seq<int>, bw: nat, h: nat, w: nat): (rs: seq<Rect>)
    requires InAxis(rows, bw, h)
    ensures |rs| == |rows|
    ensures forall k :: 0 <= k < |rs| ==> rs[k].FitsIn(h, w)
    ensures bw >= 1 && w >= 1 ==> forall k :: 0 <= k < |rs| ==> rs[k].NonEmptyIn(h, w)
    // the k-th stripe covers exactly the rows of the k-th base road, across the city
    ensures forall k, y, x | 0 <= k < |rs| ::
      Covers(rs[k], h, w, y, x) <==> rows[k] <= y < rows[k] + bw && 0 <= x < w
  {
    seq(|rows|, k requires 0 <= k < |rows| => Rect(rows[k], rows[k] + bw, 0, w))
  }

  /** Full-height base stripes at the given column positions. */
  function ColBases(cols: seq<int>, bw: nat, h: nat, w: nat): (rs: seq<Rect>)
    requires InAxis(cols, bw, w)
    ensures |rs| == |cols|
    ensures forall k :: 0 <= k < |rs| ==> rs[k].FitsIn(h, w)
    ensures bw >= 1 && h >= 1 ==> forall k :: 0 <= k < |rs| ==> rs[k].NonEmptyIn(h, w)
    // the k-th stripe covers exactly the columns of the k-th base road, down the city
    ensures forall k, y, x | 0 <= k < |rs| ::
      Covers(rs[k], h, w, y, x) <==> 0 <= y < h && cols[k] <= x < cols[k] + bw
  {
    seq(|cols|, k requires 0 <= k < |cols| => Rect(0, h, cols[k], cols[k] + bw))
  }

  /** The stripe `width` wide centred on the base road at `pos`, across the
      whole other axis: a row stripe when `onRows`, else a column stripe. */
  function AxisStripe(pos: int, onRows: bool, bw: nat, width: nat, h: nat, w: nat): (r: Rect)
    ensures r.FitsIn(h, w)
    ensures if onRows then r.xs == 0 && r.xe == w else r.ys == 0 && r.ye == h
  {
    var limit := if onRows then h else w;
    var b := StripeBounds(pos, bw, width, limit);
    if onRows then Rect(b.0, b.1, 0, w) else Rect(0, h, b.0, b.1)
  }

  /** A stripe at least as wide as the base road contains the base road's
      stripe, and on a base position inside the axis it selects at least one
      cell. */
  lemma AxisStripeCovers(pos: int, onRows: bool, bw: nat, width: nat, h: nat, w: nat)
    requires 0 <= pos && pos + bw <= (if onRows then h else w)
    ensures var r := AxisStripe(pos, onRows, bw, width, h, w);
      bw <= width ==>
        forall y, x | 0 <= y < h && 0 <= x < w && (if onRows then pos <= y < pos + bw else pos <= x < pos + bw) ::
          Covers(r, h, w, y, x)
    ensures pos + bw < (if onRows then h else w) && width >= 1 && h >= 1 && w >= 1 ==>
      AxisStripe(pos, onRows, bw, width, h, w).NonEmptyIn(h, w)
  {
    var limit := if onRows then h else w;
    if bw <= width {
      StripeCoversBase(pos, bw, width, limit);
    }
  }

  /** Stripes `width` wide centred on the given base positions of one axis. */
  function WideRects(ps: seq<int>, onRows: bool, bw: nat, width: nat, h: nat, w: nat): (rs: seq<Rect>)
    ensures |rs| == |ps|
    ensures forall k :: 0 <= k < |rs| ==> rs[k] == AxisStripe(ps[k], onRows, bw, width, h, w)
    ensures forall k :: 0 <= k < |rs| ==> rs[k].FitsIn(h, w)
  {
    seq(|ps|, k requires 0 <= k < |ps| => AxisStripe(ps[k], onRows, bw, width, h, w))
  }

  /** The number of gaps between n consecutive positions. */
  function Gaps(n: int): nat
  {
    if n < 2 then 0 else n - 1
  }

  /** The segment of the row stripe at rows[i] between cols[j] and cols[j + 1]. */
  function RowSegment(rows: seq<int>, cols: seq<int>, bw: nat, i: int, j: int): Rect
    requires 0 <= i < |rows| && 0 <= j < |cols| - 1
  {
    Rect(rows[i], rows[i] + bw, cols[j] + bw, cols[j + 1])
  }

  /** The segment of the column stripe at cols[i] between rows[j] and rows[j + 1]. */
  function ColSegment(rows: seq<int>, cols: seq<int>, bw: nat, i: int, j: int): Rect
    requires 0 <= i < |cols| && 0 <= j < |rows| - 1
  {
    Rect(rows[j] + bw, rows[j + 1], cols[i], cols[i] + bw)
  }

  /** The local-road segments of the row stripe at `y` between consecutive
      column positions. */
  function RowGaps(cols: seq<int>, bw: nat, y: int, h: int, w: int): (rs: seq<Rect>)
    requires 0 <= y && y + bw <= h
    requires forall i :: 0 <= i < |cols| ==> 0 <= cols[i] <= w
    ensures forall k :: 0 <= k < |rs| ==> rs[k].FitsIn(h, w)
    ensures |rs| == Gaps(|cols|)
    ensures forall j :: 0 <= j < |rs| ==> rs[j] == Rect(y, y + bw, cols[j] + bw, cols[j + 1])
    decreases |cols|
  {
    if |cols| < 2 then []
    else [Rect(y, y + bw, cols[0] + bw, cols[1])] + RowGaps(cols[1..], bw, y, h, w)
  }

  /** The local-road segments of the column stripe at `x` between
      consecutive row positions. */
  function ColGaps(rows: seq<int>, bw: nat, x: int, h: int, w: int): (rs: seq<Rect>)
    requires 0 <= x && x + bw <= w
    requires forall i :: 0 <= i < |rows| ==> 0 <= rows[i] <= h
    ensures forall k :: 0 <= k < |rs| ==> rs[k].FitsIn(h, w)
    ensures |rs| == Gaps(|rows|)
    ensures forall j :: 0 <= j < |rs| ==> rs[j] == Rect(rows[j] + bw, rows[j + 1], x, x + bw)
    decreases |rows|
  {
    if |rows| < 2 then []
    else [Rect(rows[0] + bw, rows[1], x, x + bw)] + ColGaps(rows[1..], bw, x, h, w)
  }

  /** The blocks laid end to end. */
  function Flatten<T>(blocks: seq<seq<T>>): seq<T>
    decreases |blocks|
  {
    if |blocks| == 0 then [] else blocks[0] + Flatten(blocks[1..])
  }

  /** Blocks of g elements each flatten to Offset(|blocks|, g) elements. */
  lemma {:induction false} FlattenLength<T>(blocks: seq<seq<T>>, g: nat)
    requires forall b :: 0 <= b < |blocks| ==> |blocks[b]| == g
    ensures |Flatten(blocks)| == Offset(|blocks|, g)
    decreases |blocks|
  {
    if |blocks| > 0 {
      var tail := blocks[1..];
      assert forall b :: 0 <= b < |tail| ==> tail[b] == blocks[b + 1];
      FlattenLength(tail, g);
    }
  }

  /** Element j of block i sits at index Offset(i, g) + j of the flattening. */
  lemma {:induction false} FlattenAt<T>(blocks: seq<seq<T>>, g: nat, i: nat, j: nat)
    requires forall b :: 0 <= b < |blocks| ==> |blocks[b]| == g
    requires i < |blocks| && j < g
    ensures Offset(i, g) + j < |Flatten(blocks)|
    ensures Flatten(blocks)[Offset(i, g) + j] == blocks[i][j]
    decreases i
  {
    var tail := blocks[1..];
    assert forall b :: 0 <= b < |tail| ==> tail[b] == blocks[b + 1];
    FlattenLength(tail, g);
    if i > 0 {
      FlattenAt(tail, g, i - 1, j);
      AppendAt(blocks[0], Flatten(tail), Offset(i - 1, g) + j);
    } else {
      AppendAt(blocks[0], Flatten(tail), j);
    }
  }

  /** Every element of the flattening comes from some block. */
  lemma {:induction false} FlattenMember<T>(blocks: seq<seq<T>>, e: T)
    requires e in Flatten(blocks)
    ensures exists b :: 0 <= b < |blocks| && e in blocks[b]
    decreases |blocks|
  {
    if e !in blocks[0] {
      FlattenMember(blocks[1..], e);
      var b :| 0 <= b < |blocks[1..]| && e in blocks[1..][b];
      assert e in blocks[b + 1];
    }
  }

  /** Indexing a concatenation: the left part first, then the right part. */
  lemma AppendAt<T>(a: seq<T>, b: seq<T>, k: nat)
    requires k < |a| + |b|
    ensures (a + b)[k] == if k < |a| then a[k] else b[k - |a|]
  {
  }

  /** The gaps of each row stripe in `ys`, one block per stripe. */
  function RowBlocks(ys: seq<int>, cols: seq<int>, bw: nat, h: int, w: int): (bs: seq<seq<Rect>>)
    requires forall i :: 0 <= i < |ys| ==> 0 <= ys[i] && ys[i] + bw <= h
    requires forall i :: 0 <= i < |cols| ==> 0 <= cols[i] <= w
    ensures |bs| == |ys|
    ensures forall i :: 0 <= i < |bs| ==> bs[i] == RowGaps(cols, bw, ys[i], h, w)
  {
    seq(|ys|, i requires 0 <= i < |ys| => RowGaps(cols, bw, ys[i], h, w))
  }

  /** The gaps of each column stripe in `xs`, one block per stripe. */
  function ColBlocks(xs: seq<int>, rows: seq<int>, bw: nat, h: int, w: int): (bs: seq<seq<Rect>>)
    requires forall i :: 0 <= i < |xs| ==> 0 <= xs[i] && xs[i] + bw <= w
    requires forall i :: 0 <= i < |rows| ==> 0 <= rows[i] <= h
    ensures |bs| == |xs|
    ensures forall i :: 0 <= i < |bs| ==> bs[i] == ColGaps(rows, bw, xs[i], h, w)
  {
    seq(|xs|, i requires 0 <= i < |xs| => ColGaps(rows, bw, xs[i], h, w))
  }

  /** The row pass: the gaps of every row stripe in `ys`, across all of `cols`. */
  function RowPass(ys: seq<int>, cols: seq<int>, bw: nat, h: int, w: int): (rs: seq<Rect>)
    requires forall i :: 0 <= i < |ys| ==> 0 <= ys[i] && ys[i] + bw <= h
    requires forall i :: 0 <= i < |cols| ==> 0 <= cols[i] <= w
    ensures |rs| == Offset(|ys|, Gaps(|cols|))
  {
    var blocks := RowBlocks(ys, cols, bw, h, w);
    FlattenLength(blocks, Gaps(|cols|));
    Flatten(blocks)
  }

  /** The column pass: the gaps of every column stripe in `xs`, across all of `rows`. */
  function ColPass(xs: seq<int>, rows: seq<int>, bw: nat, h: int, w: int): (rs: seq<Rect>)
    requires forall i :: 0 <= i < |xs| ==> 0 <= xs[i] && xs[i] + bw <= w
    requires forall i :: 0 <= i < |rows| ==> 0 <= rows[i] <= h
    ensures |rs| == Offset(|xs|, Gaps(|rows|))
  {
    var blocks := ColBlocks(xs, rows, bw, h, w);
    FlattenLength(blocks, Gaps(|rows|));
    Flatten(blocks)
  }

  /** Every segment of the row pass fits the grid. */
  lemma RowPassFits(ys: seq<int>, cols: seq<int>, bw: nat, h: int, w: int)
    requires forall i :: 0 <= i < |ys| ==> 0 <= ys[i] && ys[i] + bw <= h
    requires forall i :: 0 <= i < |cols| ==> 0 <= cols[i] <= w
    ensures forall r :: r in RowPass(ys, cols, bw, h, w) ==> r.FitsIn(h, w)
  {
    var blocks := RowBlocks(ys, cols, bw, h, w);
    forall r: Rect | r in Flatten(blocks) ensures r.FitsIn(h, w) {
      FlattenMember(blocks, r);
      var b :| 0 <= b < |blocks| && r in blocks[b];
      var k :| 0 <= k < |blocks[b]| && blocks[b][k] == r;
    }
  }

  /** Every segment of the column pass fits the grid. */
  lemma ColPassFits(xs: seq<int>, rows: seq<int>, bw: nat, h: int, w: int)
    requires forall i :: 0 <= i < |xs| ==> 0 <= xs[i] && xs[i] + bw <= w
    requires forall i :: 0 <= i < |rows| ==> 0 <= rows[i] <= h
    ensures forall r :: r in ColPass(xs, rows, bw, h, w) ==> r.FitsIn(h, w)
  {
    var blocks := ColBlocks(xs, rows, bw, h, w);
    forall r: Rect | r in Flatten(blocks) ensures r.FitsIn(h, w) {
      FlattenMember(blocks, r);
      var b :| 0 <= b < |blocks| && r in blocks[b];
      var k :| 0 <= k < |blocks[b]| && blocks[b][k] == r;
    }
  }

  /** i blocks of g: the index where block i starts (i * g, by recursion to
      keep the solver off products). */
  function Offset(i: nat, g: nat): nat
  {
    if i == 0 then 0 else g + Offset(i - 1, g)
  }

  lemma {:induction false} OffsetIsProduct(i: nat, g: nat)
    ensures Offset(i, g) == i * g
  {
    if i > 0 {
      OffsetIsProduct(i - 1, g);
    }
  }

  /** The j-th gap of the i-th row stripe sits at index i * gaps + j of the row pass. */
  lemma RowPassAt(ys: seq<int>, cols: seq<int>, bw: nat, h: int, w: int, i: nat, j: nat)
    requires forall i :: 0 <= i < |ys| ==> 0 <= ys[i] && ys[i] + bw <= h
    requires forall i :: 0 <= i < |cols| ==> 0 <= cols[i] <= w
    requires i < |ys| && j < Gaps(|cols|)
    ensures Offset(i, Gaps(|cols|)) + j < |RowPass(ys, cols, bw, h, w)|
    ensures RowPass(ys, cols, bw, h, w)[Offset(i, Gaps(|cols|)) + j] == RowSegment(ys, cols, bw, i, j)
  {
    FlattenAt(RowBlocks(ys, cols, bw, h, w), Gaps(|cols|), i, j);
  }

  /** The j-th gap of the i-th column stripe sits at index i * gaps + j of the column pass. */
  lemma ColPassAt(xs: seq<int>, rows: seq<int>, bw: nat, h: int, w: int, i: nat, j: nat)
    requires forall i :: 0 <= i < |xs| ==> 0 <= xs[i] && xs[i] + bw <= w
    requires forall i :: 0 <= i < |rows| ==> 0 <= rows[i] <= h
    requires i < |xs| && j < Gaps(|rows|)
    ensures Offset(i, Gaps(|rows|)) + j < |ColPass(xs, rows, bw, h, w)|
    ensures ColPass(xs, rows, bw, h, w)[Offset(i, Gaps(|rows|)) + j] == ColSegment(rows, xs, bw, i, j)
  {
    FlattenAt(ColBlocks(xs, rows, bw, h, w), Gaps(|rows|), i, j);
  }

  /** `rs` holds the j-th gap of the i-th row stripe at index i * gaps + j. */
  predicate RowGapAt(rs: seq<Rect>, rows: seq<int>, cols: seq<int>, bw: nat, i: int, j: int)
    requires 0 <= i < |rows| && 0 <= j < Gaps(|cols|)
  {
    Offset(i, Gaps(|cols|)) + j < |rs| && rs[Offset(i, Gaps(|cols|)) + j] == RowSegment(rows, cols, bw, i, j)
  }

  /** `rs` holds, after the |rows| * gaps row gaps, the j-th gap of the i-th
      column stripe at index i * gaps + j. */
  predicate ColGapAt(rs: seq<Rect>, rows: seq<int>, cols: seq<int>, bw: nat, i: int, j: int)
    requires 0 <= i < |cols| && 0 <= j < Gaps(|rows|)
  {
    var k := Offset(|rows|, Gaps(|cols|)) + Offset(i, Gaps(|rows|)) + j;
    k < |rs| && rs[k] == ColSegment(rows, cols, bw, i, j)
  }

  /** The row pass followed by the column pass holds every gap in place. */
  lemma GapsInOrder(rows: seq<int>, cols: seq<int>, bw: nat, h: int, w: int, rs: seq<Rect>)
    requires forall i :: 0 <= i < |rows| ==> 0 <= rows[i] && rows[i] + bw <= h
    requires forall i :: 0 <= i < |cols| ==> 0 <= cols[i] && cols[i] + bw <= w
    requires rs == RowPass(rows, cols, bw, h, w) + ColPass(cols, rows, bw, h, w)
    ensures forall i, j | 0 <= i < |rows| && 0 <= j < Gaps(|cols|) :: RowGapAt(rs, rows, cols, bw, i, j)
    ensures forall i, j | 0 <= i < |cols| && 0 <= j < Gaps(|rows|) :: ColGapAt(rs, rows, cols, bw, i, j)
  {
    var rowPass := RowPass(rows, cols, bw, h, w);
    var colPass := ColPass(cols, rows, bw, h, w);
    forall i, j | 0 <= i < |rows| && 0 <= j < Gaps(|cols|)
      ensures RowGapAt(rs, rows, cols, bw, i, j)
    {
      RowPassAt(rows, cols, bw, h, w, i, j);
    }
    forall i, j | 0 <= i < |cols| && 0 <= j < Gaps(|rows|)
      ensures ColGapAt(rs, rows, cols, bw, i, j)
    {
      ColPassAt(cols, rows, bw, h, w, i, j);
      var k := Offset(i, Gaps(|rows|)) + j;
      assert rs[|rowPass| + k] == colPass[k];
    }
  }

  /** All segments in the order the removal pass visits them: for each row
      position, its gaps between consecutive column positions; then for each
      column position, its gaps between consecutive row positions. Every
      segment appears exactly once, at the index given. */
  function Segments(rows: seq<int>, cols: seq<int>, bw: nat, h: int, w: int): (rs: seq<Rect>)
    requires forall i :: 0 <= i < |rows| ==> 0 <= rows[i] && rows[i] + bw <= h
    requires forall i :: 0 <= i < |cols| ==> 0 <= cols[i] && cols[i] + bw <= w
    ensures forall r :: r in rs ==> r.FitsIn(h, w)
    ensures |rs| == Offset(|rows|, Gaps(|cols|)) + Offset(|cols|, Gaps(|rows|))
    ensures forall i, j | 0 <= i < |rows| && 0 <= j < Gaps(|cols|) :: RowGapAt(rs, rows, cols, bw, i, j)
    ensures forall i, j | 0 <= i < |cols| && 0 <= j < Gaps(|rows|) :: ColGapAt(rs, rows, cols, bw, i, j)
  {
    var rs := RowPass(rows, cols, bw, h, w) + ColPass(cols, rows, bw, h, w);
    RowPassFits(rows, cols, bw, h, w);
    ColPassFits(cols, rows, bw, h, w);
    GapsInOrder(rows, cols, bw, h, w, rs);
    rs
  }

  /** Two row and two column positions: the pass visits the two row gaps,
      then the two column gaps. */
  lemma SegmentsOfTwoByTwo()
    ensures Segments([5, 15], [5, 15], 2, 30, 30)
      == [Rect(5, 7, 7, 15), Rect(15, 17, 7, 15), Rect(7, 15, 5, 7), Rect(7, 15, 15, 17)]
  {
    var rs := Segments([5, 15], [5, 15], 2, 30, 30);
    assert rs[0] == RowSegment([5, 15], [5, 15], 2, 0, 0);
    assert rs[1] == RowSegment([5, 15], [5, 15], 2, 1, 0);
    assert rs[2] == ColSegment([5, 15], [5, 15], 2, 0, 0);
    assert rs[3] == ColSegment([5, 15], [5, 15], 2, 1, 0);
  }

  /** Cell (y, x) lies in none of the segments. */
  predicate OffSegments(segs: seq<Rect>, y: int, x: int)
  {
    forall k | 0 <= k < |segs| :: !InRect(y, x, segs[k].ys, segs[k].ye, segs[k].xs, segs[k].xe)
  }

  /** With ascending positions, the gap from ps[j] + bw to ps[j + 1] holds
      no coordinate of a base stripe. */
  lemma GapMissesStripes(ps: seq<int>, bw: int, j: int, v: int)
    requires Sorting.Sorted(ps) && 0 <= j < |ps| - 1 && InStripe(ps, bw, v)
    ensures !(ps[j] + bw <= v < ps[j + 1])
  {
    var m :| 0 <= m < |ps| && ps[m] <= v < ps[m] + bw;
    if m <= j {
      assert ps[m] <= ps[j];
    } else {
      assert ps[j + 1] <= ps[m];
    }
  }

  /** Each gap of one row stripe misses every column base stripe. */
  lemma RowGapsAvoid(cols: seq<int>, bw: nat, y0: int, h: int, w: int, x: int, r: Rect)
    requires 0 <= y0 && y0 + bw <= h
    requires forall i :: 0 <= i < |cols| ==> 0 <= cols[i] <= w
    requires Sorting.Sorted(cols) && InStripe(cols, bw, x)
    requires r in RowGaps(cols, bw, y0, h, w)
    ensures !(r.xs <= x < r.xe)
  {
    var gaps := RowGaps(cols, bw, y0, h, w);
    var j :| 0 <= j < |gaps| && gaps[j] == r;
    assert |gaps| == Gaps(|cols|) && j < |cols| - 1;
    assert r == Rect(y0, y0 + bw, cols[j] + bw, cols[j + 1]);
    GapMissesStripes(cols, bw, j, x);
  }

  /** Each gap of one column stripe misses every row base stripe. */
  lemma ColGapsAvoid(rows: seq<int>, bw: nat, x0: int, h: int, w: int, y: int, r: Rect)
    requires 0 <= x0 && x0 + bw <= w
    requires forall i :: 0 <= i < |rows| ==> 0 <= rows[i] <= h
    requires Sorting.Sorted(rows) && InStripe(rows, bw, y)
    requires r in ColGaps(rows, bw, x0, h, w)
    ensures !(r.ys <= y < r.ye)
  {
    var gaps := ColGaps(rows, bw, x0, h, w);
    var j :| 0 <= j < |gaps| && gaps[j] == r;
    assert |gaps| == Gaps(|rows|) && j < |rows| - 1;
    assert r == Rect(rows[j] + bw, rows[j + 1], x0, x0 + bw);
    GapMissesStripes(rows, bw, j, y);
  }

  /** A row-pass segment spans the columns between consecutive column base
      stripes, so it misses every column base stripe. */
  lemma RowPassAvoids(ys: seq<int>, cols: seq<int>, bw: nat, h: int, w: int, y: int, x: int)
    requires forall i :: 0 <= i < |ys| ==> 0 <= ys[i] && ys[i] + bw <= h
    requires forall i :: 0 <= i < |cols| ==> 0 <= cols[i] <= w
    requires Sorting.Sorted(cols) && InStripe(cols, bw, x)
    ensures OffSegments(RowPass(ys, cols, bw, h, w), y, x)
  {
    var blocks := RowBlocks(ys, cols, bw, h, w);
    forall r: Rect | r in Flatten(blocks) ensures !InRect(y, x, r.ys, r.ye, r.xs, r.xe) {
      FlattenMember(blocks, r);
      var b :| 0 <= b < |blocks| && r in blocks[b];
      RowGapsAvoid(cols, bw, ys[b], h, w, x, r);
    }
  }

  /** A column-pass segment spans the rows between consecutive row base
      stripes, so it misses every row base stripe. */
  lemma ColPassAvoids(xs: seq<int>, rows: seq<int>, bw: nat, h: int, w: int, y: int, x: int)
    requires forall i :: 0 <= i < |xs| ==> 0 <= xs[i] && xs[i] + bw <= w
    requires forall i :: 0 <= i < |rows| ==> 0 <= rows[i] <= h
    requires Sorting.Sorted(rows) && InStripe(rows, bw, y)
    ensures OffSegments(ColPass(xs, rows, bw, h, w), y, x)
  {
    var blocks := ColBlocks(xs, rows, bw, h, w);
    forall r: Rect | r in Flatten(blocks) ensures !InRect(y, x, r.ys, r.ye, r.xs, r.xe) {
      FlattenMember(blocks, r);
      var b :| 0 <= b < |blocks| && r in blocks[b];
      ColGapsAvoid(rows, bw, xs[b], h, w, y, r);
    }
  }

  /** With ascending positions no segment of the removal pass touches a cell
      where a row base stripe crosses a column base stripe. */
  lemma SegmentsAvoidCrossings(rows: seq<int>, cols: seq<int>, bw: nat, h: int, w: int, y: int, x: int)
    requires forall i :: 0 <= i < |rows| ==> 0 <= rows[i] && rows[i] + bw <= h
    requires forall i :: 0 <= i < |cols| ==> 0 <= cols[i] && cols[i] + bw <= w
    requires Sorting.Sorted(rows) && Sorting.Sorted(cols)
    requires InStripe(rows, bw, y) && InStripe(cols, bw, x)
    ensures OffSegments(Segments(rows, cols, bw, h, w), y, x)
  {
    var rowPass := RowPass(rows, cols, bw, h, w);
    var colPass := ColPass(cols, rows, bw, h, w);
    RowPassAvoids(rows, cols, bw, h, w, y, x);
    ColPassAvoids(cols, rows, bw, h, w, y, x);
    var segs := Segments(rows, cols, bw, h, w);
    assert segs == rowPass + colPass;
    forall k | 0 <= k < |segs| ensures !InRect(y, x, segs[k].ys, segs[k].ye, segs[k].xs, segs[k].xe) {
      AppendAt(rowPass, colPass, k);
    }
  }

  /** `s` with every occurrence of `v` dropped. */
  function Without(s: seq<int>, v: int): (r: seq<int>)
    ensures forall y :: y in r <==> y in s && y != v
    ensures |r| <= |s|
    // on distinct positions exactly `v` goes, if present, and the rest stay distinct
    ensures Distinct(s) ==> Distinct(r) && |r| == |s| - (if v in s then 1 else 0)
  {
    if |s| == 0 then []
    else
      assert Distinct(s) ==> s[0] !in s[1..] && Distinct(s[1..]);
      (if s[0] != v then [s[0]] else []) + Without(s[1..], v)
  }

  function RemoveAt(s: seq<int>, i: nat): (r: seq<int>)
    requires i < |s|
    ensures |r| == |s| - 1
    ensures multiset(r) + multiset{s[i]} == multiset(s)
    ensures Distinct(s) ==> Distinct(r) && s[i] !in r
  {
    assert s == s[..i] + [s[i]] + s[i + 1..];
    s[..i] + s[i + 1..]
  }

  /** `random.sample(pool, k)`: k picks without replacement, the j-th pick
      taking index pick(step + j) (modulo the size) of what is left. */
  function Sample(pool: seq<int>, k: nat, pick: nat -> nat, step: nat): (r: seq<int>)
    ensures |r| == Min(k, |pool|)
    ensures multiset(r) <= multiset(pool)
    ensures forall y :: y in r ==> y in pool
    ensures Distinct(pool) ==> Distinct(r)
    decreases k
  {
    if k == 0 || |pool| == 0 then []
    else
      var i := pick(step) % |pool|;
      var rest := Sample(RemoveAt(pool, i), k - 1, pick, step + 1);
      assert forall y :: y in rest ==> y in multiset(pool);
      [pool[i]] + rest
  }

  /** Every cell of the rectangle written with the slice bounds of `r` is highway. */
  predicate HighwayIntact(c: City, r: Rect)
    requires c.Valid()
  {
    forall y, x | 0 <= y < c.height && 0 <= x < c.width && Covers(r, c.height, c.width, y, x) ::
      c.grid[y][x] == HighwayRoad
  }

  /** Every cell of every collector rectangle is collector or highway. */
  predicate CollectorsIntact(c: City, rs: seq<Rect>)
    requires c.Valid()
  {
    forall k, y, x | 0 <= k < |rs| && 0 <= y < c.height && 0 <= x < c.width
      && Covers(rs[k], c.height, c.width, y, x) ::
        c.grid[y][x] == CollectorRoad || c.grid[y][x] == HighwayRoad
  }

  /** Every cell of the highway rectangle ranks as highway and every cell of
      a collector rectangle at least as collector. */
  predicate WideRanked(c: City, hrect: Rect, crects: seq<Rect>)
    requires c.Valid()
  {
    && (forall y, x | 0 <= y < c.height && 0 <= x < c.width && Covers(hrect, c.height, c.width, y, x) ::
          Priority(c.grid[y][x]) >= 3)
    && (forall k, y, x | 0 <= k < |crects| && 0 <= y < c.height && 0 <= x < c.width
          && Covers(crects[k], c.height, c.width, y, x) :: Priority(c.grid[y][x]) >= 2)
  }

  /** Every cell where a row base stripe crosses a column base stripe is an intersection. */
  predicate CrossingsMarked(c: City, rows: seq<int>, cols: seq<int>, bw: int)
    requires c.Valid()
  {
    forall i, j, y, x | 0 <= i < |rows| && 0 <= j < |cols|
      && rows[i] <= y < rows[i] + bw && cols[j] <= x < cols[j] + bw
      && 0 <= y < c.height && 0 <= x < c.width :: c.intersections[y][x]
  }

  /** Base positions that keep a base stripe inside the axis. */
  predicate InAxis(ps: seq<int>, bw: nat, limit: nat)
  {
    forall i :: 0 <= i < |ps| ==> 0 < ps[i] && ps[i] + bw < limit
  }

  /** The row stripes and then the column stripes, all local road recorded
      as original roads. Every stripe must select a cell. */
  function LayBases(h: nat, w: nat, rows: seq<int>, cols: seq<int>, bw: nat): (c: City)
    requires InAxis(rows, bw, h) && InAxis(cols, bw, w)
    requires |rows| + |cols| > 0 ==> bw >= 1
    requires |rows| > 0 ==> w >= 1
    requires |cols| > 0 ==> h >= 1
    ensures c.Valid() && c.height == h && c.width == w
    ensures RoadValuesOnly(c)
    // a cell is local road exactly when it lies on a base stripe, block otherwise
    ensures forall y, x | 0 <= y < h && 0 <= x < w :: BaseCell(c, rows, cols, bw, y, x)
    ensures CrossingsMarked(c, rows, cols, bw)
  {
    var rr := RowBases(rows, bw, h, w);
    var cr := ColBases(cols, bw, h, w);
    var c1 := WriteRects(EmptyCity(h, w), rr, LocalRoad, true);
    var c2 := WriteRects(c1, cr, LocalRoad, true);
    BaseCrossings(c1, c2, rows, cols, bw);
    BaseCells(c1, c2, rows, cols, bw);
    c2
  }

  /** Cell (y, x) is local road when it lies on a base stripe and block
      otherwise. */
  predicate BaseCell(c: City, rows: seq<int>, cols: seq<int>, bw: int, y: int, x: int)
    requires c.Valid() && 0 <= y < c.height && 0 <= x < c.width
  {
    c.grid[y][x] == if InStripe(rows, bw, y) || InStripe(cols, bw, x) then LocalRoad else Block
  }

  /** Where a row base stripe crosses a column base stripe, the second pass
      finds a road already laid and marks an intersection. */
  lemma BaseCrossings(c1: City, c2: City, rows: seq<int>, cols: seq<int>, bw: nat)
    requires InAxis(rows, bw, c1.height) && InAxis(cols, bw, c1.width)
    requires |rows| + |cols| > 0 ==> bw >= 1
    requires |rows| > 0 ==> c1.width >= 1
    requires |cols| > 0 ==> c1.height >= 1
    requires c1.Valid()
    requires c1 == WriteRects(EmptyCity(c1.height, c1.width), RowBases(rows, bw, c1.height, c1.width), LocalRoad, true)
    requires c2 == WriteRects(c1, ColBases(cols, bw, c1.height, c1.width), LocalRoad, true)
    ensures CrossingsMarked(c2, rows, cols, bw)
  {
    var h, w := c1.height, c1.width;
    var rr := RowBases(rows, bw, h, w);
    var cr := ColBases(cols, bw, h, w);
    WriteRectsCover(EmptyCity(h, w), rr, LocalRoad, true);
    WriteRectsMarks(c1, cr, LocalRoad, true);
    forall i, j, y, x | 0 <= i < |rows| && 0 <= j < |cols|
      && rows[i] <= y < rows[i] + bw && cols[j] <= x < cols[j] + bw
      && 0 <= y < h && 0 <= x < w
      ensures c2.intersections[y][x]
    {
      assert Covers(rr[i], h, w, y, x);
      assert Priority(c1.grid[y][x]) >= 1;
      assert Covers(cr[j], h, w, y, x);
    }
  }

  /** After both base passes a cell is local road exactly on a stripe. */
  lemma BaseCells(c1: City, c2: City, rows: seq<int>, cols: seq<int>, bw: nat)
    requires InAxis(rows, bw, c1.height) && InAxis(cols, bw, c1.width)
    requires |rows| + |cols| > 0 ==> bw >= 1
    requires |rows| > 0 ==> c1.width >= 1
    requires |cols| > 0 ==> c1.height >= 1
    requires c1.Valid()
    requires c1 == WriteRects(EmptyCity(c1.height, c1.width), RowBases(rows, bw, c1.height, c1.width), LocalRoad, true)
    requires c2 == WriteRects(c1, ColBases(cols, bw, c1.height, c1.width), LocalRoad, true)
    ensures c2.Valid() && c2.height == c1.height && c2.width == c1.width
    ensures forall y, x | 0 <= y < c1.height && 0 <= x < c1.width :: BaseCell(c2, rows, cols, bw, y, x)
    ensures RoadValuesOnly(c2)
  {
    var h, w := c1.height, c1.width;
    var rr := RowBases(rows, bw, h, w);
    var cr := ColBases(cols, bw, h, w);
    WriteRectsCover(EmptyCity(h, w), rr, LocalRoad, true);
    WriteRectsValues(EmptyCity(h, w), rr, LocalRoad, true);
    WriteRectsCover(c1, cr, LocalRoad, true);
    WriteRectsValues(c1, cr, LocalRoad, true);
    forall y, x | 0 <= y < h && 0 <= x < w
      ensures BaseCell(c2, rows, cols, bw, y, x)
      ensures c2.grid[y][x] == Block || IsRoadValue(c2.grid[y][x])
    {
      if InStripe(rows, bw, y) {
        var i :| 0 <= i < |rows| && rows[i] <= y < rows[i] + bw;
        assert Covers(rr[i], h, w, y, x);
      } else if InStripe(cols, bw, x) {
        var j :| 0 <= j < |cols| && cols[j] <= x < cols[j] + bw;
        assert Covers(cr[j], h, w, y, x);
      } else {
        assert forall k | 0 <= k < |rr| :: !Covers(rr[k], h, w, y, x);
        assert forall k | 0 <= k < |cr| :: !Covers(cr[k], h, w, y, x);
      }
    }
  }

  /** Writes the highway and then the collectors. */
  function LayWideRoads(c: City, hrect: Rect, crects: seq<Rect>): (c': City)
    requires c.Valid() && RoadValuesOnly(c)
    requires hrect.FitsIn(c.height, c.width) && hrect.NonEmptyIn(c.height, c.width)
    requires forall k :: 0 <= k < |crects| ==> crects[k].FitsIn(c.height, c.width) && crects[k].NonEmptyIn(c.height, c.width)
    ensures c'.Valid() && c'.height == c.height && c'.width == c.width
    ensures RoadValuesOnly(c') && NoDowngrade(c, c')
    ensures forall y, x | 0 <= y < c.height && 0 <= x < c.width && c.intersections[y][x] ::
      c'.intersections[y][x]
    ensures WideRanked(c', hrect, crects)
    // cells outside the highway and every collector keep their value
    ensures forall y, x | 0 <= y < c.height && 0 <= x < c.width && !Covers(hrect, c.height, c.width, y, x)
      && (forall k | 0 <= k < |crects| :: !Covers(crects[k], c.height, c.width, y, x)) ::
        c'.grid[y][x] == c.grid[y][x]
  {
    var c3 := SetWithIntersections(c, hrect.ys, hrect.ye, hrect.xs, hrect.xe, HighwayRoad, false);
    WriteRectsValues(c3, crects, CollectorRoad, false);
    WriteRectsCover(c3, crects, CollectorRoad, false);
    WriteRectsMarks(c3, crects, CollectorRoad, false);
    WriteRects(c3, crects, CollectorRoad, false)
  }

  /** Removal keeps every wide road and every intersection. */
  lemma RemovalKeepsWideRoads(c: City, c': City, hrect: Rect, crects: seq<Rect>, rows: seq<int>, cols: seq<int>, bw: int)
    requires c.Valid() && c'.Valid() && c'.height == c.height && c'.width == c.width
    requires ErasesOnlyLocal(c, c') && c'.intersections == c.intersections
    requires WideRanked(c, hrect, crects)
    requires RoadValuesOnly(c) && CrossingsMarked(c, rows, cols, bw)
    ensures HighwayIntact(c', hrect) && CollectorsIntact(c', crects)
    ensures RoadValuesOnly(c') && CrossingsMarked(c', rows, cols, bw)
  {
    forall y, x | 0 <= y < c.height && 0 <= x < c.width && Covers(hrect, c.height, c.width, y, x)
      ensures c'.grid[y][x] == HighwayRoad
    {
      assert Priority(c.grid[y][x]) >= 3;
    }
    forall k, y, x | 0 <= k < |crects| && 0 <= y < c.height && 0 <= x < c.width
      && Covers(crects[k], c.height, c.width, y, x)
      ensures c'.grid[y][x] == CollectorRoad || c'.grid[y][x] == HighwayRoad
    {
      assert Priority(c.grid[y][x]) >= 2;
    }
  }

  /** Cell (y, x) lies on no base stripe, highway or collector of the layout. */
  predicate OffAllRoads(lay: Layout, bw: int, h: int, w: int, y: int, x: int)
  {
    && !InStripe(lay.rows, bw, y) && !InStripe(lay.cols, bw, x)
    && !Covers(lay.highway, h, w, y, x)
    && forall k | 0 <= k < |lay.collectors| :: !Covers(lay.collectors[k], h, w, y, x)
  }

  /** The layout's stripes can all be written: positions inside their axes,
      and every stripe selects at least one cell. */
  predicate Writable(h: nat, w: nat, bw: nat, lay: Layout)
  {
    && InAxis(lay.rows, bw, h) && InAxis(lay.cols, bw, w)
    && (|lay.rows| + |lay.cols| > 0 ==> bw >= 1)
    && (|lay.rows| > 0 ==> w >= 1)
    && (|lay.cols| > 0 ==> h >= 1)
    && lay.highway.FitsIn(h, w) && lay.highway.NonEmptyIn(h, w)
    && forall k :: 0 <= k < |lay.collectors| ==> lay.collectors[k].FitsIn(h, w) && lay.collectors[k].NonEmptyIn(h, w)
  }

  /** The city before segment removal: the base roads with the highway and
      the collectors laid over them. What it holds is stated by
      WidenedFacts. */
  function Widened(h: nat, w: nat, bw: nat, lay: Layout): (c: City)
    requires Writable(h, w, bw, lay)
    ensures c.Valid() && c.height == h && c.width == w
  {
    LayWideRoads(LayBases(h, w, lay.rows, lay.cols, bw), lay.highway, lay.collectors)
  }

  /** Before removal every base-stripe cell is a road, every cell off all
      roads is block, the wide roads rank as laid, and every crossing of base
      stripes is marked. */
  lemma WidenedFacts(h: nat, w: nat, bw: nat, lay: Layout)
    requires Writable(h, w, bw, lay)
    ensures var c := Widened(h, w, bw, lay);
      && RoadValuesOnly(c) && CrossingsMarked(c, lay.rows, lay.cols, bw)
      && WideRanked(c, lay.highway, lay.collectors)
      && (forall y, x | 0 <= y < h && 0 <= x < w :: StripeRoad(c, lay.rows, lay.cols, bw, y, x))
      && (forall y, x | 0 <= y < h && 0 <= x < w :: OffRoadBlock(c, lay, bw, y, x))
  {
    var bases := LayBases(h, w, lay.rows, lay.cols, bw);
    var wide := LayWideRoads(bases, lay.highway, lay.collectors);
    MarksPersist(bases, wide, lay.rows, lay.cols, bw);
    WidenedCells(bases, wide, lay, bw);
  }

  /** Widening never turns a road back into block and leaves every cell off
      the wide roads as the base pass laid it. */
  lemma WidenedCells(bases: City, wide: City, lay: Layout, bw: nat)
    requires bases.Valid() && wide.Valid()
    requires wide.height == bases.height && wide.width == bases.width
    requires forall y, x | 0 <= y < bases.height && 0 <= x < bases.width :: BaseCell(bases, lay.rows, lay.cols, bw, y, x)
    requires NoDowngrade(bases, wide) && RoadValuesOnly(wide)
    requires forall y, x | 0 <= y < bases.height && 0 <= x < bases.width
      && !Covers(lay.highway, bases.height, bases.width, y, x)
      && (forall k | 0 <= k < |lay.collectors| :: !Covers(lay.collectors[k], bases.height, bases.width, y, x)) ::
        wide.grid[y][x] == bases.grid[y][x]
    ensures forall y, x | 0 <= y < bases.height && 0 <= x < bases.width :: StripeRoad(wide, lay.rows, lay.cols, bw, y, x)
    ensures forall y, x | 0 <= y < bases.height && 0 <= x < bases.width :: OffRoadBlock(wide, lay, bw, y, x)
  {
    forall y, x | 0 <= y < bases.height && 0 <= x < bases.width
      ensures StripeRoad(wide, lay.rows, lay.cols, bw, y, x) && OffRoadBlock(wide, lay, bw, y, x)
    {
      assert BaseCell(bases, lay.rows, lay.cols, bw, y, x);
      assert Priority(wide.grid[y][x]) >= Priority(bases.grid[y][x]);
    }
  }

  /** A cell on a base stripe holds some road. */
  predicate StripeRoad(c: City, rows: seq<int>, cols: seq<int>, bw: int, y: int, x: int)
    requires c.Valid() && 0 <= y < c.height && 0 <= x < c.width
  {
    InStripe(rows, bw, y) || InStripe(cols, bw, x) ==> IsRoadValue(c.grid[y][x])
  }

  /** A cell off every road of the layout is block. */
  predicate OffRoadBlock(c: City, lay: Layout, bw: int, y: int, x: int)
    requires c.Valid() && 0 <= y < c.height && 0 <= x < c.width
  {
    OffAllRoads(lay, bw, c.height, c.width, y, x) ==> c.grid[y][x] == Block
  }

  /** The highway is the stripe of one base position of its axis; the
      collectors are the stripes of other positions of that axis, distinct
      and numbering min(positions - 1, count) when the positions are
      distinct. */
  predicate WideChoice(lay: Layout, cfg: Config, count: int, h: nat, w: nat)
  {
    var axis := if lay.highwayOnRows then lay.rows else lay.cols;
    && lay.highwayAt in axis
    && lay.highway == AxisStripe(lay.highwayAt, lay.highwayOnRows, cfg.baseWidth, cfg.highwayWidth, h, w)
    && |lay.collectors| == |lay.collectorsAt|
    && (forall k :: 0 <= k < |lay.collectorsAt| ==>
          && lay.collectorsAt[k] in axis && lay.collectorsAt[k] != lay.highwayAt
          && lay.collectors[k] == AxisStripe(lay.collectorsAt[k], lay.highwayOnRows, cfg.baseWidth, cfg.wideWidth, h, w))
    && (Distinct(axis) ==> Distinct(lay.collectorsAt) && |lay.collectorsAt| == Min(|axis| - 1, count))
  }

  /** The highway and collector choice: the highway axis is the drawn one
      when both axes have positions and otherwise the one that has them; the
      highway is one of its positions and up to `collectorCount` of the
      others become collectors, on the same axis. */
  method ChooseWide(h: nat, w: nat, cfg: Config, d: Draws, rows: seq<int>, cols: seq<int>) returns (lay: Layout)
    requires |rows| > 0 || |cols| > 0
    requires 1 <= d.collectorCount <= 3
    ensures lay.rows == rows && lay.cols == cols
    ensures if lay.highwayOnRows then |rows| > 0 else |cols| > 0
    ensures |rows| > 0 && |cols| > 0 ==> lay.highwayOnRows == d.highwayOnRows
    ensures WideChoice(lay, cfg, d.collectorCount, h, w)
    ensures lay.highway.FitsIn(h, w)
    ensures |lay.collectors| <= 3 && forall k :: 0 <= k < |lay.collectors| ==> lay.collectors[k].FitsIn(h, w)
  {
    var onRows := if |rows| > 0 && |cols| > 0 then d.highwayOnRows else |rows| > 0;
    var axis := if onRows then rows else cols;
    var at := axis[d.highwayPick % |axis|];
    var remaining := Without(axis, at);
    var chosen := Sample(remaining, Min(|remaining|, d.collectorCount), d.collectorPick, 0);
    CollectorPicks(axis, at, chosen, d.collectorCount, d.collectorPick);
    var crects := WideRects(chosen, onRows, cfg.baseWidth, cfg.wideWidth, h, w);
    lay := Layout(rows, cols, onRows, at, AxisStripe(at, onRows, cfg.baseWidth, cfg.highwayWidth, h, w), chosen, crects);
    LayoutIsChoice(lay, cfg, d.collectorCount, h, w);
  }

  /** A layout built from a highway position of its axis and collector
      positions picked among the others is a wide-road choice. */
  lemma LayoutIsChoice(lay: Layout, cfg: Config, count: int, h: nat, w: nat)
    requires var axis := if lay.highwayOnRows then lay.rows else lay.cols;
      && lay.highwayAt in axis
      && (forall k :: 0 <= k < |lay.collectorsAt| ==> lay.collectorsAt[k] in axis && lay.collectorsAt[k] != lay.highwayAt)
      && (Distinct(axis) ==> Distinct(lay.collectorsAt) && |lay.collectorsAt| == Min(|axis| - 1, count))
    requires lay.highway == AxisStripe(lay.highwayAt, lay.highwayOnRows, cfg.baseWidth, cfg.highwayWidth, h, w)
    requires lay.collectors == WideRects(lay.collectorsAt, lay.highwayOnRows, cfg.baseWidth, cfg.wideWidth, h, w)
    ensures WideChoice(lay, cfg, count, h, w)
  {
  }

  /** The collector positions are other positions of the highway's axis,
      distinct and numbering min(positions - 1, count) when the axis is. */
  lemma CollectorPicks(axis: seq<int>, at: int, chosen: seq<int>, count: nat, pick: nat -> nat)
    requires at in axis
    requires chosen == Sample(Without(axis, at), Min(|Without(axis, at)|, count), pick, 0)
    ensures forall k :: 0 <= k < |chosen| ==> chosen[k] in axis && chosen[k] != at
    ensures Distinct(axis) ==> Distinct(chosen) && |chosen| == Min(|axis| - 1, count)
  {
    var remaining := Without(axis, at);
    forall k | 0 <= k < |chosen| ensures chosen[k] in axis && chosen[k] != at {
      assert chosen[k] in remaining;
    }
  }

  /** The wide roads and the removal pass laid over the base stripes of a
      layout whose every stripe selects at least one cell. */
  method Build(h: nat, w: nat, bw: nat, coin: nat -> bool, lay: Layout) returns (c: City)
    requires InAxis(lay.rows, bw, h) && InAxis(lay.cols, bw, w)
    requires Sorting.Sorted(lay.rows) && Sorting.Sorted(lay.cols)
    requires bw >= 1 && h >= 1 && w >= 1
    requires lay.highway.FitsIn(h, w) && lay.highway.NonEmptyIn(h, w)
    requires forall k :: 0 <= k < |lay.collectors| ==> lay.collectors[k].FitsIn(h, w) && lay.collectors[k].NonEmptyIn(h, w)
    ensures c.Valid() && c.height == h && c.width == w
    ensures RoadValuesOnly(c)
    ensures HighwayIntact(c, lay.highway) && CollectorsIntact(c, lay.collectors)
    ensures CrossingsMarked(c, lay.rows, lay.cols, bw)
    ensures forall y, x | 0 <= y < h && 0 <= x < w :: OffRoadBlock(c, lay, bw, y, x)
    // removal erases whole all-local segments of the widened city and nothing
    // else, and base roads survive off the segments, crossings in particular
    ensures Writable(h, w, bw, lay) && RemovalKept(c, lay, h, w, bw)
  {
    var wide := Widened(h, w, bw, lay);
    WidenedFacts(h, w, bw, lay);
    var segs := Segments(lay.rows, lay.cols, bw, h, w);
    c := EraseAll(wide, segs, coin, 0);
    ErasedFacts(wide, c, lay, bw);
    EraseAllWhole(wide, segs, coin, 0);
    BaseSurvives(wide, c, lay, bw, h, w);
  }

  /** `c` is `wide` after a removal pass over `segs`: only local road turns
      into block, every changed cell belongs to a segment that was all local
      and is now all block, and cells off every segment keep their value. */
  predicate Removal(wide: City, c: City, segs: seq<Rect>)
    requires wide.Valid() && forall r :: r in segs ==> r.FitsIn(wide.height, wide.width)
  {
    && c.Valid() && c.height == wide.height && c.width == wide.width
    && ErasesOnlyLocal(wide, c)
    && (forall y, x | 0 <= y < wide.height && 0 <= x < wide.width :: ErasedWhole(wide, c, segs, y, x))
    && (forall y, x | 0 <= y < wide.height && 0 <= x < wide.width :: KeptOff(wide, c, segs, y, x))
  }

  /** A cell off every segment keeps its value. */
  predicate KeptOff(wide: City, c: City, segs: seq<Rect>, y: int, x: int)
    requires wide.Valid() && c.Valid() && c.height == wide.height && c.width == wide.width
    requires 0 <= y < wide.height && 0 <= x < wide.width
  {
    OffSegments(segs, y, x) ==> c.grid[y][x] == wide.grid[y][x]
  }

  /** A base-stripe cell that no removal segment touches still holds a road. */
  predicate BaseKept(c: City, lay: Layout, bw: nat, y: int, x: int)
    requires c.Valid() && 0 <= y < c.height && 0 <= x < c.width
    requires forall i :: 0 <= i < |lay.rows| ==> 0 <= lay.rows[i] && lay.rows[i] + bw <= c.height
    requires forall i :: 0 <= i < |lay.cols| ==> 0 <= lay.cols[i] && lay.cols[i] + bw <= c.width
  {
    var segs := Segments(lay.rows, lay.cols, bw, c.height, c.width);
    (InStripe(lay.rows, bw, y) || InStripe(lay.cols, bw, x)) && OffSegments(segs, y, x) ==> IsRoadValue(c.grid[y][x])
  }

  /** A cell where a row base stripe crosses a column base stripe holds a road. */
  predicate CrossingRoad(c: City, rows: seq<int>, cols: seq<int>, bw: int, y: int, x: int)
    requires c.Valid() && 0 <= y < c.height && 0 <= x < c.width
  {
    InStripe(rows, bw, y) && InStripe(cols, bw, x) ==> IsRoadValue(c.grid[y][x])
  }

  /** Removal keeps the base roads of the widened city off its segments, and
      so at every crossing. */
  lemma BaseSurvives(wide: City, c: City, lay: Layout, bw: nat, h: nat, w: nat)
    requires InAxis(lay.rows, bw, h) && InAxis(lay.cols, bw, w)
    requires Sorting.Sorted(lay.rows) && Sorting.Sorted(lay.cols)
    requires wide.Valid() && wide.height == h && wide.width == w
    requires forall y, x | 0 <= y < h && 0 <= x < w :: StripeRoad(wide, lay.rows, lay.cols, bw, y, x)
    requires c.Valid() && c.height == h && c.width == w
    requires forall y, x | 0 <= y < h && 0 <= x < w &&
      OffSegments(Segments(lay.rows, lay.cols, bw, h, w), y, x) :: c.grid[y][x] == wide.grid[y][x]
    ensures forall y, x | 0 <= y < h && 0 <= x < w :: BaseKept(c, lay, bw, y, x)
    ensures forall y, x | 0 <= y < h && 0 <= x < w :: CrossingRoad(c, lay.rows, lay.cols, bw, y, x)
  {
    forall y, x | 0 <= y < h && 0 <= x < w
      ensures BaseKept(c, lay, bw, y, x) && CrossingRoad(c, lay.rows, lay.cols, bw, y, x)
    {
      assert StripeRoad(wide, lay.rows, lay.cols, bw, y, x);
      if InStripe(lay.rows, bw, y) && InStripe(lay.cols, bw, x) {
        SegmentsAvoidCrossings(lay.rows, lay.cols, bw, h, w, y, x);
      }
    }
  }

  /** What the widened city promises survives the removal pass. */
  lemma ErasedFacts(wide: City, city: City, lay: Layout, bw: int)
    requires wide.Valid() && city.Valid() && city.height == wide.height && city.width == wide.width
    requires ErasesOnlyLocal(wide, city) && city.intersections == wide.intersections
    requires RoadValuesOnly(wide) && CrossingsMarked(wide, lay.rows, lay.cols, bw)
    requires WideRanked(wide, lay.highway, lay.collectors)
    requires forall y, x | 0 <= y < wide.height && 0 <= x < wide.width :: OffRoadBlock(wide, lay, bw, y, x)
    ensures RoadValuesOnly(city) && CrossingsMarked(city, lay.rows, lay.cols, bw)
    ensures HighwayIntact(city, lay.highway) && CollectorsIntact(city, lay.collectors)
    ensures forall y, x | 0 <= y < city.height && 0 <= x < city.width :: OffRoadBlock(city, lay, bw, y, x)
  {
    RemovalKeepsWideRoads(wide, city, lay.highway, lay.collectors, lay.rows, lay.cols, bw);
    ErasureKeepsBlocks(wide, city, lay, bw);
  }

  /** With distinct positions, collectors exist exactly when the highway's
      axis has a second position. */
  lemma CollectorsPlaced(lay: Layout, cfg: Config, count: int, h: nat, w: nat)
    requires WideChoice(lay, cfg, count, h, w) && count >= 1
    requires Distinct(if lay.highwayOnRows then lay.rows else lay.cols)
    ensures |lay.collectors| > 0 <==> |if lay.highwayOnRows then lay.rows else lay.cols| >= 2
  {
  }

  /** Every stripe of a wide-road choice over in-axis positions selects at
      least one cell when the widths and sizes are positive. */
  lemma ChosenStripesSelect(h: nat, w: nat, cfg: Config, count: int, lay: Layout)
    requires InAxis(lay.rows, cfg.baseWidth, h) && InAxis(lay.cols, cfg.baseWidth, w)
    requires WideChoice(lay, cfg, count, h, w)
    requires h >= 1 && w >= 1 && cfg.highwayWidth >= 1
    requires cfg.wideWidth >= 1 || |lay.collectors| == 0
    ensures lay.highway.NonEmptyIn(h, w)
    ensures forall k :: 0 <= k < |lay.collectors| ==> lay.collectors[k].NonEmptyIn(h, w)
  {
    var axis := if lay.highwayOnRows then lay.rows else lay.cols;
    var i :| 0 <= i < |axis| && axis[i] == lay.highwayAt;
    AxisStripeCovers(lay.highwayAt, lay.highwayOnRows, cfg.baseWidth, cfg.highwayWidth, h, w);
    forall k | 0 <= k < |lay.collectors|
      ensures lay.collectors[k].NonEmptyIn(h, w)
    {
      var j :| 0 <= j < |axis| && axis[j] == lay.collectorsAt[k];
      AxisStripeCovers(lay.collectorsAt[k], lay.highwayOnRows, cfg.baseWidth, cfg.wideWidth, h, w);
    }
  }

  /** Removal only turns local road into block, so a block cell stays block. */
  lemma ErasureKeepsBlocks(c: City, c': City, lay: Layout, bw: int)
    requires c.Valid() && c'.Valid() && c'.height == c.height && c'.width == c.width
    requires ErasesOnlyLocal(c, c')
    requires forall y, x | 0 <= y < c.height && 0 <= x < c.width :: OffRoadBlock(c, lay, bw, y, x)
    ensures forall y, x | 0 <= y < c.height && 0 <= x < c.width :: OffRoadBlock(c', lay, bw, y, x)
  {
    forall y, x | 0 <= y < c.height && 0 <= x < c.width
      ensures OffRoadBlock(c', lay, bw, y, x)
    {
      assert OffRoadBlock(c, lay, bw, y, x);
    }
  }

  /** Intersections marked before a step that only sets intersections stay
      marked. */
  lemma MarksPersist(c: City, c': City, rows: seq<int>, cols: seq<int>, bw: int)
    requires c.Valid() && c'.Valid() && c'.height == c.height && c'.width == c.width
    requires forall y, x | 0 <= y < c.height && 0 <= x < c.width && c.intersections[y][x] ::
      c'.intersections[y][x]
    requires CrossingsMarked(c, rows, cols, bw)
    ensures CrossingsMarked(c', rows, cols, bw)
  {
  }

  /** The i-th base position (from 0) of an axis exists: the cursor after
      i + 1 steps is still below `length - bw`. */
  predicate Reaches(draw: nat -> int, i: nat, length: int, bw: int)
  {
    Cursor(draw, i) < length - bw
  }

  /** The highway's axis as generateRoads decides it from the cursors. */
  predicate HighwayOnRows(h: nat, w: nat, cfg: Config, d: Draws)
  {
    var hasRows := Reaches(d.rowStep, 0, h, cfg.baseWidth);
    var hasCols := Reaches(d.colStep, 0, w, cfg.baseWidth);
    if hasRows && hasCols then d.highwayOnRows else hasRows
  }

  /** Some write of generateRoads selects no cell, and so raises, once a base
      position exists: a zero base width, a base stripe across an axis of
      length 0, a zero highway width, or a zero collector width when the
      highway's axis has a second position to place a collector on. */
  predicate WriteRaises(h: nat, w: nat, cfg: Config, d: Draws)
  {
    var second := if HighwayOnRows(h, w, cfg, d) then Reaches(d.rowStep, 1, h, cfg.baseWidth)
                   else Reaches(d.colStep, 1, w, cfg.baseWidth);
    || cfg.baseWidth == 0
    || (Reaches(d.rowStep, 0, h, cfg.baseWidth) && w == 0)
    || (Reaches(d.colStep, 0, w, cfg.baseWidth) && h == 0)
    || cfg.highwayWidth == 0
    || (cfg.wideWidth == 0 && second)
  }

  /** The base positions of an axis are the cursor positions in order, up
      to the first that leaves no room for a base stripe. */
  predicate IsCursorWalk(ps: seq<int>, draw: nat -> int, length: int, bw: int)
  {
    && (forall i :: 0 <= i < |ps| ==> ps[i] == Cursor(draw, i))
    && Cursor(draw, |ps|) >= length - bw
  }

  /** What a generated network promises: the base positions are the cursor
      walks of the two axes, the highway is the stripe of a base position of
      the decided axis and is all highway, at most three collectors sit on
      the same axis and none of them is downgraded or erased, every crossing
      of base stripes is marked, and a cell off every road stays block.
      Removal erased only whole segments that were all local road, left
      every cell off the segments as widening made it, and so kept every
      base-stripe cell off the segments, and every crossing, a road. */
  predicate Generated(c: City, lay: Layout, h: nat, w: nat, cfg: Config, d: Draws)
  {
    && c.Valid() && c.height == h && c.width == w
    && RoadValuesOnly(c)
    && IsCursorWalk(lay.rows, d.rowStep, h, cfg.baseWidth)
    && IsCursorWalk(lay.cols, d.colStep, w, cfg.baseWidth)
    && InAxis(lay.rows, cfg.baseWidth, h) && InAxis(lay.cols, cfg.baseWidth, w)
    && Distinct(lay.rows) && Distinct(lay.cols)
    && Sorting.Sorted(lay.rows) && Sorting.Sorted(lay.cols)
    && lay.highwayOnRows == HighwayOnRows(h, w, cfg, d)
    && WideChoice(lay, cfg, d.collectorCount, h, w)
    && lay.highway.NonEmptyIn(h, w)
    && HighwayIntact(c, lay.highway)
    && |lay.collectors| <= 3
    && CollectorsIntact(c, lay.collectors)
    && CrossingsMarked(c, lay.rows, lay.cols, cfg.baseWidth)
    && (forall y, x | 0 <= y < h && 0 <= x < w :: OffRoadBlock(c, lay, cfg.baseWidth, y, x))
    && Writable(h, w, cfg.baseWidth, lay)
    && RemovalKept(c, lay, h, w, cfg.baseWidth)
  }

  /** `c` is the widened city of the layout after a removal pass over its
      segments, and base roads survive wherever no segment lies, at every
      crossing in particular. */
  predicate RemovalKept(c: City, lay: Layout, h: nat, w: nat, bw: nat)
    requires c.Valid() && c.height == h && c.width == w && Writable(h, w, bw, lay)
  {
    && Removal(Widened(h, w, bw, lay), c, Segments(lay.rows, lay.cols, bw, h, w))
    && (forall y, x | 0 <= y < h && 0 <= x < w :: BaseKept(c, lay, bw, y, x))
    && (forall y, x | 0 <= y < h && 0 <= x < w :: CrossingRoad(c, lay.rows, lay.cols, bw, y, x))
  }

  /** Builds the road network of an h x w city. Fails with EmptyRange, as
      the first `random.randint(min, max)` does, when the block size range is
      empty; with NoBasePositions, as the source's `random.choice([])` does,
      when neither axis gets a base position; and with EmptyWrite when a
      write would select no cell. */
  method GenerateRoads(h: nat, w: nat, cfg: Config, d: Draws) returns (r: Result<(City, Layout), GenError>)
    requires cfg.blockMin <= cfg.blockMax ==> 1 <= cfg.blockMin
    requires cfg.blockMin <= cfg.blockMax ==> forall k: nat :: cfg.blockMin <= d.rowStep(k) <= cfg.blockMax
    requires cfg.blockMin <= cfg.blockMax ==> forall k: nat :: cfg.blockMin <= d.colStep(k) <= cfg.blockMax
    requires 1 <= d.collectorCount <= 3
    ensures r == Failure(EmptyRange) <==> cfg.blockMin > cfg.blockMax
    ensures r == Failure(NoBasePositions) <==>
      cfg.blockMin <= cfg.blockMax
      && !Reaches(d.rowStep, 0, h, cfg.baseWidth) && !Reaches(d.colStep, 0, w, cfg.baseWidth)
    ensures r == Failure(EmptyWrite) <==>
      cfg.blockMin <= cfg.blockMax
      && (Reaches(d.rowStep, 0, h, cfg.baseWidth) || Reaches(d.colStep, 0, w, cfg.baseWidth))
      && WriteRaises(h, w, cfg, d)
    ensures r.Success? ==> Generated(r.value.0, r.value.1, h, w, cfg, d)
  {
    if cfg.blockMin > cfg.blockMax {
      return Failure(EmptyRange);
    }
    var bw := cfg.baseWidth;
    var rows := SpacedPositions(h, cfg.blockMin, cfg.blockMax, bw, d.rowStep);
    var cols := SpacedPositions(w, cfg.blockMin, cfg.blockMax, bw, d.colStep);
    AxisReach(rows, d.rowStep, h, bw);
    AxisReach(cols, d.colStep, w, bw);
    if |rows| == 0 && |cols| == 0 {
      return Failure(NoBasePositions);
    }
    if bw == 0 || (|rows| > 0 && w == 0) || (|cols| > 0 && h == 0) {
      BaseWriteRaises(h, w, cfg, d, |rows|, |cols|);
      return Failure(EmptyWrite);
    }
    r := PlaceWideRoads(h, w, cfg, d, rows, cols);
  }

  /** The part of generateRoads after the base positions: choose the wide
      roads, fail with EmptyWrite when one of them selects no cell, and
      otherwise build the city. */
  method PlaceWideRoads(h: nat, w: nat, cfg: Config, d: Draws, rows: seq<int>, cols: seq<int>)
    returns (r: Result<(City, Layout), GenError>)
    requires IsCursorWalk(rows, d.rowStep, h, cfg.baseWidth) && Distinct(rows) && InAxis(rows, cfg.baseWidth, h)
    requires IsCursorWalk(cols, d.colStep, w, cfg.baseWidth) && Distinct(cols) && InAxis(cols, cfg.baseWidth, w)
    requires Sorting.Sorted(rows) && Sorting.Sorted(cols)
    requires |rows| > 0 <==> Reaches(d.rowStep, 0, h, cfg.baseWidth)
    requires |rows| >= 2 <==> Reaches(d.rowStep, 1, h, cfg.baseWidth)
    requires |cols| > 0 <==> Reaches(d.colStep, 0, w, cfg.baseWidth)
    requires |cols| >= 2 <==> Reaches(d.colStep, 1, w, cfg.baseWidth)
    requires |rows| > 0 || |cols| > 0
    requires cfg.baseWidth >= 1 && (|rows| > 0 ==> w >= 1) && (|cols| > 0 ==> h >= 1)
    requires 1 <= d.collectorCount <= 3
    ensures r.Failure? <==> WriteRaises(h, w, cfg, d)
    ensures r.Failure? ==> r.error == EmptyWrite
    ensures r.Success? ==> Generated(r.value.0, r.value.1, h, w, cfg, d)
  {
    var lay := ChooseWide(h, w, cfg, d, rows, cols);
    CollectorsPlaced(lay, cfg, d.collectorCount, h, w);
    WideWriteRaises(h, w, cfg, d, |rows|, |cols|, lay.highwayOnRows, |lay.collectors|);
    if cfg.highwayWidth == 0 || (|lay.collectors| > 0 && cfg.wideWidth == 0) {
      return Failure(EmptyWrite);
    }
    ChosenStripesSelect(h, w, cfg, d.collectorCount, lay);
    var city := Build(h, w, cfg.baseWidth, d.removeCoin, lay);
    r := Success((city, lay));
  }

  /** A base stripe that selects no cell makes generateRoads raise. */
  lemma BaseWriteRaises(h: nat, w: nat, cfg: Config, d: Draws, nRows: nat, nCols: nat)
    requires nRows > 0 <==> Reaches(d.rowStep, 0, h, cfg.baseWidth)
    requires nCols > 0 <==> Reaches(d.colStep, 0, w, cfg.baseWidth)
    requires cfg.baseWidth == 0 || (nRows > 0 && w == 0) || (nCols > 0 && h == 0)
    ensures WriteRaises(h, w, cfg, d)
  {
  }

  /** Once the base stripes all select cells, generateRoads raises exactly
      when the highway or a collector it places selects none; `nWide` is the
      number of collectors placed on the highway's axis. */
  lemma WideWriteRaises(h: nat, w: nat, cfg: Config, d: Draws, nRows: nat, nCols: nat,
                        onRows: bool, nWide: nat)
    requires nRows > 0 <==> Reaches(d.rowStep, 0, h, cfg.baseWidth)
    requires nRows >= 2 <==> Reaches(d.rowStep, 1, h, cfg.baseWidth)
    requires nCols > 0 <==> Reaches(d.colStep, 0, w, cfg.baseWidth)
    requires nCols >= 2 <==> Reaches(d.colStep, 1, w, cfg.baseWidth)
    requires if onRows then nRows > 0 else nCols > 0
    requires nRows > 0 && nCols > 0 ==> onRows == d.highwayOnRows
    requires nWide > 0 <==> (if onRows then nRows else nCols) >= 2
    requires !(cfg.baseWidth == 0 || (nRows > 0 && w == 0) || (nCols > 0 && h == 0))
    ensures onRows == HighwayOnRows(h, w, cfg, d)
    ensures WriteRaises(h, w, cfg, d) <==> cfg.highwayWidth == 0 || (nWide > 0 && cfg.wideWidth == 0)
  {
  }

  /** The positions SpacedPositions returns for an axis are its cursor walk,
      distinct and inside the axis, and the axis has a first (second) base
      position exactly when the cursor reaches it before `length - bw`. */
  lemma AxisReach(ps: seq<int>, draw: nat -> int, length: nat, bw: nat)
    requires forall k: nat :: draw(k) >= 1
    requires forall i, j :: 0 <= i < j < |ps| ==> ps[i] < ps[j]
    requires forall i :: 0 <= i < |ps| ==> 0 < ps[i] < length - bw
    requires forall i {:trigger ps[i]} :: 0 <= i < |ps| ==> ps[i] == Cursor(draw, i)
    requires Cursor(draw, |ps|) >= length - bw
    ensures IsCursorWalk(ps, draw, length, bw) && Distinct(ps) && InAxis(ps, bw, length)
    ensures Sorting.Sorted(ps)
    ensures |ps| > 0 <==> Reaches(draw, 0, length, bw)
    ensures |ps| >= 2 <==> Reaches(draw, 1, length, bw)
  {
    if |ps| == 0 {
      CursorIncreasing(draw, 0, 1);
    } else {
      assert ps[0] == Cursor(draw, 0);
      if |ps| >= 2 {
        assert ps[1] == Cursor(draw, 1);
      }
    }
  }
}

=== FILE: roads.dfy ===
/** The city grid of the road generator and the primitive operations that
    build it: the priority-overwrite rectangle write that also marks
    intersections, the largest-gap search, the spaced-position cursor walk,
    the bounds of a widened stripe, and the erasure of a local-road segment. */
module Roads {
  import opened Common
  import Sorting

  /** Cell values of the city grid. */
  const Block: int := -1
  const LocalRoad: int := 2
  const CollectorRoad: int := 4
  const HighwayRoad: int := 6

  predicate IsRoadValue(v: int)
  {
    v == LocalRoad || v == CollectorRoad || v == HighwayRoad
  }

  /** Rank of a cell value in the overwrite order local < collector < highway;
      every other value ranks 0. */
  function Priority(v: int): (p: nat)
    ensures p <= 3
    ensures p > 0 <==> IsRoadValue(v)
    ensures p == 3 <==> v == HighwayRoad
    ensures p >= 2 <==> v == CollectorRoad || v == HighwayRoad
  {
    if v == LocalRoad then 1 else if v == CollectorRoad then 2 else if v == HighwayRoad then 3 else 0
  }

  /** Distinct road values have distinct priorities. */
  lemma PriorityInjective(u: int, v: int)
    requires IsRoadValue(u) && IsRoadValue(v) && Priority(u) == Priority(v)
    ensures u == v
  {
  }

  /** The value a cell holds after a stripe of value `v` passes over it. */
  function Upgrade(cur: int, v: int): (r: int)
    ensures r == cur || r == v
    ensures Priority(r) == Max(Priority(cur), Priority(v))
    ensures r != cur ==> Priority(v) > Priority(cur)
  {
    if Priority(v) > Priority(cur) then v else cur
  }

  /** Two stripes passing over one cell leave the same value in either order. */
  lemma UpgradeCommutes(cur: int, a: int, b: int)
    ensures Upgrade(Upgrade(cur, a), b) == Upgrade(Upgrade(cur, b), a)
  {
    if IsRoadValue(a) && IsRoadValue(b) && Priority(a) == Priority(b) {
      PriorityInjective(a, b);
    }
  }

  /** The generator's state: the value grid, the intersection mask and the
      mask of cells laid as original base roads. */
  datatype City = City(height: nat, width: nat, grid: seq<seq<int>>,
                       intersections: seq<seq<bool>>, originalRoads: seq<seq<bool>>)
  {
    predicate Valid()
    {
      IsGrid(grid, height, width) && IsGrid(intersections, height, width)
      && IsGrid(originalRoads, height, width)
    }
  }

  /** A fresh city: all blocks, no intersections, no original roads. */
  function EmptyCity(h: nat, w: nat): (c: City)
    ensures c.Valid() && c.height == h && c.width == w
    ensures forall y, x :: 0 <= y < h && 0 <= x < w ==>
      c.grid[y][x] == Block && !c.intersections[y][x] && !c.originalRoads[y][x]
  {
    City(h, w, Fill(h, w, Block), Fill(h, w, false), Fill(h, w, false))
  }

  /** Python's `stop or n` on a slice bound: a stop of 0 means the whole axis. */
  function SliceStop(stop: int, n: int): int
  {
    if stop == 0 then n else stop
  }

  /** The rectangle a write with the given slice bounds covers. */
  predicate InWrite(c: City, yStart: int, yStop: int, xStart: int, xStop: int, y: int, x: int)
  {
    InRect(y, x, yStart, SliceStop(yStop, c.height), xStart, SliceStop(xStop, c.width))
  }

  /** Whether a cell of the written rectangle becomes an intersection: it is
      already a road and, unless the write records original roads, it was
      not laid as an original road. */
  predicate MarksIntersection(cur: int, original: bool, recordOriginal: bool)
  {
    IsRoadValue(cur) && (recordOriginal || !original)
  }

  /** The slice bounds select at least one cell. On an empty selection the
      priority lookup (`np.vectorize` without `otypes`) raises ValueError. */
  predicate NonEmptyWrite(c: City, yStart: int, yStop: int, xStart: int, xStop: int)
  {
    yStart < SliceStop(yStop, c.height) && xStart < SliceStop(xStop, c.width)
  }

  /** The write with its error path: None stands for the ValueError raised
      on an empty selection. */
  function TrySetWithIntersections(c: City, yStart: int, yStop: int, xStart: int, xStop: int,
                                   v: int, recordOriginal: bool): (r: Option<City>)
    requires c.Valid()
    requires 0 <= yStart && 0 <= yStop <= c.height
    requires 0 <= xStart && 0 <= xStop <= c.width
    ensures r.None? <==> (yStart >= SliceStop(yStop, c.height) || xStart >= SliceStop(xStop, c.width))
    ensures r.Some? ==> r.value == SetWithIntersections(c, yStart, yStop, xStart, xStop, v, recordOriginal)
  {
    if NonEmptyWrite(c, yStart, yStop, xStart, xStop) then
      Some(SetWithIntersections(c, yStart, yStop, xStart, xStop, v, recordOriginal))
    else None
  }

  /** Writes value `v` over the rectangle by priority, marks intersections
      where the rectangle crosses existing roads, and with `recordOriginal`
      flags the whole rectangle as original road. The selection must be
      non-empty (see TrySetWithIntersections for the error path). */
  function SetWithIntersections(c: City, yStart: int, yStop: int, xStart: int, xStop: int,
                                v: int, recordOriginal: bool): (c': City)
    requires c.Valid()
    requires 0 <= yStart && 0 <= yStop <= c.height
    requires 0 <= xStart && 0 <= xStop <= c.width
    requires NonEmptyWrite(c, yStart, yStop, xStart, xStop)
    ensures c'.Valid() && c'.height == c.height && c'.width == c.width
    // outside the rectangle nothing changes
    ensures forall y, x | 0 <= y < c.height && 0 <= x < c.width
      && !InWrite(c, yStart, yStop, xStart, xStop, y, x) ::
        c'.grid[y][x] == c.grid[y][x] && c'.intersections[y][x] == c.intersections[y][x]
        && c'.originalRoads[y][x] == c.originalRoads[y][x]
    // a cell is never downgraded
    ensures forall y, x :: 0 <= y < c.height && 0 <= x < c.width ==>
      Priority(c'.grid[y][x]) >= Priority(c.grid[y][x])
    // inside, the cell keeps the higher-priority of its value and `v`
    ensures forall y, x | 0 <= y < c.height && 0 <= x < c.width
      && InWrite(c, yStart, yStop, xStart, xStop, y, x) ::
        Priority(c'.grid[y][x]) == Max(Priority(c.grid[y][x]), Priority(v))
        && (c'.grid[y][x] == c.grid[y][x] || c'.grid[y][x] == v)
    // a cell changes only on a strict upgrade inside the rectangle
    ensures forall y, x :: 0 <= y < c.height && 0 <= x < c.width && c'.grid[y][x] != c.grid[y][x] ==>
      InWrite(c, yStart, yStop, xStart, xStop, y, x) && Priority(v) > Priority(c.grid[y][x])
    // intersections are only ever set
    ensures forall y, x :: 0 <= y < c.height && 0 <= x < c.width && c.intersections[y][x] ==>
      c'.intersections[y][x]
    // with recordOriginal: every road cell crossed is an intersection, the rectangle is original road
    ensures recordOriginal ==> forall y, x | 0 <= y < c.height && 0 <= x < c.width
      && InWrite(c, yStart, yStop, xStart, xStop, y, x) ::
        c'.originalRoads[y][x]
        && (c'.intersections[y][x] <==> c.intersections[y][x] || IsRoadValue(c.grid[y][x]))
    // without: only crossed roads not laid as original roads become intersections
    ensures !recordOriginal ==> forall y, x :: 0 <= y < c.height && 0 <= x < c.width ==>
      c'.originalRoads[y][x] == c.originalRoads[y][x]
      && (InWrite(c, yStart, yStop, xStart, xStop, y, x) ==>
            (c'.intersections[y][x] <==>
               c.intersections[y][x] || (IsRoadValue(c.grid[y][x]) && !c.originalRoads[y][x])))
  {
    var ye := SliceStop(yStop, c.height);
    var xe := SliceStop(xStop, c.width);
    City(c.height, c.width,
      UpgradeRect(c, yStart, ye, xStart, xe, v),
      MarkRect(c, yStart, ye, xStart, xe, recordOriginal),
      RecordRect(c, yStart, ye, xStart, xe, recordOriginal))
  }

  /** The value grid of a priority write over the rectangle. */
  function UpgradeRect(c: City, ys: int, ye: int, xs: int, xe: int, v: int): (g: seq<seq<int>>)
    requires c.Valid()
    ensures IsGrid(g, c.height, c.width)
    ensures forall y, x | 0 <= y < c.height && 0 <= x < c.width ::
      g[y][x] == if InRect(y, x, ys, ye, xs, xe) then Upgrade(c.grid[y][x], v) else c.grid[y][x]
  {
    seq(c.height, y requires 0 <= y < c.height =>
      seq(c.width, x requires 0 <= x < c.width =>
        if InRect(y, x, ys, ye, xs, xe) then Upgrade(c.grid[y][x], v) else c.grid[y][x]))
  }

  /** The intersection mask after a write over the rectangle. */
  function MarkRect(c: City, ys: int, ye: int, xs: int, xe: int, recordOriginal: bool): (m: seq<seq<bool>>)
    requires c.Valid()
    ensures IsGrid(m, c.height, c.width)
    ensures forall y, x | 0 <= y < c.height && 0 <= x < c.width ::
      m[y][x] == (c.intersections[y][x]
                  || (InRect(y, x, ys, ye, xs, xe)
                      && MarksIntersection(c.grid[y][x], c.originalRoads[y][x], recordOriginal)))
  {
    seq(c.height, y requires 0 <= y < c.height =>
      seq(c.width, x requires 0 <= x < c.width =>
        c.intersections[y][x]
        || (InRect(y, x, ys, ye, xs, xe)
            && MarksIntersection(c.grid[y][x], c.originalRoads[y][x], recordOriginal))))
  }

  /** The original-road mask after a write over the rectangle. */
  function RecordRect(c: City, ys: int, ye: int, xs: int, xe: int, recordOriginal: bool): (m: seq<seq<bool>>)
    requires c.Valid()
    ensures IsGrid(m, c.height, c.width)
    ensures forall y, x | 0 <= y < c.height && 0 <= x < c.width ::
      m[y][x] == ((InRect(y, x, ys, ye, xs, xe) && recordOriginal) || c.originalRoads[y][x])
  {
    seq(c.height, y requires 0 <= y < c.height =>
      seq(c.width, x requires 0 <= x < c.width =>
        if InRect(y, x, ys, ye, xs, xe) && recordOriginal then true
        else c.originalRoads[y][x]))
  }

  /** The value grid after two stripe writes does not depend on their order. */
  lemma {:induction false} StripeWritesCommute(c: City, a: (int, int, int, int), b: (int, int, int, int),
                                              va: int, vb: int, ra: bool, rb: bool)
    requires c.Valid()
    requires 0 <= a.0 && 0 <= a.1 <= c.height && 0 <= a.2 && 0 <= a.3 <= c.width
    requires 0 <= b.0 && 0 <= b.1 <= c.height && 0 <= b.2 && 0 <= b.3 <= c.width
    requires NonEmptyWrite(c, a.0, a.1, a.2, a.3) && NonEmptyWrite(c, b.0, b.1, b.2, b.3)
    ensures
      SetWithIntersections(SetWithIntersections(c, a.0, a.1, a.2, a.3, va, ra), b.0, b.1, b.2, b.3, vb, rb).grid
      == SetWithIntersections(SetWithIntersections(c, b.0, b.1, b.2, b.3, vb, rb), a.0, a.1, a.2, a.3, va, ra).grid
  {
    var ab := SetWithIntersections(SetWithIntersections(c, a.0, a.1, a.2, a.3, va, ra), b.0, b.1, b.2, b.3, vb, rb);
    var ba := SetWithIntersections(SetWithIntersections(c, b.0, b.1, b.2, b.3, vb, rb), a.0, a.1, a.2, a.3, va, ra);
    forall y, x | 0 <= y < c.height && 0 <= x < c.width
      ensures ab.grid[y][x] == ba.grid[y][x]
    {
      var inA := InWrite(c, a.0, a.1, a.2, a.3, y, x);
      var inB := InWrite(c, b.0, b.1, b.2, b.3, y, x);
      var cur := c.grid[y][x];
      if inA && inB {
        UpgradeCommutes(cur, va, vb);
        calc {
          ab.grid[y][x];
          Upgrade(Upgrade(cur, va), vb);
          Upgrade(Upgrade(cur, vb), va);
          ba.grid[y][x];
        }
      }
    }
    forall y | 0 <= y < c.height
      ensures ab.grid[y] == ba.grid[y]
    {
    }
  }

  /** Writing the same stripe twice leaves the value grid as one write does. */
  lemma {:induction false} StripeWriteIdempotent(c: City, ys: int, ye: int, xs: int, xe: int, v: int, r: bool)
    requires c.Valid()
    requires 0 <= ys && 0 <= ye <= c.height && 0 <= xs && 0 <= xe <= c.width
    requires NonEmptyWrite(c, ys, ye, xs, xe)
    ensures var once := SetWithIntersections(c, ys, ye, xs, xe, v, r);
      SetWithIntersections(once, ys, ye, xs, xe, v, r).grid == once.grid
  {
    var once := SetWithIntersections(c, ys, ye, xs, xe, v, r);
    var twice := SetWithIntersections(once, ys, ye, xs, xe, v, r);
    forall y | 0 <= y < c.height
      ensures twice.grid[y] == once.grid[y]
    {
      assert forall x :: 0 <= x < c.width ==> twice.grid[y][x] == once.grid[y][x];
    }
  }

  // ---------------------------------------------------------------------------
  // Largest gap

  function Gap(p: seq<int>, i: int): int
    requires 0 <= i < |p| - 1
  {
    p[i + 1] - p[i]
  }

  /** `k` starts the first strictly largest positive gap of `p`: every earlier
      gap is smaller and no later gap is larger. */
  predicate IsFirstLargestGap(p: seq<int>, k: int)
  {
    && 0 <= k < |p| - 1
    && Gap(p, k) > 0
    && (forall i :: 0 <= i < k ==> Gap(p, i) < Gap(p, k))
    && (forall i :: k < i < |p| - 1 ==> Gap(p, i) <= Gap(p, k))
  }

  /** The sorted positions framed by the sentinels 0 and `length`. */
  function WithSentinels(positions: seq<int>, length: int): (p: seq<int>)
    ensures |p| == |positions| + 2 && p[0] == 0 && p[|p| - 1] == length
  {
    [0] + Sorting.Sort(positions) + [length]
  }

  /** The midpoint of the first largest gap between consecutive sorted
      positions (with sentinels); 0 when no gap is positive. `k` is the index
      of the chosen gap, -1 when there is none. */
  method FindLargestGap(positions: seq<int>, length: int) returns (mid: int, k: int)
    ensures var p := WithSentinels(positions, length);
      || (k == -1 && mid == 0 && forall i :: 0 <= i < |p| - 1 ==> Gap(p, i) <= 0)
      || (IsFirstLargestGap(p, k) && mid == p[k] + Gap(p, k) / 2 && p[k] <= mid < p[k + 1])
  {
    var p := WithSentinels(positions, length);
    var maxGap := 0;
    var bestStart := 0;
    k := -1;
    var i := 0;
    while i < |p| - 1
      invariant GapScan(p, i, k, maxGap)
      invariant bestStart == if k == -1 then 0 else p[k]
    {
      var gap := p[i + 1] - p[i];
      GapScanStep(p, i, k, maxGap);
      if gap > maxGap {
        maxGap := gap;
        bestStart := p[i];
        k := i;
      }
      i := i + 1;
    }
    mid := bestStart + maxGap / 2;
  }

  /** After scanning the gaps before index i, k is the first strictly
      largest positive gap so far with maxGap its size, or -1 with maxGap 0
      when no gap so far is positive. */
  predicate GapScan(p: seq<int>, i: int, k: int, maxGap: int)
  {
    && 0 <= i <= |p| - 1
    && (k == -1 ==> maxGap == 0 && forall t :: 0 <= t < i ==> Gap(p, t) <= 0)
    && (k != -1 ==>
          && 0 <= k < i && maxGap == Gap(p, k) > 0
          && (forall t :: 0 <= t < k ==> Gap(p, t) < Gap(p, k))
          && (forall t :: k < t < i ==> Gap(p, t) <= Gap(p, k)))
  }

  /** One scan step: a gap strictly larger than the best so far takes over. */
  lemma GapScanStep(p: seq<int>, i: int, k: int, maxGap: int)
    requires GapScan(p, i, k, maxGap) && i < |p| - 1
    ensures Gap(p, i) > maxGap ==> GapScan(p, i + 1, i, Gap(p, i))
    ensures Gap(p, i) <= maxGap ==> GapScan(p, i + 1, k, maxGap)
  {
  }

  // ---------------------------------------------------------------------------
  // Spaced positions

  /** The cursor after the first k+1 random steps: draw(0) + ... + draw(k). */
  function Cursor(draw: nat -> int, k: nat): int
  {
    if k == 0 then draw(0) else Cursor(draw, k - 1) + draw(k)
  }

  /** Consecutive elements differ by a step in [lo, hi]. */
  ghost predicate Spaced(ps: seq<int>, lo: int, hi: int)
  {
    forall i :: 0 < i < |ps| ==> lo <= ps[i] - ps[i - 1] <= hi
  }

  /** With every step positive the cursor only moves forward. */
  lemma {:induction false} CursorIncreasing(draw: nat -> int, i: nat, j: nat)
    requires forall k: nat :: draw(k) >= 1
    requires i < j
    ensures Cursor(draw, i) < Cursor(draw, j)
    decreases j - i
  {
    if j > i + 1 {
      CursorIncreasing(draw, i, j - 1);
    }
  }

  /** The first cursor positions are increasing, start at the first step
      and are spaced by the steps. */
  lemma CursorWalk(draw: nat -> int, ps: seq<int>, lo: int, hi: int)
    requires 1 <= lo && forall k: nat :: lo <= draw(k) <= hi
    requires forall i {:trigger ps[i]} :: 0 <= i < |ps| ==> ps[i] == Cursor(draw, i)
    ensures forall i, j :: 0 <= i < j < |ps| ==> ps[i] < ps[j]
    ensures |ps| > 0 ==> lo <= ps[0] <= hi
    ensures Spaced(ps, lo, hi)
    ensures forall i :: 0 <= i < |ps| ==> 0 < ps[i]
  {
    forall i, j | 0 <= i < j < |ps|
      ensures ps[i] < ps[j]
    {
      CursorIncreasing(draw, i, j);
    }
    forall i | 0 < i < |ps|
      ensures 0 < ps[i]
    {
      CursorIncreasing(draw, 0, i);
    }
  }

  /** The base-road positions along one axis: a cursor starts at a random
      step and advances by random steps while it stays below
      `length - baseWidth`. The steps are supplied as `draw`. */
  method SpacedPositions(length: int, minSpacing: int, maxSpacing: int, baseWidth: int,
                         draw: nat -> int) returns (ps: seq<int>)
    requires 1 <= minSpacing <= maxSpacing
    requires forall k: nat :: minSpacing <= draw(k) <= maxSpacing
    ensures forall i, j :: 0 <= i < j < |ps| ==> ps[i] < ps[j]
    ensures |ps| > 0 ==> minSpacing <= ps[0] <= maxSpacing
    ensures Spaced(ps, minSpacing, maxSpacing)
    ensures forall i :: 0 <= i < |ps| ==> 0 < ps[i] < length - baseWidth
    ensures forall i {:trigger ps[i]} :: 0 <= i < |ps| ==> ps[i] == Cursor(draw, i)
    ensures Cursor(draw, |ps|) >= length - baseWidth
  {
    ps := [];
    var pos := draw(0);
    while pos < length - baseWidth
      invariant pos == Cursor(draw, |ps|)
      invariant forall i {:trigger ps[i]} :: 0 <= i < |ps| ==> ps[i] == Cursor(draw, i)
      invariant forall i :: 0 <= i < |ps| ==> ps[i] < length - baseWidth
      decreases length - baseWidth - pos
    {
      if |ps| > 0 {
        CursorIncreasing(draw, |ps| - 1, |ps|);
      }
      ps := ps + [pos];
      pos := pos + draw(|ps|);
    }
    CursorWalk(draw, ps, minSpacing, maxSpacing);
  }


  // ---------------------------------------------------------------------------
  // Widened stripes

  /** The slice bounds of a stripe `stripeWidth` wide centred on the base
      road at `pos`, clipped to [0, limit]. */
  function StripeBounds(pos: int, baseWidth: nat, stripeWidth: nat, limit: nat): (b: (int, int))
    ensures 0 <= b.0 && 0 <= b.1 <= limit
    ensures b.1 <= b.0 + stripeWidth
    // centred on the base road unless clipped at 0
    ensures b.0 > 0 ==> b.0 + stripeWidth / 2 == pos + baseWidth / 2
    ensures b.0 == 0 ==> pos + baseWidth / 2 <= stripeWidth / 2
    // full width unless clipped at the limit
    ensures b.0 + stripeWidth <= limit ==> b.1 == b.0 + stripeWidth
    ensures b.0 + stripeWidth > limit ==> b.1 == limit
    // a positive width around a centre inside the axis selects something
    ensures 0 <= pos && pos + baseWidth / 2 < limit && stripeWidth >= 1 ==> 0 < b.1 && b.0 < b.1
  {
    var center := pos + baseWidth / 2;
    var start := Max(0, center - stripeWidth / 2);
    (start, Min(limit, start + stripeWidth))
  }

  /** A stripe at least as wide as the base road covers the base road it is
      centred on. */
  lemma StripeCoversBase(pos: int, baseWidth: nat, stripeWidth: nat, limit: nat)
    requires 0 <= pos && pos + baseWidth <= limit && baseWidth <= stripeWidth
    ensures var b := StripeBounds(pos, baseWidth, stripeWidth, limit);
      b.0 <= pos && pos + baseWidth <= b.1
  {
    var center := pos + baseWidth / 2;
    assert baseWidth / 2 <= stripeWidth / 2;
    assert baseWidth - baseWidth / 2 <= stripeWidth - stripeWidth / 2;
    if center - stripeWidth / 2 < 0 {
      assert pos + baseWidth <= stripeWidth;
    }
  }

  // ---------------------------------------------------------------------------
  // Segment removal

  /** A rectangle given by numpy slice bounds [ys, ye) x [xs, xe). */
  datatype Rect = Rect(ys: int, ye: int, xs: int, xe: int)
  {
    predicate FitsIn(h: int, w: int)
    {
      0 <= ys && 0 <= ye <= h && 0 <= xs && 0 <= xe <= w
    }

    /** Written with `stop or n` bounds, the rectangle selects at least one cell. */
    predicate NonEmptyIn(h: int, w: int)
    {
      ys < SliceStop(ye, h) && xs < SliceStop(xe, w)
    }
  }

  /** Every cell of the rectangle holds a local road (vacuously so when empty). */
  predicate AllLocal(c: City, r: Rect)
    requires c.Valid() && r.FitsIn(c.height, c.width)
  {
    forall y, x | r.ys <= y < r.ye && r.xs <= x < r.xe :: c.grid[y][x] == LocalRoad
  }

  /** Cellwise, `c'` agrees with `c` except where a local road was erased to a
      block and lost its original-road flag. */
  predicate ErasesOnlyLocal(c: City, c': City)
    requires c.Valid() && c'.Valid() && c'.height == c.height && c'.width == c.width
  {
    forall y, x :: 0 <= y < c.height && 0 <= x < c.width ==>
      || (c'.grid[y][x] == c.grid[y][x] && c'.originalRoads[y][x] == c.originalRoads[y][x])
      || (c.grid[y][x] == LocalRoad && c'.grid[y][x] == Block && !c'.originalRoads[y][x])
  }

  /** Erases the segment (block value, original flag cleared) when all of it
      is local road and the coin says so; otherwise leaves the city alone. */
  function EraseSegment(c: City, r: Rect, coin: bool): (c': City)
    requires c.Valid() && r.FitsIn(c.height, c.width)
    ensures c'.Valid() && c'.height == c.height && c'.width == c.width
    ensures c'.intersections == c.intersections
    ensures ErasesOnlyLocal(c, c')
    ensures !(AllLocal(c, r) && coin) ==> c' == c
    ensures AllLocal(c, r) && coin ==> forall y, x :: InRect(y, x, r.ys, r.ye, r.xs, r.xe) ==>
      c'.grid[y][x] == Block && !c'.originalRoads[y][x]
    ensures forall y, x :: 0 <= y < c.height && 0 <= x < c.width && !InRect(y, x, r.ys, r.ye, r.xs, r.xe) ==>
      c'.grid[y][x] == c.grid[y][x] && c'.originalRoads[y][x] == c.originalRoads[y][x]
  {
    if AllLocal(c, r) && coin then
      c.(grid := seq(c.height, y requires 0 <= y < c.height =>
                  seq(c.width, x requires 0 <= x < c.width =>
                    if InRect(y, x, r.ys, r.ye, r.xs, r.xe) then Block else c.grid[y][x])),
         originalRoads := seq(c.height, y requires 0 <= y < c.height =>
                  seq(c.width, x requires 0 <= x < c.width =>
                    if InRect(y, x, r.ys, r.ye, r.xs, r.xe) then false else c.originalRoads[y][x])))
    else c
  }

  /** Erases the segments in order. `and` short-circuits, so a coin is drawn
      only for a segment that is all local road when visited: the k-th such
      segment consults coin(k). */
  function EraseAll(c: City, segs: seq<Rect>, coin: nat -> bool, k: nat): (c': City)
    requires c.Valid() && forall r :: r in segs ==> r.FitsIn(c.height, c.width)
    ensures c'.Valid() && c'.height == c.height && c'.width == c.width
    ensures c'.intersections == c.intersections
    ensures ErasesOnlyLocal(c, c')
    // cells outside every segment keep their value
    ensures forall y, x | 0 <= y < c.height && 0 <= x < c.width
      && (forall k | 0 <= k < |segs| :: !InRect(y, x, segs[k].ys, segs[k].ye, segs[k].xs, segs[k].xe)) ::
        c'.grid[y][x] == c.grid[y][x]
    decreases |segs|
  {
    if |segs| == 0 then c
    else if AllLocal(c, segs[0]) then EraseAll(EraseSegment(c, segs[0], coin(k)), segs[1..], coin, k + 1)
    else EraseAll(c, segs[1..], coin, k)
  }

  /** Every cell of the rectangle is block (vacuously so when empty). */
  predicate Erased(c: City, r: Rect)
    requires c.Valid() && r.FitsIn(c.height, c.width)
  {
    forall y, x | r.ys <= y < r.ye && r.xs <= x < r.xe :: c.grid[y][x] == Block
  }

  /** Cell (y, x) changed from `c` to `c'` only as part of a whole segment:
      one that was all local road in `c` and is all block in `c'`. */
  predicate ErasedWhole(c: City, c': City, segs: seq<Rect>, y: int, x: int)
    requires c.Valid() && c'.Valid() && c'.height == c.height && c'.width == c.width
    requires forall r :: r in segs ==> r.FitsIn(c.height, c.width)
    requires 0 <= y < c.height && 0 <= x < c.width
  {
    c'.grid[y][x] != c.grid[y][x] ==>
      exists k :: 0 <= k < |segs| && InRect(y, x, segs[k].ys, segs[k].ye, segs[k].xs, segs[k].xe)
        && AllLocal(c, segs[k]) && Erased(c', segs[k])
  }

  /** Erasure only turns local road into block, so a rectangle that is all
      local afterwards was all local before, and one that is all block
      before stays all block. */
  lemma ErasureMonotone(c: City, c': City, r: Rect)
    requires c.Valid() && c'.Valid() && c'.height == c.height && c'.width == c.width
    requires ErasesOnlyLocal(c, c') && r.FitsIn(c.height, c.width)
    ensures AllLocal(c', r) ==> AllLocal(c, r)
    ensures Erased(c, r) ==> Erased(c', r)
  {
    forall y, x | r.ys <= y < r.ye && r.xs <= x < r.xe
      ensures c'.grid[y][x] == LocalRoad ==> c.grid[y][x] == LocalRoad
      ensures c.grid[y][x] == Block ==> c'.grid[y][x] == Block
    {
      assert 0 <= y < c.height && 0 <= x < c.width;
    }
  }

  /** The removal pass erases whole segments only: every cell it changes
      lies in a segment that was entirely local road and ends entirely
      block. */
  lemma {:induction false} EraseAllWhole(c: City, segs: seq<Rect>, coin: nat -> bool, k: nat)
    requires c.Valid() && forall r :: r in segs ==> r.FitsIn(c.height, c.width)
    ensures forall y, x | 0 <= y < c.height && 0 <= x < c.width ::
      ErasedWhole(c, EraseAll(c, segs, coin, k), segs, y, x)
    decreases |segs|
  {
    var c' := EraseAll(c, segs, coin, k);
    if |segs| > 0 {
      var tail := segs[1..];
      var mid := if AllLocal(c, segs[0]) then EraseSegment(c, segs[0], coin(k)) else c;
      var k' := if AllLocal(c, segs[0]) then k + 1 else k;
      assert c' == EraseAll(mid, tail, coin, k');
      EraseAllWhole(mid, tail, coin, k');
      ErasureMonotone(mid, c', segs[0]);
      forall y, x | 0 <= y < c.height && 0 <= x < c.width
        ensures ErasedWhole(c, c', segs, y, x)
      {
        ErasedWholeStep(c, mid, c', segs, y, x);
      }
    }
  }

  /** One step of EraseAllWhole: a cell changed by the first segment's
      erasure is covered by that segment, and one changed later by a
      segment of the rest. */
  lemma ErasedWholeStep(c: City, mid: City, c': City, segs: seq<Rect>, y: int, x: int)
    requires c.Valid() && mid.Valid() && c'.Valid()
    requires mid.height == c.height && mid.width == c.width && c'.height == c.height && c'.width == c.width
    requires forall r :: r in segs ==> r.FitsIn(c.height, c.width)
    requires |segs| > 0 && 0 <= y < c.height && 0 <= x < c.width
    requires ErasesOnlyLocal(c, mid) && ErasesOnlyLocal(mid, c')
    requires mid.grid[y][x] != c.grid[y][x] ==>
      InRect(y, x, segs[0].ys, segs[0].ye, segs[0].xs, segs[0].xe) && AllLocal(c, segs[0]) && Erased(mid, segs[0])
    requires ErasedWhole(mid, c', segs[1..], y, x)
    ensures ErasedWhole(c, c', segs, y, x)
  {
    var tail := segs[1..];
    if c'.grid[y][x] != c.grid[y][x] {
      if c'.grid[y][x] != mid.grid[y][x] {
        var t :| 0 <= t < |tail| && InRect(y, x, tail[t].ys, tail[t].ye, tail[t].xs, tail[t].xe)
          && AllLocal(mid, tail[t]) && Erased(c', tail[t]);
        assert tail[t] == segs[t + 1];
        ErasureMonotone(c, mid, tail[t]);
      } else {
        ErasureMonotone(mid, c', segs[0]);
      }
    }
  }
}

=== FILE: search.dfy ===
/** The car's route search: A* over orthogonal moves that are road cells on
    the correct lane, and the parent-chain walk that turns the search's
    parent links into a path. Which open entry is popped next is left open,
    so every property holds for every pop order the heap could produce; the
    heuristic is an input. */
module Search {
  import opened Common
  import opened Lanes

  /** The four orthogonal offsets, in the order the search tries them. */
  const Deltas: seq<Pos> := [(-1, 0), (1, 0), (0, -1), (0, 1)]

  function Nb(p: Pos, d: int): Pos
    requires 0 <= d < |Deltas|
  {
    (p.0 + Deltas[d].0, p.1 + Deltas[d].1)
  }

  /** One row or one column apart, never diagonal. */
  predicate Adjacent(p: Pos, q: Pos)
  {
    || (q.1 == p.1 && (q.0 == p.0 - 1 || q.0 == p.0 + 1))
    || (q.0 == p.0 && (q.1 == p.1 - 1 || q.1 == p.1 + 1))
  }

  lemma NbIsAdjacent(p: Pos, d: int)
    requires 0 <= d < |Deltas|
    ensures Adjacent(p, Nb(p, d))
  {
  }

  /** The four offsets reach exactly the adjacent positions. */
  lemma NbAdjacent(p: Pos, q: Pos)
    ensures Adjacent(p, q) <==> exists d | 0 <= d < |Deltas| :: Nb(p, d) == q
  {
    if Adjacent(p, q) {
      var d := if q.0 == p.0 - 1 then 0 else if q.0 == p.0 + 1 then 1 else if q.1 == p.1 - 1 then 2 else 3;
      assert Nb(p, d) == q;
    }
  }

  /** A move the search accepts: from a present cell to an orthogonal
      neighbour that is a road cell, on the correct lane. */
  predicate Step(g: CarGrid, p: Pos, q: Pos)
    requires WellFormed(g)
  {
    && Adjacent(p, q)
    && InBounds(g, p.0, p.1) && g[p.0][p.1].Present?
    && IsWithinGrid(g, q.0, q.1)
    && LaneRule(g, p.0, p.1, q.0, q.1)
  }

  /** Consecutive positions are accepted moves. */
  ghost predicate IsWalk(g: CarGrid, w: seq<Pos>)
    requires WellFormed(g)
  {
    forall k :: 0 <= k < |w| - 1 ==> Step(g, w[k], w[k + 1])
  }

  /** No walk of at least one move leads from `src` to `dest`. */
  ghost predicate NoWalk(g: CarGrid, src: Pos, dest: Pos)
    requires WellFormed(g)
  {
    forall w: seq<Pos> | 2 <= |w| && w[0] == src && IsWalk(g, w) :: w[|w| - 1] != dest
  }

  // ---------------------------------------------------------------------------
  // trace_path

  /** Each position of `p` after the first is not its own parent, and its
      parent is the position before it. */
  predicate ParentChain(parent: map<Pos, Pos>, p: seq<Pos>)
  {
    forall i | 0 < i < |p| :: p[i] in parent && parent[p[i]] == p[i - 1] && p[i - 1] != p[i]
  }

  /** Follows parent links from `c` until a position that is its own parent
      and returns the positions visited, root first. Each link followed costs
      one unit of fuel; None when the fuel runs out or a position has no
      parent. A traced chain starts at a root, ends at `c`, follows one
      parent link per step and meets no root before its first position. */
  function Trace(parent: map<Pos, Pos>, c: Pos, fuel: nat): (t: Option<seq<Pos>>)
    ensures c !in parent ==> t == None
    ensures c in parent && parent[c] == c ==> t == Some([c])
    ensures t.Some? ==> 1 <= |t.value| <= fuel + 1 && t.value[|t.value| - 1] == c
    ensures t.Some? ==> t.value[0] in parent && parent[t.value[0]] == t.value[0]
    ensures t.Some? ==> ParentChain(parent, t.value)
    decreases fuel
  {
    if c !in parent then None
    else if parent[c] == c then Some([c])
    else if fuel == 0 then None
    else match Trace(parent, parent[c], fuel - 1)
      case Some(p) => Some(p + [c])
      case None => None
  }

  /** The search's parent links over its closed positions: the source is its
      own parent and every other closed position hangs off a position closed
      earlier, by an accepted move. */
  ghost predicate Rooted(g: CarGrid, parent: map<Pos, Pos>, closed: set<Pos>, rank: map<Pos, nat>, src: Pos)
    requires WellFormed(g)
  {
    && src in closed && closed <= parent.Keys && closed == rank.Keys
    && parent[src] == src
    && forall p {:trigger parent[p]} | p in closed && p != src ::
         parent[p] in closed && rank[parent[p]] < rank[p] && Step(g, parent[p], p)
  }

  /** From a closed position the parent chain reaches the source within its
      closing rank and spells a walk of accepted moves. */
  lemma {:induction false} TraceFromClosed(g: CarGrid, parent: map<Pos, Pos>, closed: set<Pos>,
                                          rank: map<Pos, nat>, src: Pos, p: Pos, fuel: nat)
    requires WellFormed(g) && Rooted(g, parent, closed, rank, src)
    requires p in closed && fuel >= rank[p]
    ensures var t := Trace(parent, p, fuel);
      t.Some? && |t.value| >= 1 && t.value[0] == src && t.value[|t.value| - 1] == p && IsWalk(g, t.value)
    decreases rank[p]
  {
    if p != src {
      var q := parent[p];
      TraceFromClosed(g, parent, closed, rank, src, q, fuel - 1);
      var t := Trace(parent, q, fuel - 1).value;
      assert Trace(parent, p, fuel) == Some(t + [p]);
      var w := t + [p];
      forall k | 0 <= k < |w| - 1
        ensures Step(g, w[k], w[k + 1])
      {
        if k < |t| - 1 {
          assert w[k] == t[k] && w[k + 1] == t[k + 1];
        }
      }
    }
  }

  /** When every position of `s` has a parent in `s` other than itself, the
      walk from any of them never ends, whatever the fuel. */
  lemma {:induction false} TraceNeverRoots(parent: map<Pos, Pos>, s: set<Pos>, p: Pos, fuel: nat)
    requires forall q | q in s :: q in parent
    requires forall q {:trigger parent[q]} | q in s :: parent[q] in s && parent[q] != q
    requires p in s
    ensures Trace(parent, p, fuel) == None
    decreases fuel
  {
    if fuel > 0 {
      TraceNeverRoots(parent, s, parent[p], fuel - 1);
    }
  }

  /** A walk starting in a set closed under accepted moves stays in it. */
  lemma {:induction false} WalkStaysIn(g: CarGrid, s: set<Pos>, w: seq<Pos>, k: nat)
    requires WellFormed(g) && IsWalk(g, w) && |w| > 0 && w[0] in s
    requires forall c, n | c in s && Step(g, c, n) :: n in s
    requires k < |w|
    ensures w[k] in s
  {
    if k > 0 {
      WalkStaysIn(g, s, w, k - 1);
      assert Step(g, w[k - 1], w[k]);
    }
  }

  // ---------------------------------------------------------------------------
  // a_star_search

  /** The search's state: the open list's entries as a bag of positions
      (their keys are not needed since any entry may be popped), closed
      positions, parent links and the g and f values (a position absent
      from `fs` has f = inf). */
  datatype State = State(open: multiset<Pos>, closed: set<Pos>, parent: map<Pos, Pos>,
                         gs: map<Pos, int>, fs: map<Pos, real>)

  /** The bookkeeping of the search: ranks exactly on the closed
      positions, the source its own parent, the destination (other than the
      source) never given a parent, one key set for parents and g and f
      values, and the start of the search. */
  ghost predicate Bookkept(src: Pos, dest: Pos, st: State, rank: map<Pos, nat>)
  {
    && st.closed == rank.Keys
    && src in st.parent && st.parent[src] == src
    && (dest != src ==> dest !in st.parent)
    && st.parent.Keys == st.gs.Keys == st.fs.Keys
    && (st.closed == {} ==> st.open == multiset{src})
    && (st.closed != {} ==> src in st.closed)
  }

  /** Open entries are grid positions with a parent. */
  ghost predicate OpenTracked(g: CarGrid, st: State)
    requires WellFormed(g)
  {
    forall p | p in st.open :: InBounds(g, p.0, p.1) && p in st.parent
  }

  /** Closed positions have a parent and a rank below the number closed. */
  ghost predicate RanksBelow(st: State, rank: map<Pos, nat>)
  {
    forall p | p in st.closed :: p in st.parent && p in rank && rank[p] < |st.closed|
  }

  /** Every parent link other than the source's leaves a closed position by
      an accepted move. */
  ghost predicate ParentsStep(g: CarGrid, src: Pos, st: State)
    requires WellFormed(g)
  {
    forall p {:trigger st.parent[p]} | p in st.parent && p != src ::
      st.parent[p] in st.closed && Step(g, st.parent[p], p)
  }

  /** Parents of closed positions were closed earlier. */
  ghost predicate RanksDecrease(src: Pos, st: State, rank: map<Pos, nat>)
  {
    forall p {:trigger st.parent[p]} | p in st.closed && p != src ::
      p in st.parent && st.parent[p] in rank && p in rank && rank[st.parent[p]] < rank[p]
  }

  /** A position with an f value is closed or still open. */
  ghost predicate FsTracked(st: State)
  {
    forall p | p in st.fs :: p in st.closed || p in st.open
  }

  /** What the search keeps true between steps. */
  ghost predicate Sound(g: CarGrid, src: Pos, dest: Pos, st: State, rank: map<Pos, nat>)
    requires WellFormed(g)
  {
    && Bookkept(src, dest, st, rank)
    && OpenTracked(g, st)
    && RanksBelow(st, rank)
    && ParentsStep(g, src, st)
    && RanksDecrease(src, st, rank)
    && FsTracked(st)
  }

  /** Every accepted move out of `done` avoids the destination and leads to
      a closed or open position. */
  ghost predicate Explored(g: CarGrid, dest: Pos, st: State, done: set<Pos>)
    requires WellFormed(g)
  {
    forall c, e | c in done && 0 <= e < |Deltas| ::
      Step(g, c, Nb(c, e)) ==> Nb(c, e) != dest && (Nb(c, e) in st.closed || Nb(c, e) in st.open)
  }

  /** Explored, stated over moves rather than offsets. */
  lemma ExploredMoves(g: CarGrid, dest: Pos, st: State, done: set<Pos>)
    requires WellFormed(g) && Explored(g, dest, st, done)
    ensures forall c, n | c in done && Step(g, c, n) :: n != dest && (n in st.closed || n in st.open)
  {
    forall c, n | c in done && Step(g, c, n)
      ensures n != dest && (n in st.closed || n in st.open)
    {
      NbAdjacent(c, n);
      var e :| 0 <= e < |Deltas| && Nb(c, e) == n;
    }
  }

  lemma RootedOfSound(g: CarGrid, src: Pos, dest: Pos, st: State, rank: map<Pos, nat>)
    requires WellFormed(g) && Sound(g, src, dest, st, rank) && st.closed != {}
    ensures Rooted(g, st.parent, st.closed, rank, src)
  {
  }

  datatype Relaxed = Reached(parent: map<Pos, Pos>) | Continue(st: State)

  /** One neighbour of the position being expanded: skipped when off the
      grid or on the wrong lane; the destination ends the search with its
      parent set; a closed position is skipped; otherwise the neighbour is
      pushed with its parent and g and f values when that improves its f. */
  method Relax(g: CarGrid, src: Pos, dest: Pos, h: Pos -> real, st: State, ghost rank: map<Pos, nat>,
               cur: Pos, n: Pos) returns (res: Relaxed)
    requires WellFormed(g) && InBounds(g, src.0, src.1) && g[src.0][src.1].Present?
    requires Sound(g, src, dest, st, rank) && cur in st.closed
    requires Adjacent(cur, n)
    ensures res.Reached? <==> Step(g, cur, n) && n == dest
    ensures res.Reached? ==> res.parent == st.parent[dest := cur]
    ensures res.Continue? ==>
      && Sound(g, src, dest, res.st, rank) && res.st.closed == st.closed
      && (forall x | x in st.open :: x in res.st.open)
      && (Step(g, cur, n) ==> n != dest && (n in res.st.closed || n in res.st.open))
  {
    if !IsWithinGrid(g, n.0, n.1) {
      return Continue(st);
    }
    assert cur in st.parent;
    var ok := IsOnCorrectLane(g, cur.0, cur.1, n.0, n.1);
    if !ok {
      return Continue(st);
    }
    if n == dest {
      return Reached(st.parent[n := cur]);
    }
    if n in st.closed {
      return Continue(st);
    }
    var gNew := st.gs[cur] + 1;
    var fNew := gNew as real + h(n);
    if n !in st.fs || st.fs[n] > fNew {
      var st' := State(st.open + multiset{n}, st.closed, st.parent[n := cur], st.gs[n := gNew], st.fs[n := fNew]);
      PushKeepsSound(g, src, dest, st, rank, cur, n, st');
      return Continue(st');
    }
    return Continue(st);
  }

  /** Pushing a neighbour reached by an accepted move from a closed
      position, with that position as its parent, keeps the search sound. */
  lemma PushKeepsSound(g: CarGrid, src: Pos, dest: Pos, st: State, rank: map<Pos, nat>,
                       cur: Pos, n: Pos, st': State)
    requires WellFormed(g) && Sound(g, src, dest, st, rank)
    requires cur in st.closed && Step(g, cur, n) && n != dest && n !in st.closed
    requires st'.open == st.open + multiset{n} && st'.closed == st.closed && st'.parent == st.parent[n := cur]
    requires st'.gs.Keys == st.gs.Keys + {n} && st'.fs.Keys == st.fs.Keys + {n}
    ensures Sound(g, src, dest, st', rank)
    ensures forall x | x in st.open :: x in st'.open
    ensures n in st'.open
  {
    assert src in st.closed;
    PushBookkept(src, dest, st, rank, cur, n, st');
    PushOpenTracked(g, st, cur, n, st');
    PushParentsStep(g, src, st, cur, n, st');
    PushRanks(src, st, rank, cur, n, st');
    PushFsTracked(st, n, st');
  }

  lemma PushFsTracked(st: State, n: Pos, st': State)
    requires FsTracked(st)
    requires st'.open == st.open + multiset{n} && st'.closed == st.closed && st'.fs.Keys == st.fs.Keys + {n}
    ensures FsTracked(st')
  {
  }

  lemma PushBookkept(src: Pos, dest: Pos, st: State, rank: map<Pos, nat>, cur: Pos, n: Pos, st': State)
    requires Bookkept(src, dest, st, rank) && src in st.closed && n != dest && n != src
    requires st'.open == st.open + multiset{n} && st'.closed == st.closed && st'.parent == st.parent[n := cur]
    requires st'.gs.Keys == st.gs.Keys + {n} && st'.fs.Keys == st.fs.Keys + {n}
    ensures Bookkept(src, dest, st', rank)
  {
  }

  lemma PushOpenTracked(g: CarGrid, st: State, cur: Pos, n: Pos, st': State)
    requires WellFormed(g) && OpenTracked(g, st) && InBounds(g, n.0, n.1)
    requires st'.open == st.open + multiset{n} && st'.parent == st.parent[n := cur]
    ensures OpenTracked(g, st')
  {
  }

  lemma PushParentsStep(g: CarGrid, src: Pos, st: State, cur: Pos, n: Pos, st': State)
    requires WellFormed(g) && ParentsStep(g, src, st) && cur in st.closed && Step(g, cur, n)
    requires st'.closed == st.closed && st'.parent == st.parent[n := cur]
    ensures ParentsStep(g, src, st')
  {
    forall p | p in st'.parent && p != src
      ensures st'.parent[p] in st'.closed && Step(g, st'.parent[p], p)
    {
      if p != n {
        assert st'.parent[p] == st.parent[p];
      }
    }
  }

  lemma PushRanks(src: Pos, st: State, rank: map<Pos, nat>, cur: Pos, n: Pos, st': State)
    requires RanksBelow(st, rank) && RanksDecrease(src, st, rank) && n !in st.closed
    requires st'.closed == st.closed && st'.parent == st.parent[n := cur]
    ensures RanksBelow(st', rank) && RanksDecrease(src, st', rank)
  {
    forall p | p in st'.closed && p != src
      ensures p in st'.parent && st'.parent[p] in rank && p in rank && rank[st'.parent[p]] < rank[p]
    {
      assert st'.parent[p] == st.parent[p];
    }
  }

  /** Expands a closed position: relaxes its four neighbours in order and
      stops at the destination. */
  method Expand(g: CarGrid, src: Pos, dest: Pos, h: Pos -> real, st: State, ghost rank: map<Pos, nat>,
                ghost done: set<Pos>, cur: Pos) returns (res: Relaxed, ghost last: State)
    requires WellFormed(g) && InBounds(g, src.0, src.1) && g[src.0][src.1].Present?
    requires Sound(g, src, dest, st, rank) && st.closed == done + {cur}
    requires Explored(g, dest, st, done)
    ensures res.Reached? ==>
      && Step(g, cur, dest) && Sound(g, src, dest, last, rank) && last.closed == st.closed
      && res.parent == last.parent[dest := cur]
    ensures res.Continue? ==>
      Sound(g, src, dest, res.st, rank) && res.st.closed == st.closed && Explored(g, dest, res.st, res.st.closed)
  {
    var cur_st := st;
    var d := 0;
    while d < 4
      invariant 0 <= d <= 4
      invariant Sound(g, src, dest, cur_st, rank) && cur_st.closed == st.closed
      invariant Explored(g, dest, cur_st, done)
      invariant forall e | 0 <= e < d :: Step(g, cur, Nb(cur, e)) ==>
        Nb(cur, e) != dest && (Nb(cur, e) in cur_st.closed || Nb(cur, e) in cur_st.open)
    {
      var n := Nb(cur, d);
      NbIsAdjacent(cur, d);
      var r := Relax(g, src, dest, h, cur_st, rank, cur, n);
      if r.Reached? {
        return r, cur_st;
      }
      ExploredGrows(g, dest, cur_st, r.st, done);
      forall e | 0 <= e < d + 1
        ensures Step(g, cur, Nb(cur, e)) ==>
          Nb(cur, e) != dest && (Nb(cur, e) in r.st.closed || Nb(cur, e) in r.st.open)
      {
        if e < d && Step(g, cur, Nb(cur, e)) && Nb(cur, e) in cur_st.open {
          assert Nb(cur, e) in r.st.open;
        }
      }
      cur_st := r.st;
      d := d + 1;
    }
    ExploredJoin(g, dest, cur_st, done, cur);
    return Continue(cur_st), cur_st;
  }

  /** Exploration survives a step that keeps the closed positions and only
      adds open entries. */
  lemma ExploredGrows(g: CarGrid, dest: Pos, st: State, st': State, done: set<Pos>)
    requires WellFormed(g) && Explored(g, dest, st, done)
    requires st'.closed == st.closed && forall x | x in st.open :: x in st'.open
    ensures Explored(g, dest, st', done)
  {
  }

  /** A position whose four moves are explored joins the explored set. */
  lemma ExploredJoin(g: CarGrid, dest: Pos, st: State, done: set<Pos>, cur: Pos)
    requires WellFormed(g) && Explored(g, dest, st, done)
    requires forall e | 0 <= e < 4 :: Step(g, cur, Nb(cur, e)) ==>
      Nb(cur, e) != dest && (Nb(cur, e) in st.closed || Nb(cur, e) in st.open)
    ensures Explored(g, dest, st, done + {cur})
  {
  }

  /** Dropping an entry of an already closed position keeps the search
      sound and explored. */
  lemma SkipKeepsSound(g: CarGrid, src: Pos, dest: Pos, st: State, rank: map<Pos, nat>, cur: Pos)
    requires WellFormed(g) && Sound(g, src, dest, st, rank) && Explored(g, dest, st, st.closed)
    requires cur in st.open && cur in st.closed
    ensures var st' := st.(open := st.open - multiset{cur});
      Sound(g, src, dest, st', rank) && Explored(g, dest, st', st'.closed)
  {
  }

  /** Closing a popped open position with the next rank keeps the search
      sound; every earlier closed position stays explored. */
  lemma CloseKeepsSound(g: CarGrid, src: Pos, dest: Pos, st: State, rank: map<Pos, nat>, cur: Pos)
    requires WellFormed(g) && Sound(g, src, dest, st, rank) && Explored(g, dest, st, st.closed)
    requires cur in st.open && cur !in st.closed
    ensures var st' := st.(open := st.open - multiset{cur}, closed := st.closed + {cur});
      && Sound(g, src, dest, st', rank[cur := |st.closed|])
      && Explored(g, dest, st', st.closed)
  {
    var st' := st.(open := st.open - multiset{cur}, closed := st.closed + {cur});
    var rank' := rank[cur := |st.closed|];
    CloseBookkept(src, dest, st, rank, cur);
    CloseOpenTracked(g, st, cur);
    CloseRanksBelow(g, st, rank, cur);
    CloseParentsStep(g, src, st, cur);
    CloseRanksDecrease(g, src, st, rank, cur);
    CloseFsTracked(st, cur);
    CloseExplored(g, dest, st, cur);
  }

  lemma CloseBookkept(src: Pos, dest: Pos, st: State, rank: map<Pos, nat>, cur: Pos)
    requires Bookkept(src, dest, st, rank) && cur in st.open && cur !in st.closed
    ensures Bookkept(src, dest, st.(open := st.open - multiset{cur}, closed := st.closed + {cur}),
                     rank[cur := |st.closed|])
  {
  }

  lemma CloseOpenTracked(g: CarGrid, st: State, cur: Pos)
    requires WellFormed(g) && OpenTracked(g, st)
    ensures OpenTracked(g, st.(open := st.open - multiset{cur}, closed := st.closed + {cur}))
  {
  }

  lemma CloseRanksBelow(g: CarGrid, st: State, rank: map<Pos, nat>, cur: Pos)
    requires WellFormed(g) && RanksBelow(st, rank) && OpenTracked(g, st)
    requires cur in st.open && cur !in st.closed
    ensures RanksBelow(st.(open := st.open - multiset{cur}, closed := st.closed + {cur}), rank[cur := |st.closed|])
  {
  }

  lemma CloseParentsStep(g: CarGrid, src: Pos, st: State, cur: Pos)
    requires WellFormed(g) && ParentsStep(g, src, st)
    ensures ParentsStep(g, src, st.(open := st.open - multiset{cur}, closed := st.closed + {cur}))
  {
  }

  lemma CloseRanksDecrease(g: CarGrid, src: Pos, st: State, rank: map<Pos, nat>, cur: Pos)
    requires WellFormed(g) && RanksDecrease(src, st, rank) && ParentsStep(g, src, st) && RanksBelow(st, rank)
    requires st.closed == rank.Keys && cur in st.parent && cur !in st.closed
    ensures RanksDecrease(src, st.(open := st.open - multiset{cur}, closed := st.closed + {cur}), rank[cur := |st.closed|])
  {
    var st' := st.(open := st.open - multiset{cur}, closed := st.closed + {cur});
    var rank' := rank[cur := |st.closed|];
    forall p | p in st'.closed && p != src
      ensures p in st'.parent && st'.parent[p] in rank' && p in rank' && rank'[st'.parent[p]] < rank'[p]
    {
      if p == cur {
        assert st.parent[p] in st.closed;
      }
    }
  }

  lemma CloseFsTracked(st: State, cur: Pos)
    requires FsTracked(st)
    ensures FsTracked(st.(open := st.open - multiset{cur}, closed := st.closed + {cur}))
  {
  }

  lemma CloseExplored(g: CarGrid, dest: Pos, st: State, cur: Pos)
    requires WellFormed(g) && Explored(g, dest, st, st.closed)
    ensures Explored(g, dest, st.(open := st.open - multiset{cur}, closed := st.closed + {cur}), st.closed)
  {
  }

  datatype Outcome = Returns(path: seq<Pos>) | Diverges(parent: map<Pos, Pos>)

  /** A* from `src` to `dest`. A found path runs from the source to the
      destination by accepted moves; when the open list runs out the result
      is [src] (or [] for a car that has reached its destination) and no walk
      reaches the destination. The parent walk fails to end exactly when the
      destination is the source and some walk returns to it: the parent of
      the source, its own until then, is overwritten. */
  method AStarSearch(g: CarGrid, src: Pos, dest: Pos, reached: bool, h: Pos -> real)
    returns (r: Outcome)
    requires WellFormed(g) && InBounds(g, src.0, src.1) && g[src.0][src.1].Present?
    ensures r.Diverges? <==> src == dest && !NoWalk(g, src, dest)
    ensures r.Diverges? ==> forall fuel: nat :: Trace(r.parent, dest, fuel) == None
    ensures r.Returns? && |r.path| >= 2 ==>
      r.path[0] == src && r.path[|r.path| - 1] == dest && IsWalk(g, r.path)
    ensures r.Returns? && |r.path| < 2 ==> r.path == (if reached then [] else [src]) && NoWalk(g, src, dest)
  {
    var st := State(multiset{src}, {}, map[src := src], map[src := 0], map[src := h(src)]);
    ghost var rank: map<Pos, nat> := map[];
    ghost var cells := Cells(g);
    while |st.open| > 0
      invariant Sound(g, src, dest, st, rank)
      invariant Explored(g, dest, st, st.closed)
      invariant st.closed <= cells
      decreases cells - st.closed, |st.open|
    {
      var res, rank', cur, last := Pop(g, src, dest, h, st, rank);
      if res.Reached? {
        r := Conclude(g, src, dest, last, rank', cur, res.parent, |st.closed| + 2);
        return;
      }
      if res.st.closed != st.closed {
        InCells(g, cur);
      }
      st, rank := res.st, rank';
    }
    SearchExhausted(g, src, dest, st, rank);
    r := GiveUp(src, reached);
  }

  /** The search's result once its open list has run out: [] for a car
      that has reached its destination, [src] otherwise. */
  method GiveUp(src: Pos, reached: bool) returns (r: Outcome)
    ensures r.Returns? && r.path == (if reached then [] else [src])
  {
    if reached {
      return Returns([]);
    }
    return Returns([src]);
  }

  /** Every position of the grid. */
  ghost function Cells(g: CarGrid): set<Pos>
    requires WellFormed(g)
  {
    set i, j | 0 <= i < Rows(g) && 0 <= j < Cols(g) :: (i, j)
  }

  lemma InCells(g: CarGrid, p: Pos)
    requires WellFormed(g) && InBounds(g, p.0, p.1)
    ensures p in Cells(g)
  {
    assert p == (p.0, p.1);
  }

  /** One round of the search: pops any open entry, drops it when its
      position is already closed, and otherwise closes it with the next rank
      and expands it. */
  method Pop(g: CarGrid, src: Pos, dest: Pos, h: Pos -> real, st: State, ghost rank: map<Pos, nat>)
    returns (res: Relaxed, ghost rank': map<Pos, nat>, cur: Pos, ghost last: State)
    requires WellFormed(g) && InBounds(g, src.0, src.1) && g[src.0][src.1].Present?
    requires Sound(g, src, dest, st, rank) && Explored(g, dest, st, st.closed) && |st.open| > 0
    ensures res.Reached? ==>
      && cur !in st.closed && last.closed == st.closed + {cur} && |last.closed| == |st.closed| + 1
      && Sound(g, src, dest, last, rank')
      && Step(g, cur, dest) && res.parent == last.parent[dest := cur]
    ensures res.Continue? ==>
      && Sound(g, src, dest, res.st, rank') && Explored(g, dest, res.st, res.st.closed)
      && ((res.st.closed == st.closed && |res.st.open| < |st.open|)
          || (res.st.closed == st.closed + {cur} && cur !in st.closed && InBounds(g, cur.0, cur.1)))
    ensures cur in st.open
    ensures cur in st.closed ==> res == Continue(st.(open := st.open - multiset{cur}))
  {
    var c :| c in st.open;
    cur := c;
    if c in st.closed {
      SkipKeepsSound(g, src, dest, st, rank, c);
      return Continue(st.(open := st.open - multiset{c})), rank, c, st;
    }
    CloseKeepsSound(g, src, dest, st, rank, c);
    var st' := st.(open := st.open - multiset{c}, closed := st.closed + {c});
    rank' := rank[c := |st.closed|];
    res, last := Expand(g, src, dest, h, st', rank', st.closed, c);
  }

  /** The search's result once the destination is reached from `cur`: the
      parent walk from the destination, or a walk that never ends when the
      destination is the source. */
  method Conclude(g: CarGrid, src: Pos, dest: Pos, ghost st: State, ghost rank: map<Pos, nat>, ghost cur: Pos,
                  parent: map<Pos, Pos>, fuel: nat) returns (r: Outcome)
    requires WellFormed(g) && Sound(g, src, dest, st, rank)
    requires cur in st.closed && Step(g, cur, dest) && parent == st.parent[dest := cur]
    requires fuel == |st.closed| + 1
    ensures r.Diverges? <==> src == dest && !NoWalk(g, src, dest)
    ensures r.Diverges? ==> forall fuel: nat :: Trace(r.parent, dest, fuel) == None
    ensures r.Returns? ==>
      && |r.path| >= 2 && r.path[0] == src && r.path[|r.path| - 1] == dest && IsWalk(g, r.path)
  {
    ReachedOutcome(g, src, dest, st, rank, cur, parent);
    if src != dest {
      return Returns(Trace(parent, dest, fuel).value);
    }
    return Diverges(parent);
  }

  /** What the search returns once the destination is reached from the
      closed position `cur`: a walk from the source when the two differ, a
      parent walk that never ends when they coincide. */
  lemma ReachedOutcome(g: CarGrid, src: Pos, dest: Pos, st: State, rank: map<Pos, nat>, cur: Pos,
                       parent: map<Pos, Pos>)
    requires WellFormed(g) && Sound(g, src, dest, st, rank)
    requires cur in st.closed && Step(g, cur, dest) && parent == st.parent[dest := cur]
    ensures src != dest ==>
      var t := Trace(parent, dest, |st.closed| + 1);
      && t.Some? && |t.value| >= 2 && t.value[0] == src && t.value[|t.value| - 1] == dest
      && IsWalk(g, t.value) && !NoWalk(g, src, dest)
    ensures src == dest ==> (forall fuel: nat :: Trace(parent, dest, fuel) == None) && !NoWalk(g, src, dest)
  {
    RootedOfSound(g, src, dest, st, rank);
    if src != dest {
      assert dest !in st.closed;
      FoundPathSound(g, st.parent, st.closed, rank, src, dest, cur);
    } else {
      SelfLoopDiverges(g, st.parent, st.closed, rank, src, cur, parent);
    }
  }

  /** The walk from the destination, hung off the closed position `cur`,
      ends at the source and spells a walk of accepted moves. */
  lemma FoundPathSound(g: CarGrid, parent: map<Pos, Pos>, closed: set<Pos>, rank: map<Pos, nat>,
                       src: Pos, dest: Pos, cur: Pos)
    requires WellFormed(g) && Rooted(g, parent, closed, rank, src)
    requires forall p | p in closed :: rank[p] < |closed|
    requires cur in closed && dest !in closed && Step(g, cur, dest)
    ensures var t := Trace(parent[dest := cur], dest, |closed| + 1);
      && t.Some? && |t.value| >= 2 && t.value[0] == src && t.value[|t.value| - 1] == dest
      && IsWalk(g, t.value)
      && !NoWalk(g, src, dest)
  {
    var pm := parent[dest := cur];
    assert Rooted(g, pm, closed, rank, src);
    TraceFromClosed(g, pm, closed, rank, src, cur, |closed|);
    var t := Trace(pm, cur, |closed|).value;
    assert Trace(pm, dest, |closed| + 1) == Some(t + [dest]);
    var w := t + [dest];
    forall k | 0 <= k < |w| - 1
      ensures Step(g, w[k], w[k + 1])
    {
      if k < |t| - 1 {
        assert w[k] == t[k] && w[k + 1] == t[k + 1];
      }
    }
    assert IsWalk(g, w) && w[0] == src && w[|w| - 1] == dest;
  }

  /** With the source's parent overwritten by a closed position, no walk of
      parent links ends; and the walk to that position followed by the move
      back is a walk that returns to the source. */
  lemma SelfLoopDiverges(g: CarGrid, parent: map<Pos, Pos>, closed: set<Pos>, rank: map<Pos, nat>,
                         src: Pos, cur: Pos, pm: map<Pos, Pos>)
    requires WellFormed(g) && Rooted(g, parent, closed, rank, src)
    requires cur in closed && Step(g, cur, src) && pm == parent[src := cur]
    ensures forall fuel: nat :: Trace(pm, src, fuel) == None
    ensures !NoWalk(g, src, src)
  {
    SelfLoopNeverEnds(g, parent, closed, rank, src, cur, pm);
    SelfLoopWalk(g, parent, closed, rank, src, cur);
  }

  lemma SelfLoopNeverEnds(g: CarGrid, parent: map<Pos, Pos>, closed: set<Pos>, rank: map<Pos, nat>,
                          src: Pos, cur: Pos, pm: map<Pos, Pos>)
    requires WellFormed(g) && Rooted(g, parent, closed, rank, src)
    requires cur in closed && cur != src && pm == parent[src := cur]
    ensures forall fuel: nat :: Trace(pm, src, fuel) == None
  {
    forall q | q in closed
      ensures q in pm && pm[q] in closed && pm[q] != q
    {
      if q != src {
        assert parent[q] in closed && rank[parent[q]] < rank[q];
      }
    }
    forall fuel: nat
      ensures Trace(pm, src, fuel) == None
    {
      TraceNeverRoots(pm, closed, src, fuel);
    }
  }

  lemma SelfLoopWalk(g: CarGrid, parent: map<Pos, Pos>, closed: set<Pos>, rank: map<Pos, nat>,
                     src: Pos, cur: Pos)
    requires WellFormed(g) && Rooted(g, parent, closed, rank, src)
    requires cur in closed && Step(g, cur, src)
    ensures !NoWalk(g, src, src)
  {
    TraceFromClosed(g, parent, closed, rank, src, cur, rank[cur]);
    var t := Trace(parent, cur, rank[cur]).value;
    var w := t + [src];
    forall k | 0 <= k < |w| - 1
      ensures Step(g, w[k], w[k + 1])
    {
      if k < |t| - 1 {
        assert w[k] == t[k] && w[k + 1] == t[k + 1];
      }
    }
    assert IsWalk(g, w) && w[0] == src && w[|w| - 1] == src && |w| >= 2;
  }

  /** A sound search whose open list has run out has found that no walk
      reaches the destination. */
  lemma SearchExhausted(g: CarGrid, src: Pos, dest: Pos, st: State, rank: map<Pos, nat>)
    requires WellFormed(g) && Sound(g, src, dest, st, rank) && Explored(g, dest, st, st.closed)
    requires |st.open| == 0
    ensures NoWalk(g, src, dest)
  {
    assert src in st.closed;
    ExploredMoves(g, dest, st, st.closed);
    ExhaustedNoWalk(g, src, dest, st.closed);
  }

  /** When the closed set contains the source, is closed under accepted
      moves and no move out of it reaches the destination, no walk does. */
  lemma ExhaustedNoWalk(g: CarGrid, src: Pos, dest: Pos, closed: set<Pos>)
    requires WellFormed(g) && src in closed
    requires forall c, n | c in closed && Step(g, c, n) :: n != dest && n in closed
    ensures NoWalk(g, src, dest)
  {
    forall w: seq<Pos> | 2 <= |w| && w[0] == src && IsWalk(g, w)
      ensures w[|w| - 1] != dest
    {
      WalkStaysIn(g, closed, w, |w| - 2);
      assert Step(g, w[|w| - 2], w[|w| - 1]);
    }
  }

  /** `compute_path`: the search's path without its first position. Empty
      exactly when no walk reaches the destination; otherwise it ends at the
      destination and, preceded by the source, is a walk of accepted moves. */
  method ComputePath(g: CarGrid, src: Pos, dest: Pos, reached: bool, h: Pos -> real)
    returns (r: Outcome)
    requires WellFormed(g) && InBounds(g, src.0, src.1) && g[src.0][src.1].Present?
    ensures r.Diverges? <==> src == dest && !NoWalk(g, src, dest)
    ensures r.Returns? ==> (r.path == [] <==> NoWalk(g, src, dest))
    ensures r.Returns? && r.path != [] ==> r.path[|r.path| - 1] == dest && IsWalk(g, [src] + r.path)
  {
    var s := AStarSearch(g, src, dest, reached, h);
    if s.Diverges? {
      return s;
    }
    if |s.path| >= 2 {
      assert s.path == [src] + s.path[1..];
      assert !NoWalk(g, src, dest) by {
        assert IsWalk(g, s.path) && s.path[0] == src;
      }
    }
    return Returns(if |s.path| == 0 then [] else s.path[1..]);
  }

  /** The search with the destination test kept off the source: a car
      already at its destination gets the one-position path [src]; the
      result is always a path, never a walk that fails to end. */
  method AStarSearchFixed(g: CarGrid, src: Pos, dest: Pos, reached: bool, h: Pos -> real)
    returns (path: seq<Pos>)
    requires WellFormed(g) && InBounds(g, src.0, src.1) && g[src.0][src.1].Present?
    ensures src == dest ==> path == [src]
    ensures |path| >= 2 ==> path[0] == src && path[|path| - 1] == dest && IsWalk(g, path)
    ensures src != dest && |path| < 2 ==> path == (if reached then [] else [src]) && NoWalk(g, src, dest)
    ensures src != dest ==> (|path| < 2 <==> NoWalk(g, src, dest))
  {
    if src == dest {
      return [src];
    }
    var r := AStarSearch(g, src, dest, reached, h);
    path := r.path;
    if |path| >= 2 {
      assert !NoWalk(g, src, dest) by {
        assert 2 <= |path| && path[0] == src && IsWalk(g, path);
      }
    }
  }

  /** A 1 x 2 grid of intersection cells. */
  function PairGrid(): (g: CarGrid)
    ensures WellFormed(g)
  {
    [[Present(IntersectionType), Present(IntersectionType)]]
  }

  /** On two adjacent intersection cells a walk leaves the source and comes
      back, so a search whose destination is its source diverges there. */
  lemma ReturnToSourceWalk()
    ensures !NoWalk(PairGrid(), (0, 0), (0, 0))
  {
    var g := PairGrid();
    var w := [(0, 0), (0, 1), (0, 0)];
    assert Step(g, (0, 0), (0, 1));
    assert Step(g, (0, 1), (0, 0));
    assert IsWalk(g, w);
  }
}

=== FILE: sorting.dfy ===
/** Ascending sort of integer lists, standing in for Python's `sorted`. */
module Sorting {

  predicate Sorted(s: seq<int>)
  {
    forall i, j :: 0 <= i < j < |s| ==> s[i] <= s[j]
  }

  /** Places `x` into the sorted list `s`. */
  function Insert(x: int, s: seq<int>): (r: seq<int>)
    requires Sorted(s)
    ensures Sorted(r)
    ensures multiset(r) == multiset(s) + multiset{x}
    ensures |r| == |s| + 1
    ensures r[0] == if |s| == 0 || x <= s[0] then x else s[0]
  {
    if |s| == 0 then [x]
    else if x <= s[0] then [x] + s
    else
      assert s == [s[0]] + s[1..];
      var rest := Insert(x, s[1..]);
      ConsSorted(s[0], rest);
      [s[0]] + rest
  }

  /** A head no larger than the first element keeps a sorted list sorted. */
  lemma ConsSorted(a: int, r: seq<int>)
    requires Sorted(r) && (|r| > 0 ==> a <= r[0])
    ensures Sorted([a] + r)
  {
    var t := [a] + r;
    forall i, j | 0 <= i < j < |t| ensures t[i] <= t[j] {
      if i > 0 {
        assert t[i] == r[i - 1] && t[j] == r[j - 1];
      } else {
        assert t[j] == r[j - 1];
      }
    }
  }

  /** The ascending permutation of `s`. */
  function Sort(s: seq<int>): (r: seq<int>)
    ensures Sorted(r)
    ensures multiset(r) == multiset(s)
    ensures |r| == |s|
  {
    if |s| == 0 then []
    else
      assert s == [s[0]] + s[1..];
      Insert(s[0], Sort(s[1..]))
  }
}

=== FILE: vehicle.dfy ===
/** One car of the simulation: its creation on a start cell, the speed taken
    from that cell's type, and the per-tick update that walks the planned
    path. The cells' lights and occupancy, and the random hesitation draw,
    are outside the car: an update sees them through an `Env` of oracles and
    reports the `car_enters` / `leaving` calls it makes as `Event`s. */
module Vehicle {
  import opened Common
  import opened Lanes
  import opened Search

  /** The calls a car makes on grid cells. */
  datatype Event = Enters(at: Pos) | Leaving(at: Pos)

  datatype Car = Car(
    id: int,
    source: Pos,
    position: Pos,
    destination: Pos,
    path: seq<Pos>,
    reached: bool,
    timeSpent: nat,
    pathIndex: nat,
    speed: real)

  /** What an update may observe, indexed by the sub-step `k` of the tick:
      whether the random draw exceeds the move probability, whether the
      light of an intersection is green, and whether a cell is occupied. */
  datatype Env = Env(hesitate: nat -> bool, green: (nat, Pos) -> bool, occupied: (nat, Pos) -> bool)

  /** Why a sub-step stops, in the order the update tests it. */
  datatype Verdict = OffGrid | Hesitated | RedLight | Blocked | Go

  /** The outcome of one update: the new car and the calls made; an
      out-of-range index into the path (the path in effect is kept); or an
      update that never returns because the path reconstruction loops. */
  datatype Tick = Moved(car: Car, events: seq<Event>) | IndexError(path: seq<Pos>, events: seq<Event>) | Hangs

  /** Python's `int()` on a real: truncation toward zero. */
  function Trunc(r: real): (t: int)
    ensures r >= 0.0 ==> t as real <= r < t as real + 1.0
    ensures r < 0.0 ==> t as real - 1.0 < r <= t as real
  {
    if r >= 0.0 then r.Floor else -((-r).Floor)
  }

  /** The number of sub-steps a tick attempts: `range(int(speed))`, empty
      for a non-positive count. */
  function Steps(speed: real): (n: nat)
    ensures speed >= 1.0 ==> n as real <= speed < n as real + 1.0
    ensures speed < 1.0 ==> n == 0
  {
    Max(0, Trunc(speed))
  }

  /** A speed of half a cell type gives `type / 2` sub-steps: 1 on local
      roads and intersections, 2 on collectors, 3 on highways, none on a
      negative type. */
  lemma HalfSpeedSteps(t: int)
    ensures Steps(t as real / 2.0) == Max(0, t) / 2
  {
  }

  /** The car placed on its start cell: speed is half the start cell's type,
      nothing is planned yet, and the start cell is entered. */
  function NewCar(g: CarGrid, id: int, start: Pos, destination: Pos): (r: (Car, seq<Event>))
    requires WellFormed(g) && InBounds(g, start.0, start.1) && g[start.0][start.1].Present?
    ensures r.0.position == r.0.source == start && r.0.destination == destination && r.0.id == id
    ensures r.0.path == [] && !r.0.reached && r.0.timeSpent == 0 && r.0.pathIndex == 0
    ensures Steps(r.0.speed) == Max(0, g[start.0][start.1].cellType) / 2
    ensures r.1 == [Enters(start)]
  {
    var t := g[start.0][start.1].cellType;
    HalfSpeedSteps(t);
    (Car(id, start, start, destination, [], false, 0, 0, t as real / 2.0), [Enters(start)])
  }

  /** The checks of one sub-step towards `p`, first failing one wins: the
      target must be a road cell on the grid, the draw must not exceed the
      move probability, an intersection's light must be green, and the
      target must be free. */
  function Judge(g: CarGrid, env: Env, k: nat, p: Pos): (v: Verdict)
    requires WellFormed(g)
    ensures v == Go <==> (IsWithinGrid(g, p.0, p.1) && !env.hesitate(k)
                          && !(g[p.0][p.1].cellType == IntersectionType && !env.green(k, p))
                          && !env.occupied(k, p))
    ensures v == OffGrid <==> !IsWithinGrid(g, p.0, p.1)
    ensures v == Hesitated <==> IsWithinGrid(g, p.0, p.1) && env.hesitate(k)
    ensures v == RedLight <==> (IsWithinGrid(g, p.0, p.1) && !env.hesitate(k)
                                && g[p.0][p.1].cellType == IntersectionType && !env.green(k, p))
    ensures v == Blocked <==> (IsWithinGrid(g, p.0, p.1) && !env.hesitate(k)
                               && !(g[p.0][p.1].cellType == IntersectionType && !env.green(k, p))
                               && env.occupied(k, p))
  {
    if !IsWithinGrid(g, p.0, p.1) then OffGrid
    else if env.hesitate(k) then Hesitated
    else if g[p.0][p.1].cellType == IntersectionType && !env.green(k, p) then RedLight
    else if env.occupied(k, p) then Blocked
    else Go
  }

  /** The calls of a run of moves from `from` through `cells`: each move
      leaves the cell moved from and enters the next. */
  function MoveEvents(from: Pos, cells: seq<Pos>): seq<Event>
    decreases |cells|
  {
    if |cells| == 0 then [] else [Leaving(from), Enters(cells[0])] + MoveEvents(cells[0], cells[1..])
  }

  /** The cell a run of moves from `from` through `cells` ends on. */
  function Last(from: Pos, cells: seq<Pos>): Pos
  {
    if |cells| == 0 then from else cells[|cells| - 1]
  }

  /** One more move appends one leave-and-enter pair. */
  lemma {:induction false} MoveEventsSnoc(from: Pos, cells: seq<Pos>, c: Pos)
    ensures MoveEvents(from, cells + [c]) == MoveEvents(from, cells) + [Leaving(Last(from, cells)), Enters(c)]
    decreases |cells|
  {
    if |cells| > 0 {
      assert (cells + [c])[1..] == cells[1..] + [c];
      MoveEventsSnoc(cells[0], cells[1..], c);
    }
  }

  /** The cells this car holds occupied after its calls, starting from `held`. */
  function Marks(held: set<Pos>, evs: seq<Event>): set<Pos>
    decreases |evs|
  {
    if |evs| == 0 then held
    else Marks(if evs[0].Enters? then held + {evs[0].at} else held - {evs[0].at}, evs[1..])
  }

  lemma {:induction false} MarksAppend(held: set<Pos>, a: seq<Event>, b: seq<Event>)
    ensures Marks(held, a + b) == Marks(Marks(held, a), b)
    decreases |a|
  {
    if |a| > 0 {
      var held' := if a[0].Enters? then held + {a[0].at} else held - {a[0].at};
      assert (a + b)[0] == a[0] && (a + b)[1..] == a[1..] + b;
      assert Marks(held, a + b) == Marks(held', a[1..] + b);
      assert Marks(held, a) == Marks(held', a[1..]);
      MarksAppend(held', a[1..], b);
    } else {
      assert a + b == b;
    }
  }

  /** A run of moves from the one held cell leaves exactly its last cell held. */
  lemma {:induction false} MarksOfMoves(from: Pos, cells: seq<Pos>)
    ensures Marks({from}, MoveEvents(from, cells)) == {Last(from, cells)}
    decreases |cells|
  {
    if |cells| > 0 {
      var e := MoveEvents(from, cells);
      var rest := MoveEvents(cells[0], cells[1..]);
      assert e == [Leaving(from), Enters(cells[0])] + rest;
      MarksAppend({from}, [Leaving(from), Enters(cells[0])], rest);
      assert Marks({from}, [Leaving(from)]) == Marks({}, []) == {};
      assert Marks({}, [Enters(cells[0])]) == Marks({cells[0]}, []);
      MarksAppend({from}, [Leaving(from)], [Enters(cells[0])]);
      assert [Leaving(from)] + [Enters(cells[0])] == [Leaving(from), Enters(cells[0])];
      MarksOfMoves(cells[0], cells[1..]);
      if |cells| > 1 {
        assert Last(cells[0], cells[1..]) == Last(from, cells);
      }
    }
  }

  /** The sub-step `k` of a tick, towards the path cell `k` past the car's
      index, passes its checks. */
  predicate Passes(g: CarGrid, env: Env, c: Car, k: nat)
    requires WellFormed(g) && c.pathIndex + k < |c.path|
  {
    Judge(g, env, k, c.path[c.pathIndex + k]) == Go
  }

  /** `n` moves along the path from the car's index fit the path and the
      step budget, and each of them passed the checks of its sub-step. */
  ghost predicate Walked(g: CarGrid, env: Env, c: Car, n: nat)
    requires WellFormed(g)
  {
    && c.pathIndex + n <= |c.path|
    && n <= Steps(c.speed)
    && (forall k | 0 <= k < n :: Passes(g, env, c, k))
  }

  lemma WalkedMore(g: CarGrid, env: Env, c: Car, n: nat)
    requires WellFormed(g) && Walked(g, env, c, n)
    requires c.pathIndex + n < |c.path| && n < Steps(c.speed)
    requires Passes(g, env, c, n)
    ensures Walked(g, env, c, n + 1)
  {
  }

  /** A tick that stops before the path's last cell, having spent its budget
      or met a failing check, does not overrun. */
  lemma StopsShort(g: CarGrid, env: Env, c: Car, m: nat)
    requires WellFormed(g) && c.pathIndex + m < |c.path| && m <= Steps(c.speed)
    requires m < Steps(c.speed) ==> !Passes(g, env, c, m)
    ensures !Overruns(g, env, c)
  {
  }

  /** The as-written tick ends without error after `c'.pathIndex - c.pathIndex`
      moves, strictly before the last path cell; the position is the path
      cell after the one last entered, the car is marked arrived when that
      look-ahead cell is the destination, and the final cell entered is then
      left. */
  ghost predicate Advanced(g: CarGrid, env: Env, c: Car, c': Car, evs: seq<Event>)
    requires WellFormed(g)
  {
    c.pathIndex <= c'.pathIndex < |c.path| &&
    var n := c'.pathIndex - c.pathIndex;
    var ahead := if n == 0 then c.position else c.path[c'.pathIndex];
    && Walked(g, env, c, n)
    && (n < Steps(c.speed) ==> !Passes(g, env, c, n))
    && c' == c.(position := c.path[c'.pathIndex], pathIndex := c'.pathIndex,
                timeSpent := c.timeSpent + 1, reached := ahead == c.destination)
    && evs == MoveEvents(c.position, c.path[c.pathIndex .. c'.pathIndex])
              + (if c'.reached then [Leaving(Last(c.position, c.path[c.pathIndex .. c'.pathIndex]))] else [])
  }

  /** Every remaining path cell passes its check within the step budget. */
  ghost predicate Overruns(g: CarGrid, env: Env, c: Car)
    requires WellFormed(g)
  {
    c.pathIndex < |c.path| && Walked(g, env, c, |c.path| - c.pathIndex)
  }

  /** The sub-step loop of the as-written update: entering a cell advances the
      index and then reads the position at the advanced index, which fails
      when the cell just entered was the last one of the path. */
  method Advance(g: CarGrid, env: Env, c: Car) returns (t: Tick)
    requires WellFormed(g) && !c.reached && c.pathIndex < |c.path|
    ensures t.Moved? || t.IndexError?
    ensures t.IndexError? <==> Overruns(g, env, c)
    ensures t.IndexError? ==> t.path == c.path && t.events == MoveEvents(c.position, c.path[c.pathIndex..])
    ensures t.Moved? ==> Advanced(g, env, c, t.car, t.events)
  {
    var s, evs, overran := SubSteps(g, env, c);
    if overran {
      assert c.path[c.pathIndex .. c.pathIndex + s] == c.path[c.pathIndex..];
      return IndexError(c.path, evs);
    }
    StopsShort(g, env, c, s);
    StoppedAdvanced(g, env, c, s, evs);
    var idx := c.pathIndex + s;
    var pos := if s == 0 then c.position else c.path[idx];
    var reached := pos == c.destination;
    var evs' := evs;
    if reached {
      evs' := evs + [Leaving(if s == 0 then c.position else c.path[idx - 1])];
    }
    t := Moved(c.(position := c.path[idx], pathIndex := idx, timeSpent := c.timeSpent + 1, reached := reached), evs');
  }

  /** The sub-steps of one as-written tick: `s` moves pass their checks, and
      either the last path cell was entered (`overran`) or the loop stopped
      short of it, on the budget or on a failing check. */
  method SubSteps(g: CarGrid, env: Env, c: Car) returns (s: nat, evs: seq<Event>, overran: bool)
    requires WellFormed(g) && c.pathIndex < |c.path|
    ensures c.pathIndex + s <= |c.path| && Walked(g, env, c, s)
    ensures overran <==> c.pathIndex + s == |c.path|
    ensures !overran ==> s < Steps(c.speed) ==> !Passes(g, env, c, s)
    ensures evs == MoveEvents(c.position, c.path[c.pathIndex .. c.pathIndex + s])
  {
    var i0 := c.pathIndex;
    var n := Steps(c.speed);
    var idx := i0;
    evs := [];
    s := 0;
    while s < n
      invariant 0 <= s <= n && idx == i0 + s && idx < |c.path|
      invariant evs == MoveEvents(c.position, c.path[i0..idx])
      invariant Walked(g, env, c, s)
    {
      var next := c.path[idx];
      if Judge(g, env, s, next) != Go {
        return s, evs, false;
      }
      var cur := if s == 0 then c.position else c.path[idx - 1];
      assert c.path[i0..idx + 1] == c.path[i0..idx] + [next];
      MoveEventsSnoc(c.position, c.path[i0..idx], next);
      WalkedMore(g, env, c, s);
      evs := evs + [Leaving(cur), Enters(next)];
      idx := idx + 1;
      s := s + 1;
      if idx >= |c.path| {
        return s, evs, true;
      }
    }
    overran := false;
  }

  /** A sub-step loop stopped after `s` passing moves, short of the last
      path cell, has made an as-written tick. */
  lemma StoppedAdvanced(g: CarGrid, env: Env, c: Car, s: nat, evs: seq<Event>)
    requires WellFormed(g) && c.pathIndex + s < |c.path| && Walked(g, env, c, s)
    requires s < Steps(c.speed) ==> !Passes(g, env, c, s)
    requires evs == MoveEvents(c.position, c.path[c.pathIndex .. c.pathIndex + s])
    ensures var idx := c.pathIndex + s;
            var ahead := if s == 0 then c.position else c.path[idx];
            var c' := c.(position := c.path[idx], pathIndex := idx, timeSpent := c.timeSpent + 1,
                         reached := ahead == c.destination);
            Advanced(g, env, c, c', evs + if c'.reached then [Leaving(Last(c.position, c.path[c.pathIndex .. idx]))] else [])
  {
  }

  /** `update` as written: an arrived car only leaves its cell; a car with no
      path plans one from its position; a car past the end of its path
      leaves its cell without spending time; otherwise the sub-step loop. */
  method Update(g: CarGrid, env: Env, car: Car, h: Pos -> real) returns (t: Tick)
    requires WellFormed(g) && InBounds(g, car.position.0, car.position.1)
    requires g[car.position.0][car.position.1].Present?
    ensures car.reached ==> t == Moved(car, [Leaving(car.position)])
    ensures t.Hangs? <==> !car.reached && car.path == [] && car.position == car.destination
                          && !NoWalk(g, car.position, car.destination)
    ensures t.Moved? && !car.reached && car.path != [] ==> t.car.path == car.path
    ensures t.Moved? && !car.reached && car.path == [] ==>
      (t.car.path == [] <==> NoWalk(g, car.position, car.destination))
    ensures t.Moved? && !car.reached && car.path == [] && t.car.path != [] ==>
      t.car.path[|t.car.path| - 1] == car.destination && IsWalk(g, [car.position] + t.car.path)
    ensures t.Moved? && !car.reached && car.pathIndex >= |t.car.path| ==>
      t.car == car.(path := t.car.path) && t.events == [Leaving(car.position)]
    ensures t.Moved? && !car.reached && car.pathIndex < |t.car.path| ==>
      Advanced(g, env, car.(path := t.car.path), t.car, t.events)
    ensures t.IndexError? ==>
      (car.path != [] ==> t.path == car.path) && Overruns(g, env, car.(path := t.path))
      && t.events == MoveEvents(car.position, t.path[car.pathIndex..])
    ensures !car.reached && car.path != [] ==> (t.IndexError? <==> Overruns(g, env, car))
  {
    if car.reached {
      return Moved(car, [Leaving(car.position)]);
    }
    var path := car.path;
    if |path| == 0 {
      var o := ComputePath(g, car.position, car.destination, car.reached, h);
      if o.Diverges? {
        return Hangs;
      }
      path := o.path;
    }
    var c := car.(path := path);
    if c.pathIndex >= |path| {
      return Moved(c, [Leaving(car.position)]);
    }
    t := Advance(g, env, c);
  }

  /** The corrected tick: `c'.pathIndex - c.pathIndex` moves, up to the end
      of the path, with the position on the last cell entered; the car is
      marked arrived exactly when that cell is the destination, and then
      leaves it. */
  ghost predicate AdvancedFixed(g: CarGrid, env: Env, c: Car, c': Car, evs: seq<Event>)
    requires WellFormed(g)
  {
    c.pathIndex <= c'.pathIndex <= |c.path| &&
    var n := c'.pathIndex - c.pathIndex;
    var entered := c.path[c.pathIndex .. c'.pathIndex];
    && Walked(g, env, c, n)
    && (n < Steps(c.speed) && c'.pathIndex < |c.path| ==> !Passes(g, env, c, n))
    && c' == c.(position := Last(c.position, entered), pathIndex := c'.pathIndex,
                timeSpent := c.timeSpent + 1, reached := Last(c.position, entered) == c.destination)
    && evs == MoveEvents(c.position, entered) + (if c'.reached then [Leaving(c'.position)] else [])
  }

  /** The corrected sub-step loop: the position is the cell just entered,
      the loop also stops at the end of the path, and arriving marks the car
      and leaves the destination. */
  method AdvanceFixed(g: CarGrid, env: Env, c: Car) returns (c': Car, evs: seq<Event>)
    requires WellFormed(g) && !c.reached && c.pathIndex < |c.path|
    ensures AdvancedFixed(g, env, c, c', evs)
  {
    var i0 := c.pathIndex;
    var n := Steps(c.speed);
    var idx := i0;
    var cur := c.position;
    evs := [];
    var s := 0;
    while s < n && idx < |c.path|
      invariant 0 <= s <= n && idx == i0 + s && idx <= |c.path|
      invariant cur == Last(c.position, c.path[i0..idx])
      invariant evs == MoveEvents(c.position, c.path[i0..idx])
      invariant Walked(g, env, c, s)
    {
      var next := c.path[idx];
      if Judge(g, env, s, next) != Go {
        break;
      }
      assert c.path[i0..idx + 1] == c.path[i0..idx] + [next];
      MoveEventsSnoc(c.position, c.path[i0..idx], next);
      WalkedMore(g, env, c, s);
      evs := evs + [Leaving(cur), Enters(next)];
      idx := idx + 1;
      cur := next;
      s := s + 1;
    }
    var reached := cur == c.destination;
    if reached {
      evs := evs + [Leaving(cur)];
    }
    c' := c.(position := cur, pathIndex := idx, timeSpent := c.timeSpent + 1, reached := reached);
  }

  /** After a corrected tick the car holds exactly the cell it is on, or no
      cell once it has arrived. */
  lemma FixedTickHoldsPosition(g: CarGrid, env: Env, c: Car, c': Car, evs: seq<Event>)
    requires WellFormed(g) && AdvancedFixed(g, env, c, c', evs)
    ensures Marks({c.position}, evs) == if c'.reached then {} else {c'.position}
  {
    var entered := c.path[c.pathIndex .. c'.pathIndex];
    var moves := MoveEvents(c.position, entered);
    MarksOfMoves(c.position, entered);
    if c'.reached {
      MarksAppend({c.position}, moves, [Leaving(c'.position)]);
      assert [Leaving(c'.position)][1..] == [];
      assert Marks({c'.position}, [Leaving(c'.position)]) == Marks({}, []);
    } else {
      assert evs == moves + [] == moves;
      assert c'.position == Last(c.position, entered);
    }
  }

  /** The corrected update: a path is planned with the corrected search and
      stored without the start cell, and the sub-step loop keeps the
      position on the cell the car occupies. */
  method UpdateFixed(g: CarGrid, env: Env, car: Car, h: Pos -> real) returns (car': Car, evs: seq<Event>)
    requires WellFormed(g) && InBounds(g, car.position.0, car.position.1)
    requires g[car.position.0][car.position.1].Present?
    ensures car.reached ==> car' == car && evs == [Leaving(car.position)]
    ensures !car.reached && car.path != [] ==> car'.path == car.path
    ensures !car.reached && car.path == [] ==>
      (car'.path == [] <==> car.position == car.destination || NoWalk(g, car.position, car.destination))
    ensures !car.reached && car.path == [] && car'.path != [] ==>
      car'.path[|car'.path| - 1] == car.destination && IsWalk(g, [car.position] + car'.path)
    ensures !car.reached && car.pathIndex >= |car'.path| ==>
      car' == car.(path := car'.path) && evs == [Leaving(car.position)] && Marks({car.position}, evs) == {}
    ensures !car.reached && car.pathIndex < |car'.path| ==>
      AdvancedFixed(g, env, car.(path := car'.path), car', evs)
    ensures !car.reached && car.pathIndex < |car'.path| ==> Marks({car.position}, evs) == (if car'.reached then {} else {car'.position})
  {
    if car.reached {
      return car, [Leaving(car.position)];
    }
    var path := car.path;
    if |path| == 0 {
      var p := AStarSearchFixed(g, car.position, car.destination, car.reached, h);
      path := if |p| == 0 then [] else p[1..];
      if |p| >= 2 {
        assert p == [car.position] + path;
      }
    }
    var c := car.(path := path);
    if c.pathIndex >= |path| {
      assert [Leaving(car.position)][1..] == [];
      return c, [Leaving(car.position)];
    }
    car', evs := AdvanceFixed(g, env, c);
    FixedTickHoldsPosition(g, env, c, car', evs);
  }

  /** A one-row road of local cells and a car that moves one cell per tick,
      with every check passing. */
  const Strip: CarGrid := [[Present(2), Present(2), Present(2), Present(2)]]
  const AllGo: Env := Env(_ => false, (_, _) => true, (_, _) => false)

  function StripCar(path: seq<Pos>, dest: Pos): Car
  {
    Car(0, (0, 0), (0, 0), dest, path, false, 0, 0, 1.0)
  }

  /** As written, a car whose next cell is its destination fails the tick it
      enters it: the index moves past the end of the path before the position
      is read. */
  method EnteringDestinationFails() returns (t: Tick)
    ensures t.IndexError? && t.events == [Leaving((0, 0)), Enters((0, 1))]
  {
    assert Judge(Strip, AllGo, 0, (0, 1)) == Go;
    t := Update(Strip, AllGo, StripCar([(0, 1)], (0, 1)), _ => 0.0);
  }

  /** As written, after one move the car's position is one cell beyond the
      cell it entered and holds: the held cell and the position differ. */
  method PositionRunsAhead() returns (t: Tick)
    ensures t.Moved? && t.car.position == (0, 2)
    ensures Marks({(0, 0)}, t.events) == {(0, 1)}
  {
    var c := StripCar([(0, 1), (0, 2), (0, 3)], (0, 3));
    assert Judge(Strip, AllGo, 0, (0, 1)) == Go;
    assert !Overruns(Strip, AllGo, c) by {
      assert Steps(c.speed) == 1;
    }
    t := Update(Strip, AllGo, c, _ => 0.0);
    assert t.car.pathIndex == 1;
    assert c.path[0..1] == [(0, 1)];
    MarksOfMoves((0, 0), [(0, 1)]);
  }

  /** As written, a car blocked on its first sub-step takes the first path
      cell as its position without entering it. */
  method BlockedFirstTick() returns (t: Tick)
    ensures t == Moved(StripCar([(0, 1), (0, 2), (0, 3)], (0, 3)).(position := (0, 1), timeSpent := 1), [])
  {
    var c := StripCar([(0, 1), (0, 2), (0, 3)], (0, 3));
    var jam := Env(_ => false, (_, _) => true, (_, _) => true);
    assert Judge(Strip, jam, 0, (0, 1)) == Blocked;
    assert Steps(c.speed) == 1;
    assert !Passes(Strip, jam, c, 0);
    assert !Overruns(Strip, jam, c);
    t := Update(Strip, jam, c, _ => 0.0);
    assert t.car.pathIndex == 0;
    assert c.path[0..0] == [];
  }

  /** After the blocked first tick, the next tick leaves the first path cell
      instead of the start cell, which stays held for good. */
  method BlockedStartStaysHeld() returns (t1: Tick, t2: Tick)
    ensures t1.Moved? && t1.events == [] && t1.car.position == (0, 1)
    ensures t2.Moved? && Marks({(0, 0)}, t1.events + t2.events) == {(0, 0), (0, 1)}
  {
    t1 := BlockedFirstTick();
    var c1 := t1.car;
    assert Judge(Strip, AllGo, 0, (0, 1)) == Go;
    assert Steps(c1.speed) == 1;
    assert !Overruns(Strip, AllGo, c1);
    t2 := Update(Strip, AllGo, c1, _ => 0.0);
    assert t2.car.pathIndex == 1;
    assert c1.path[0..1] == [(0, 1)];
    assert MoveEvents((0, 1), [(0, 1)]) == [Leaving((0, 1)), Enters((0, 1))] + MoveEvents((0, 1), []);
    assert !t2.car.reached;
    assert t2.events == [Leaving((0, 1)), Enters((0, 1))];
    assert t1.events + t2.events == [Leaving((0, 1)), Enters((0, 1))];
    assert {(0, 0)} - {(0, 1)} == {(0, 0)};
    assert [Leaving((0, 1)), Enters((0, 1))][1..] == [Enters((0, 1))];
    assert Marks({(0, 0)}, [Enters((0, 1))]) == Marks({(0, 0), (0, 1)}, []);
  }

  /** The corrected update on the same car enters the destination and
      arrives, holding no cell afterwards. */
  method FixedEntersDestination() returns (car': Car, evs: seq<Event>)
    ensures car'.reached && car'.position == (0, 1)
    ensures evs == [Leaving((0, 0)), Enters((0, 1)), Leaving((0, 1))]
  {
    assert Judge(Strip, AllGo, 0, (0, 1)) == Go;
    var c := StripCar([(0, 1)], (0, 1));
    assert Steps(c.speed) == 1;
    car', evs := UpdateFixed(Strip, AllGo, c, _ => 0.0);
    assert car'.pathIndex == 1;
    assert c.path[0..1] == [(0, 1)];
    assert MoveEvents((0, 0), [(0, 1)]) == [Leaving((0, 0)), Enters((0, 1))] + MoveEvents((0, 1), []);
  }
}
